=== FILE: README.md ===
# Graham's Relay — a Dafny model of the game's state systems

Graham's Relay is a small first-person game built on the Bevy engine. The
player walks through levels authored in Blender and flips switches, which open
doors, toggle lights, play sounds and animations, and start trains. The levels
reach the game as `.world` RON files written by a Blender exporter script.

This project models the game's state machinery and proves properties of it:

- the game states and the transitions requested between them (pre-loading,
  character loading, world initialisation and world loading);
- the world asset records and their loader;
- the resources the game keeps: the world state, with its maps of doors,
  lights, sounds, trains, animatables and interactables, and the per-system
  states;
- every per-tick system of the core: cursor lock, mouse look, keyboard
  intents, movement and character animation, interaction targeting and
  clicks, the action dispatcher, and the door, light, sound, animatable,
  train, inventory and world-flag handlers;
- the Blender exporter's conversion of scene objects into the RON text.

Each module follows one source file. Resources whose fields the game updates in
place are classes, and each system is a method over them. Every event-driven
system is proved against a fold over its events. The lemmas about that fold
state what the system promises: parity of toggles, that the last registered
request wins, that an unknown action is skipped, and that splitting the
events across ticks makes no difference.

A Rust panic (an `unwrap` on a missing entry, a `usize` underflow, an index past
the end) is an `Outcome.Panic` result. Each such method gives the exact inputs
that cause it as an if-and-only-if. The engine's services are inputs to the
methods:

- the scene spawner is a map from scene instance to the entities it has
  reported so far;
- a ray cast is the list of entities whose colliders the ray meets, nearest first, and the hit is the first of them on the ray's collision layer (`RayHit`);
- keyboard and mouse state are sets of keys and sequences of deltas;
- the camera's dot product for audio panning is a function argument.

## Model

| member | source | states |
|---|---|---|
| Common.JoinSplit | tools/blender_exporter.py:40 | Splitting a name on `.` and joining the pieces gives the name back, so the parts are a faithful decomposition |
| Common.SplitCount | tools/blender_exporter.py:40 | A name splits into one more part than it has dots |
| Common.SplitHasSecondPiece | src/world/interactable_state.rs:96-98 | A second part (the clip name of an `animate` argument) exists exactly when the text contains a dot |
| Common.SplitAfterFirst | src/world/interactable_state.rs:96-98 | The first part is everything before the first dot, and the rest splits independently |
| Common.SplitPiecesAvoidSep | tools/blender_exporter.py:40 | No part contains the separator |
| Common.ParseNatToString | src/world/inventory_state.rs:128 | The decimal text of a count reads back as the same count |
| Common.LowestEntity | src/world/world_loading.rs:494 | Returns none exactly for an empty entity set, and otherwise the least entity of the set |
| Common.LeastExists | src/world/world_loading.rs:494 | Every non-empty set of entity ids has a least element |
| WorldAssets.Load | src/world/world_asset_loader.rs:92-102 | A malformed file yields the parse error; otherwise exactly one asset, the parsed one, is registered |
| WorldAssets.ClaimsExtension | src/world/world_asset_loader.rs:104-106 | The loader claims exactly the `world` extension |
| WorldStates.AnimatableState.Default | src/world/world_state.rs:24-28 | The default animatable has no scene entity and no clips |
| WorldStates.WorldTrainState.Default | src/world/world_state.rs:39-43 | The default train is stopped, with no parent entity |
| WorldStates.DoorState.Default | src/world/world_state.rs:46-50 | The default door is closed, with no parent entity |
| WorldStates.WorldState.constructor | src/world/world_state.rs:8-17 | Every registry map starts empty, with no active train and no active world |
| WorldStates.RayHit | src/world/interactable_state.rs:51-57 | The hit is none exactly when no entity along the ray is on its layer; otherwise it is the nearest one that is |
| WorldStates.Scene.Spawn | src/world/world_loading.rs:203-248 | A spawned entity takes the next id, and the counter advances past it, so ids are fresh |
| WorldStates.Scene.SpawnScene | src/world/world_loading.rs:110-173 | A spawned scene takes the next instance id, and the counter advances past it |
| WorldLoading.WorldLoadingState.SetupWorldInit | src/world/world_loading.rs:38-60 | Clears the initialised flag, shows the "Spawning" text, and despawns the previous level: no point light, transform or ray target is left, while the id counters keep running |
| WorldLoading.WorldLoadingState.UpdateWorldInit | src/world/world_loading.rs:62-75 | On its first tick, requests `Credits` for the credits world and `CharacterLoading` otherwise; later ticks request nothing |
| WorldLoading.WorldLoadingState.SetupWorldLoading | src/world/world_loading.rs:77-453 | Panics exactly when an animatable prop of an unknown kind is met outside colliders mode, or a train not on the train level; otherwise the world state and scene equal the registration of the chosen level |
| WorldLoading.WorldLoadingState.ResetLevel | src/world/world_loading.rs:91-101 | Every registry and the pending animatables are emptied, loading is not done, no train is active, and the counters are kept |
| WorldLoading.WorldLoadingState.LoadFixtures | src/world/world_loading.rs:203-323 | The state after doors, interactables, lights and sounds equals the four registration folds applied in that order |
| WorldLoading.WorldLoadingState.LoadProps | src/world/world_loading.rs:110-173 | Panics exactly on an animatable prop of an unknown kind outside colliders mode; otherwise the state is the prop registration fold |
| WorldLoading.WorldLoadingState.LoadDoors | src/world/world_loading.rs:203-248 | The state after the loop equals the door registration fold |
| WorldLoading.WorldLoadingState.LoadInteractables | src/world/world_loading.rs:252-277 | The state after the loop equals the interactable registration fold |
| WorldLoading.WorldLoadingState.LoadLights | src/world/world_loading.rs:280-310 | The state after the loop equals the light registration fold |
| WorldLoading.WorldLoadingState.LoadSounds | src/world/world_loading.rs:313-323 | The state after the loop equals the sound registration fold |
| WorldLoading.WorldLoadingState.LoadNestedProps | src/world/world_loading.rs:366-384 | The state after the loop equals the nested prop registration fold |
| WorldLoading.WorldLoadingState.LoadTrain | src/world/world_loading.rs:327-452 | One train panics exactly when it names another nested level; otherwise the state is that train's registration |
| WorldLoading.WorldLoadingState.LoadTrains | src/world/world_loading.rs:327-452 | Panics exactly when a train is not on the train level; otherwise the state is the train registration fold |
| WorldLoading.WorldLoadingState.UpdateWorldLoading | src/world/world_loading.rs:455-509 | Once done, nothing changes. With nothing waiting, the step finishes and requests `Running`. Otherwise each waiting animatable whose scene has reported entities gets the lowest of them and its clips |
| WorldLoadingFacts.PropsFrame | src/world/world_loading.rs:110-173 | Registering props touches only the pending animatables and the instance counter |
| WorldLoadingFacts.PropsRegistration | src/world/world_loading.rs:166-171 | Old pending animatables are kept, and each new one is on a fresh scene instance; in colliders mode nothing is recorded and no instance is spawned |
| WorldLoadingFacts.PropsNamed | src/world/world_loading.rs:166-171 | Outside colliders mode, when no prop aborts, the pending animatables gain exactly the names the props carry |
| WorldLoadingFacts.DoorsFrame | src/world/world_loading.rs:203-248 | Registering doors touches only the doors and the entity counter |
| WorldLoadingFacts.DoorsRegistration | src/world/world_loading.rs:203-248 | Every named door is registered closed with a fresh parent entity, and other doors are kept |
| WorldLoadingFacts.InteractablesFrame | src/world/world_loading.rs:252-277 | Registering interactables touches only interactables, ray targets and the entity counter |
| WorldLoadingFacts.InteractablesTargeting | src/world/world_loading.rs:252-420 | A new interactable is on the ray's layer exactly when it belongs to the level itself or its trigger is "click", so a train's other interactables can never be targeted; earlier entities keep their layer |
| WorldLoadingFacts.InteractablesRegistration | src/world/world_loading.rs:252-277 | One new interactable per rule, each on a fresh entity; old ones are kept, and top-level ones are ray targets |
| WorldLoadingFacts.LightsFrame | src/world/world_loading.rs:280-310 | Registering lights touches only the lights, the point-light intensities and the entity counter |
| WorldLoadingFacts.LightsRegistration | src/world/world_loading.rs:280-310 | One entity per light; the animatable lights gain exactly the named ones |
| WorldLoadingFacts.SoundsRegistration | src/world/world_loading.rs:313-323 | Every named sound is registered centred (panning 0.5) at volume 0.5, with the sound file, position and paused flag of the last record naming it; earlier sounds are kept and nothing else changes |
| WorldLoadingFacts.NestedPropsRegistration | src/world/world_loading.rs:366-384 | Props nested in a train register no animatables and change no registry |
| WorldLoadingFacts.TrainChildrenFrame | src/world/world_loading.rs:339-441 | A train's children do not touch doors, sounds, pending animatables or trains |
| WorldLoadingFacts.TrainChildrenRegistration | src/world/world_loading.rs:386-441 | A train's children add its level's interactables and lights, on fresh entities |
| WorldLoadingFacts.TrainEntry | src/world/world_loading.rs:445-450 | An animatable train is registered stopped, with its parent entity |
| WorldLoadingFacts.TrainRegistration | src/world/world_loading.rs:327-452 | One train adds its level's interactables and lights, keeping ids fresh |
| WorldLoadingFacts.TrainsRegistration | src/world/world_loading.rs:327-452 | Every train adds one copy of the train level's interactables |
| WorldLoadingFacts.TrainsFrame | src/world/world_loading.rs:327-452 | Trains do not touch doors, sounds or pending animatables |
| WorldLoadingFacts.TrainsNamed | src/world/world_loading.rs:445-450 | The trains map gains exactly the animatable trains, each stopped with a parent entity |
| WorldLoadingFacts.TrainsLights | src/world/world_loading.rs:386-411 | With at least one train, the train level's lights are registered |
| WorldLoadingFacts.RegistrationNamed | src/world/world_loading.rs:77-453 | After setup, the doors, sounds and pending animatables are exactly those the level names, and doors start closed |
| WorldLoadingFacts.BeforeTrains | src/world/world_loading.rs:77-323 | Just before the trains load, no train is registered, the animatable lights are the level's own, and entity ids are still fresh |
| WorldLoadingFacts.RegistrationTrains | src/world/world_loading.rs:327-452 | After setup, the trains are exactly the level's animatable trains, each stopped and with a parent entity |
| WorldLoadingFacts.RegistrationLights | src/world/world_loading.rs:280-411 | After setup, the animatable lights are the level's plus, when it has a train, the train level's |
| WorldLoadingFacts.TrainChildrenKeepTransforms | src/world/world_loading.rs:366-441 | A train's children add no transform and only spawn new entities |
| WorldLoadingFacts.TrainsKeepTransforms | src/world/world_loading.rs:327-452 | Trains put their parents' transforms on fresh entities, so every earlier transform is kept |
| WorldLoadingFacts.RegistrationKeepsTransforms | src/world/world_loading.rs:77-453 | Loading a level keeps every transform of an entity spawned before it, such as the mover placed by character loading, so the train drive finds it |
| WorldLoadingFacts.RegistrationInteractables | src/world/world_loading.rs:252-277 | After setup, there is one interactable per level rule, plus one copy of the train level's rules per train |
| WorldLoadingFacts.TickShrinksWaiting | src/world/world_loading.rs:490-505 | After a tick, an animatable is still waiting exactly when its scene has reported no entity |
| WorldLoadingFacts.ResolvedClips | src/world/world_loading.rs:499-505 | A resolved switch gets the switch clip, and any other animatable gets no clip |
| WorldLoadingFacts.FirstReportResolves | src/world/world_loading.rs:490-505 | A switch resolves on the first tick whose report is non-empty, and later reports do not change it |
| Doors.TogglesByParity | src/world/door_state.rs:42-54 | A door ends open exactly when its start state differs from the parity of its toggles; the key set and parents are unchanged |
| Doors.DoubleToggleCancels | src/world/door_state.rs:46-54 | Toggling a door twice restores the doors |
| Doors.RegisteredDoorsNeverFail | src/world/door_state.rs:42-43 | Doors registered by world loading, which all have parents, never make the handler panic |
| Doors.UpdateDoorInteraction | src/world/door_state.rs:31-58 | Does nothing while unlocked. Locked, it panics exactly on a toggle of a registered door without a parent entity, ignores unknown names, and otherwise applies the toggles |
| Lights.Toggled | src/world/lights_state.rs:44-48 | A light at or below the threshold turns on at full intensity, and any brighter light turns off |
| Lights.TogglesByCount | src/world/lights_state.rs:40-48 | Each light's intensity depends only on its start value and the number of toggles naming it |
| Lights.ToggleThenMore | src/world/lights_state.rs:44-48 | Toggling is iteration of one step, so one more toggle is one more step |
| Lights.ToggleScenarios | src/world/lights_state.rs:44-48 | An off light turns on, then off again; a lit light turns off |
| Lights.SpotLightToggleFails | src/world/world_loading.rs:280-310 | A spot light registered as animatable has no point light, so toggling it panics |
| Lights.UpdateLightInteraction | src/world/lights_state.rs:29-53 | Does nothing while unlocked. Locked, it panics exactly on a registered light whose entity has no point light, ignores unknown names, and otherwise applies the toggles |
| Actions.DispatchByQueue | src/world/interactable_state.rs:87-115 | Dispatch appends each action's event to its own queue (audio, animatable or door) in order |
| Actions.DispatchAudio | src/world/interactable_state.rs:89-94 | The audio queue gains exactly the `audio` actions' events |
| Actions.DispatchAnimations | src/world/interactable_state.rs:95-104 | The animation queue gains exactly the `animate` actions' events |
| Actions.DispatchDoors | src/world/interactable_state.rs:105-110 | The door queue gains exactly the `toggle_door` actions' events |
| Actions.AudioOf | src/world/interactable_state.rs:89-94 | Every audio event plays the big switch sound |
| Actions.OneEventPerRecognisedAction | src/world/interactable_state.rs:87-115 | Without a panic, each recognised action sends exactly one event |
| Actions.DispatchAppend | src/world/interactable_state.rs:87-115 | Dispatching two runs of actions is dispatching one after the other |
| Actions.UnknownActionSkipped | src/world/interactable_state.rs:111-113 | An action of an unknown kind sends nothing |
| Actions.AnimateArgument | src/world/interactable_state.rs:95-104 | `name.clip` requests the clip on the named animatable, and any further parts are ignored |
| Actions.MalformedIffNoClip | src/world/interactable_state.rs:96-98 | An `animate` action fails exactly when its argument has no dot |
| Actions.DispatchActions | src/world/interactable_state.rs:87-115 | Panics exactly on a malformed `animate` action; otherwise sends what the dispatch function sends |
| Interactables.Zeroed | src/world/interactable_state.rs:79-81 | The cooldown ends at or below the threshold, and a cooldown already there is kept |
| Interactables.Target | src/world/interactable_state.rs:55-61 | The target is the hit entity's interactable, and it exists exactly when the ray hits a registered one |
| Interactables.InteractablesState.constructor | src/world/interactable_state.rs:14-18 | Starts with no active interactable and no cooldown |
| Interactables.InteractablesState.UpdateInteractableInteraction | src/world/interactable_state.rs:34-62 | While locked, the active interactable is the registered interactable of the first entity on the ray's layer, so a target is always a ray target; unlocked, it is kept |
| Interactables.InteractablesState.UpdateMouseClickInteraction | src/world/interactable_state.rs:65-123 | A click on an active interactable dispatches its actions and starts both cooldowns. It panics exactly on a malformed action, and otherwise only zeroes the cooldown |
| Animatables.PlaysFor | src/world/animatable_state.rs:40-52 | Plays at most one clip per player, only for a registered animatable with clips, always its first clip |
| Animatables.AnimationNameIgnored | src/world/animatable_state.rs:46 | The requested clip name does not matter: only the animatable's own first clip plays |
| Animatables.UnresolvedPlaysNothing | src/world/animatable_state.rs:40-52 | An animatable still waiting for its scene plays nothing |
| Animatables.ResolvedPlaysEveryChild | src/world/animatable_state.rs:40-52 | A resolved animatable plays on every player under its scene entity |
| Animatables.LoadedAnimatablePlays | src/world/animatable_state.rs:40-52 | A loaded switch plays the switch clip; any other animatable with players panics for want of a clip |
| Animatables.ChildIndex | src/world/animatable_state.rs:40-52 | A positive count of players under an entity has a witness player |
| Animatables.PlayRequest | src/world/animatable_state.rs:40-52 | One request fails exactly when it reaches a player under an animatable without clips; otherwise it plays what the request fold plays |
| Animatables.UpdateAnimatableInteraction | src/world/animatable_state.rs:30-53 | Does nothing while unlocked. Locked, it panics exactly when a matched player's animatable has no clip, and otherwise plays what the fold plays |
| KeyInput.KeyInputMap.Default | src/inputs/key_input.rs:20-35 | The default bindings are WASD, Space, Shift, Control, F, T and Escape |
| KeyInput.UnlockedMeansIdle | src/inputs/key_input.rs:76-92 | With the cursor unlocked, no intent is raised |
| KeyInput.VerticalIntents | src/inputs/key_input.rs:81-92 | Up and down follow the held jump and crouch keys. Jump and the two toggles follow just-pressed keys, and a jump implies up |
| KeyInput.DefaultBindings | src/inputs/key_input.rs:81-92 | Concrete key sets under the default bindings raise the expected intents |
| KeyInput.KeyInputState.constructor | src/inputs/key_input.rs:38-50 | Starts with no intent |
| KeyInput.KeyInputState.InputToMove | src/inputs/key_input.rs:68-93 | Requests `Paused` exactly when Escape is just pressed while locked; the intents become the keyboard's intents |
| MouseInput.MouseSettings.Default | src/inputs/mouse_input.rs:4-16 | The default sensitivities are 0.002 and 0.02 |
| MouseInput.ClampPitch | src/inputs/mouse_input.rs:94-99 | The pitch ends within the bound, saturates at the bound, and is unchanged inside it |
| MouseInput.ClampMonotone | src/inputs/mouse_input.rs:94-99 | Clamping keeps order |
| MouseInput.WheelTotalAppend | src/inputs/mouse_input.rs:84-87 | Wheel totals add across runs of events |
| MouseInput.CursorLockState.UpdateCursorLock | src/inputs/mouse_input.rs:55-71 | Escape unlocks and takes precedence; a left press locks; the window's grab and visibility follow the lock |
| MouseInput.MouseLookState.constructor | src/inputs/mouse_input.rs:27-33 | Starts at zero, within the pitch bound |
| MouseInput.MouseLookState.InputToLook | src/inputs/mouse_input.rs:73-118 | Keeps the pitch bound and does nothing while unlocked. Locked, it turns by the summed motion exactly when that is above the threshold, clamps the pitch, and zooms by the wheel total |
| Movement.UpdateMovement | src/movement/movement_state.rs:53-85 | The fly and view toggles flip their flags, and an impulse is written exactly when not flying |
| Movement.Choice | src/movement/movement_state.rs:157-182 | The switch animation wins while its timer runs; otherwise forward when moving forward, else idle |
| Movement.AnimPlays | src/movement/movement_state.rs:157-182 | Only the character's clips are played |
| Movement.ExpiredTimerSettles | src/movement/movement_state.rs:149-182 | With the timer expired, the timer stays and the chosen animation becomes current |
| Movement.SettledPlaysNothing | src/movement/movement_state.rs:157-182 | An animation already playing is not restarted |
| Movement.RepeatedTickIsQuiet | src/movement/movement_state.rs:157-182 | A second identical tick plays nothing |
| Movement.SwitchTimerWins | src/movement/movement_state.rs:149-182 | While the timer runs, it counts down and the switch animation plays once |
| Movement.UpdateCharacterState | src/movement/movement_state.rs:126-183 | Does nothing unlocked or flying. In colliders mode it only zeroes a running switch timer (one above 0.0001), leaving an expired one alone. Otherwise it equals one animator step |
| Movement.UpdateMouseInteraction | src/movement/movement_state.rs:185-255 | The hit is the first entity on the ray's layer. A counted click on a registered interactable dispatches its actions, panicking exactly on a malformed one. Any counted hit restarts the switch timer |
| Movement.MovementState.constructor | src/movement/movement_state.rs:19-25 | Starts walking, with no animation and no timer |
| CharacterLoading.CharacterLoadingState.SetupCharacterLoading | src/movement/character_loading.rs:31-91 | In every mode, spawns the mover on a fresh entity with its transform at (-0.5, 1.5, 0) and records it, plus the container (and two render spheres in colliders mode); outside colliders mode it also spawns the character scene on a fresh instance and records that |
| CharacterLoading.CharacterLoadingState.UpdateCharacterLoading | src/movement/character_loading.rs:107-140 | Requests world loading once: at once in colliders mode, or when the scene reports entities, taking the least one. It panics exactly when the scene was never spawned |
| Sounds.SoundPath | src/world/sounds_state.rs:41 | The asset path is the sound name wrapped in `audio/` and `.ogg` |
| Sounds.SetupSoundsInteraction | src/world/sounds_state.rs:32-47 | One channel per registered sound, playing its file, paused as the sound is |
| Sounds.TogglesByParity | src/world/sounds_state.rs:49-69 | A sound ends paused exactly when its start state differs from the parity of its toggles |
| Sounds.OnlyTogglesAct | src/world/sounds_state.rs:57-64 | Resume and pause events change nothing and send nothing |
| Sounds.CommandsKeepAgreement | src/world/sounds_state.rs:57-64 | The channels stay in agreement with the sounds' paused flags |
| Sounds.ApplyCommandsAppend | src/world/sounds_state.rs:57-64 | Channel commands compose across runs |
| Sounds.UpdateSoundsInteraction | src/world/sounds_state.rs:49-69 | The state and the channel commands are those of the toggle fold |
| Sounds.Panning | src/world/sounds_state.rs:82-83 | The panning is in [0, 1]: fully left at or below -2 and fully right at or above 2 |
| Sounds.UpdateSoundsStates | src/world/sounds_state.rs:71-90 | Each playing sound whose panning is off by more than epsilon is updated and sent; paused and settled ones are left alone. Afterwards every playing sound is within epsilon |
| Trains.ControlledOrigin | src/world/trains_state.rs:40-46 | The active train is the old one or a registered train some event named |
| Trains.ControlledAppend | src/world/trains_state.rs:40-46 | Control requests compose across runs of events |
| Trains.UnregisteredIgnored | src/world/trains_state.rs:40-46 | Requests for unregistered trains change nothing |
| Trains.LastRegisteredWins | src/world/trains_state.rs:40-46 | The last request for a registered train wins |
| Trains.UpdateTrainsInteraction | src/world/trains_state.rs:31-47 | While locked, the active train is the fold over the requests |
| Trains.Step | src/world/trains_state.rs:66-71 | W drives forward (-0.02 along z), S backward (+0.02), S wins over W, and no key means no step |
| Trains.MovingIffDriven | src/world/trains_state.rs:66-72 | The train moves exactly when W or S is held |
| Trains.MoveZ | src/world/trains_state.rs:74-86 | Moves one entity along z and leaves every other entity where it was |
| Trains.SoundsAlternate | src/world/trains_state.rs:87-93 | Train sound events start from the opposite of the running state, alternate between resume and pause, and never toggle |
| Trains.UpdateTrainsMovement | src/world/trains_state.rs:49-96 | Locked with a registered active train, it panics exactly on a missing parent or mover. Otherwise it moves train and mover together, records whether it runs, and emits the sound edge |
| Inventory.Apply | src/world/inventory_state.rs:117-120 | Adding increments below the `usize` top, removing decrements above zero, and anything else aborts |
| Inventory.ReplayNet | src/world/inventory_state.rs:100-133 | Without an abort, the count moves by additions minus removals |
| Inventory.AddThenRemoveRestores | src/world/inventory_state.rs:117-120 | An addition followed by a removal restores the count |
| Inventory.RemoveFromEmptyAborts | src/world/inventory_state.rs:120 | Removing from an empty inventory aborts |
| Inventory.Label | src/world/inventory_state.rs:128 | The label is "x " followed by at least one character |
| Inventory.LabelShowsCount | src/world/inventory_state.rs:128 | The label's digits read back as the count |
| Inventory.InventoryHud.constructor | src/world/inventory_state.rs:51-98 | The HUD starts reading "x 1", hidden |
| Inventory.UpdateInventoryInteraction | src/world/inventory_state.rs:100-133 | Does nothing while unlocked. Locked, it aborts exactly when the replay aborts; otherwise the count is the replay and the HUD shows it, visible exactly when positive |
| WorldFlags.EnableAllEffect | src/world/world_flags.rs:38-56 | The flags gain exactly the named ones, raised, and every other flag keeps its value |
| WorldFlags.EnableAllMonotone | src/world/world_flags.rs:53 | A raised flag stays raised |
| WorldFlags.EnableAllIdempotent | src/world/world_flags.rs:38-56 | Replaying the same events changes nothing more |
| WorldFlags.WorldFlagsState.UpdateWorldFlagsInteraction | src/world/world_flags.rs:38-56 | While locked, the flags become the enable fold over the events |
| PreLoading.RequestedAtMostOnce | src/loading/pre_loading.rs:49-62 | Over any run of ticks, asset loading is requested once if the font ever appears, and never again |
| PreLoading.PreLoadingState.UpdatePreLoading | src/loading/pre_loading.rs:49-62 | Requests `AssetLoading` exactly on the first tick with the font; the latch then stays closed |
| BlenderExporter.PrefixesExclusive | tools/blender_exporter.py:39-108 | The four kind prefixes are mutually exclusive, so the four `if`s pick at most one record |
| BlenderExporter.AxisConversionInverts | tools/blender_exporter.py:47 | Blender's Z-up coordinates convert to Y-up and back without loss |
| BlenderExporter.AxisConversionIsQuarterTurn | tools/blender_exporter.py:47 | The conversion keeps lengths and is a quarter turn: four applications are the identity |
| BlenderExporter.QuatConversionKeepsNorm | tools/blender_exporter.py:48 | The rotation conversion keeps a quaternion's norm |
| BlenderExporter.InteractionOf | tools/blender_exporter.py:73-82 | An interaction is exported exactly when the property exists, with its actions text or an empty one |
| BlenderExporter.AnimatableOf | tools/blender_exporter.py:97-100 | The animatable name is exported exactly when the property exists |
| BlenderExporter.EntryOf | tools/blender_exporter.py:39-108 | An object's name prefix decides its record kind; a name with fewer than two dotted parts fails, and so does a door name with fewer than three |
| BlenderExporter.KindFromName | tools/blender_exporter.py:40 | The prop kind is the second dotted part of the name |
| BlenderExporter.DoorFromName | tools/blender_exporter.py:52-65 | A `Door.prop.name` object exports a door of that prop with that name |
| BlenderExporter.EntryScalesNonNegative | tools/blender_exporter.py:49 | Every exported scale is non-negative |
| BlenderExporter.ExportFailsIff | tools/blender_exporter.py:33-108 | The export fails exactly when some object's name has too few parts |
| BlenderExporter.ExportAppend | tools/blender_exporter.py:33-108 | Exporting two runs of objects concatenates their records |
| BlenderExporter.IgnoredObjectSkipped | tools/blender_exporter.py:33-108 | An object of no known kind contributes nothing |
| BlenderExporter.ExportedScalesNonNegative | tools/blender_exporter.py:49 | Every scale in the exported world is non-negative |
| BlenderExporter.CollectRendersExport | tools/blender_exporter.py:33-124 | The single pass over the objects renders the same sections as exporting first and rendering after |
| BlenderExporter.AppendObject | tools/blender_exporter.py:33-108 | One object fails exactly when its name has too few parts; otherwise its record's text is appended to the section of its kind |
| BlenderExporter.CollectedIsRendered | tools/blender_exporter.py:33-124 | A pass over all objects that succeeds means the export succeeds, and the sections are the export's rendering |
| BlenderExporter.WriteRon | tools/blender_exporter.py:111-127 | The written text is the four sections wrapped in the `WorldAsset` frame, in order colliders, doors, interactables, props |
| BlenderExporter.BuildRon | tools/blender_exporter.py:27-127 | Fails exactly on a name with too few parts; otherwise the text is the RON assembly of the exported world |

## Left out

- Physics, rendering and audio playback: collider shapes, impulses, the
  character controller, camera transforms, lights' colours and audio decoding
  belong to the engine. Only the state the game itself keeps is modelled.
- Look quaternions and direction vectors (`src/inputs/mouse_input.rs`
  lines 101-115): these use trigonometry. `InputToLook` reports through
  `reoriented` only whether they were recomputed.
- Door rotation: the door handler's transform change is not modelled, only
  the open flag.
- RON parsing is an input to `WorldAssets.Load` (the parse result). The byte
  format is not modelled.
- Settings, menus, the loading UI, the diagnostics overlay, asset collections,
  the pause blockers and prompt text: these are not part of this model.
- The primary window `single_mut().unwrap()` and Bevy's `state.set(...)`
  errors: a game state request is returned as a value. The engine applying it
  is not modelled.
- The `CharacterState` resource is defined in a file that is not part of this
  model. It is declared here with the one field the systems read.
- Floating point: `f32` values are exact reals. The pitch bound is the decimal
  value of pi/2 − 0.001, and `f32::EPSILON` is a real constant.
- The movement impulse value and the camera move speed: `UpdateMovement`
  returns only whether an impulse is written.
- The scene spawner is a map from instance to the entity set it reports on a
  tick. The world loader resolves an animatable on the first tick whose report
  is non-empty (`WorldLoadingFacts.FirstReportResolves`).
- Sounds.UpdateSoundsInteraction: only `Toggle` acts. The sounds file
  (`src/world/sounds_state.rs` lines 8-10) declares `Toggle` as the only sound
  event action, while the train system (`src/world/trains_state.rs` lines 78
  and 90) sends `Resume` and `Pause`. The two source files disagree; the model
  adds `Resume` and `Pause` as variants, and the sounds handler leaves them
  unhandled.
- BlenderExporter.BuildRon: Python's `str(float)` is the parameter `fmt`.
  The components are reals, which have no signed zero, so the text cannot
  contain the `-0.0` Python prints for a negated zero component: an
  unrotated object's rotation is written `Quat(0.0,0.0,-0.0,1.0,)` by the
  exporter, while the model gives `fmt(0.0)` in all three zero places.
  Custom properties are taken as the text the exporter writes. The prop scale
  is absolute but not axis-swapped, as written. The exporter's `println`,
  `rotate_scene_x` and file writing are not modelled.
- PreLoading.PreLoadingState.UpdatePreLoading: whether the font has loaded is a
  boolean input; the setup's UI spawning is not modelled.
- Inventory.Apply: the model assumes a build with integer overflow checks on
  (Rust's debug profile), where stepping the `usize` count past zero or past
  its top aborts. A release build wraps instead (removing from zero gives
  `usize::MAX`), and that behaviour is not modelled.

=== FILE: actions.dfy ===
/** Actions: how a click turns an interaction's ordered `(kind, argument)`
    action list into events for the audio, animatable and door systems. Both
    click handlers (the interactable click and the character's own click) use
    the same three recognised kinds in the same way. */
module Actions {
  import opened Common
  import opened Animatables
  import opened Doors

  /** The audio request of an `audio_playonce` action: the sound asset is
      always the big switch clip, whatever the argument says. */
  datatype AudioEvent = PlayOnceSound(source: string)

  const BigSwitchSound: string := "audio/big_switch.ogg"

  const AudioKind: string := "audio_playonce"
  const AnimateKind: string := "animate"
  const ToggleDoorKind: string := "toggle_door"

  /** The events a click has sent so far, one queue per receiving system. */
  datatype Sent = Sent(audio: seq<AudioEvent>, animations: seq<AnimatableEvent>, doors: seq<DoorEvent>)

  const NothingSent: Sent := Sent([], [], [])

  predicate Recognised(kind: string)
  {
    kind == AudioKind || kind == AnimateKind || kind == ToggleDoorKind
  }

  /** An `animate` argument without a "." has no second part, so reading the
      clip name is an index out of bounds. */
  predicate Malformed(action: (string, string))
  {
    action.0 == AnimateKind && '.' !in action.1
  }

  /** The play request an `animate` argument describes: the text before the
      first "." names the animatable, the text up to the next "." the clip. */
  function AnimateRequest(arg: string): AnimatableEvent
  {
    var parts := Split(arg, '.');
    if |parts| >= 2 then PlayOnce(parts[0], parts[1]) else PlayOnce(parts[0], "")
  }

  /** What one action adds to the audio queue. */
  function AudioStep(action: (string, string)): seq<AudioEvent>
  {
    if action.0 == AudioKind then [PlayOnceSound(BigSwitchSound)] else []
  }

  /** What one action adds to the animation queue. */
  function AnimationStep(action: (string, string)): seq<AnimatableEvent>
  {
    if action.0 == AnimateKind && !Malformed(action) then [AnimateRequest(action.1)] else []
  }

  /** What one action adds to the door queue. */
  function DoorStep(action: (string, string)): seq<DoorEvent>
  {
    if action.0 == ToggleDoorKind then [Toggle(action.1)] else []
  }

  /** One action: a recognised kind appends exactly one event to its queue;
      any other kind is skipped. */
  function Emit(s: Sent, action: (string, string)): Sent
  {
    Sent(s.audio + AudioStep(action), s.animations + AnimationStep(action), s.doors + DoorStep(action))
  }

  /** The events sent by an action list, in declaration order. */
  function Dispatch(s: Sent, actions: seq<(string, string)>): Sent
    decreases |actions|
  {
    if actions == [] then s else Dispatch(Emit(s, actions[0]), actions[1..])
  }

  /** A click aborts when one of its actions is a malformed `animate`. */
  predicate DispatchFails(actions: seq<(string, string)>)
  {
    exists i | 0 <= i < |actions| :: Malformed(actions[i])
  }

  // ---------------------------------------------------------------------------
  // Reference definitions, one queue at a time
  // ---------------------------------------------------------------------------

  /** One big-switch sound per `audio_playonce` action. */
  function AudioOf(actions: seq<(string, string)>): (audio: seq<AudioEvent>)
    ensures forall e | e in audio :: e == PlayOnceSound(BigSwitchSound)
    decreases |actions|
  {
    if actions == [] then []
    else AudioStep(actions[0]) + AudioOf(actions[1..])
  }

  /** One play request per well-formed `animate` action. */
  function AnimationsOf(actions: seq<(string, string)>): seq<AnimatableEvent>
    decreases |actions|
  {
    if actions == [] then []
    else AnimationStep(actions[0]) + AnimationsOf(actions[1..])
  }

  /** One toggle per `toggle_door` action, naming the door its argument names. */
  function DoorsOf(actions: seq<(string, string)>): seq<DoorEvent>
    decreases |actions|
  {
    if actions == [] then []
    else DoorStep(actions[0]) + DoorsOf(actions[1..])
  }

  /** The number of actions of a recognised kind. */
  function RecognisedCount(actions: seq<(string, string)>): nat
    decreases |actions|
  {
    if actions == [] then 0 else (if Recognised(actions[0].0) then 1 else 0) + RecognisedCount(actions[1..])
  }

  /** Dispatching in one pass fills each queue exactly as filtering the action
      list for that queue's kind would, in declaration order. */
  lemma DispatchByQueue(s: Sent, actions: seq<(string, string)>)
    ensures Dispatch(s, actions) == Sent(s.audio + AudioOf(actions), s.animations + AnimationsOf(actions), s.doors + DoorsOf(actions))
  {
    DispatchAudio(s, actions);
    DispatchAnimations(s, actions);
    DispatchDoors(s, actions);
  }

  lemma {:induction false} DispatchAudio(s: Sent, actions: seq<(string, string)>)
    ensures Dispatch(s, actions).audio == s.audio + AudioOf(actions)
    decreases |actions|
  {
    if actions != [] {
      var a := actions[0];
      DispatchAudio(Emit(s, a), actions[1..]);
      assert s.audio + AudioStep(a) + AudioOf(actions[1..]) == s.audio + (AudioStep(a) + AudioOf(actions[1..]));
    }
  }

  lemma {:induction false} DispatchAnimations(s: Sent, actions: seq<(string, string)>)
    ensures Dispatch(s, actions).animations == s.animations + AnimationsOf(actions)
    decreases |actions|
  {
    if actions != [] {
      var a := actions[0];
      DispatchAnimations(Emit(s, a), actions[1..]);
      assert s.animations + AnimationStep(a) + AnimationsOf(actions[1..]) == s.animations + (AnimationStep(a) + AnimationsOf(actions[1..]));
    }
  }

  lemma {:induction false} DispatchDoors(s: Sent, actions: seq<(string, string)>)
    ensures Dispatch(s, actions).doors == s.doors + DoorsOf(actions)
    decreases |actions|
  {
    if actions != [] {
      var a := actions[0];
      DispatchDoors(Emit(s, a), actions[1..]);
      assert s.doors + DoorStep(a) + DoorsOf(actions[1..]) == s.doors + (DoorStep(a) + DoorsOf(actions[1..]));
    }
  }

  /** When the click does not abort, every recognised action sends exactly one
      event and nothing else is sent. */
  lemma {:induction false} OneEventPerRecognisedAction(actions: seq<(string, string)>)
    requires !DispatchFails(actions)
    ensures |AudioOf(actions)| + |AnimationsOf(actions)| + |DoorsOf(actions)| == RecognisedCount(actions)
    decreases |actions|
  {
    if actions != [] {
      assert !Malformed(actions[0]);
      assert !DispatchFails(actions[1..]) by {
        forall i | 0 <= i < |actions[1..]|
          ensures !Malformed(actions[1..][i])
        {
          assert actions[1..][i] == actions[i + 1];
        }
      }
      OneEventPerRecognisedAction(actions[1..]);
    }
  }

  /** Dispatching a list in two parts is dispatching the parts one after the other. */
  lemma {:induction false} DispatchAppend(s: Sent, xs: seq<(string, string)>, ys: seq<(string, string)>)
    ensures Dispatch(s, xs + ys) == Dispatch(Dispatch(s, xs), ys)
    decreases |xs|
  {
    if xs != [] {
      assert (xs + ys)[0] == xs[0];
      assert (xs + ys)[1..] == xs[1..] + ys;
      DispatchAppend(Emit(s, xs[0]), xs[1..], ys);
    } else {
      assert xs + ys == ys;
    }
  }

  /** An action of an unknown kind, wherever it stands, changes nothing the
      click sends and does not stop the actions after it. */
  lemma UnknownActionSkipped(s: Sent, xs: seq<(string, string)>, unknown: (string, string), ys: seq<(string, string)>)
    requires !Recognised(unknown.0)
    ensures Dispatch(s, xs + [unknown] + ys) == Dispatch(s, xs + ys)
  {
    DispatchAppend(s, xs + [unknown], ys);
    DispatchAppend(s, xs, [unknown]);
    DispatchAppend(s, xs, ys);
    var mid := Dispatch(s, xs);
    assert Dispatch(mid, [unknown]) == Emit(mid, unknown);
    assert AudioStep(unknown) == [] && AnimationStep(unknown) == [] && DoorStep(unknown) == [];
    assert mid.audio + [] == mid.audio && mid.animations + [] == mid.animations && mid.doors + [] == mid.doors;
  }

  /** An `animate` argument "name.clip", with no "." in either part, asks the
      animatable `name` to play `clip`; with more parts, the third and later
      ones are ignored. */
  lemma AnimateArgument(name: string, clip: string, tail: string)
    requires '.' !in name && '.' !in clip
    ensures AnimateRequest(name + "." + clip) == PlayOnce(name, clip)
    ensures AnimateRequest(name + "." + clip + "." + tail) == PlayOnce(name, clip)
  {
    SplitAfterFirst(name, '.', clip);
    SplitWithoutSep(clip, '.');
    assert name + "." + clip == name + ['.'] + clip;
    SplitAfterFirst(name, '.', clip + "." + tail);
    SplitAfterFirst(clip, '.', tail);
    assert name + "." + clip + "." + tail == name + ['.'] + (clip + ['.'] + tail);
  }

  /** An `animate` argument aborts the click exactly when it has no second part. */
  lemma MalformedIffNoClip(action: (string, string))
    requires action.0 == AnimateKind
    ensures Malformed(action) <==> |Split(action.1, '.')| < 2
  {
    SplitHasSecondPiece(action.1, '.');
  }

  /** Runs an interaction's actions in order, sending one event per recognised kind. */
  method DispatchActions(actions: seq<(string, string)>) returns (outcome: Outcome, sent: Sent)
    ensures outcome.Panic? <==> DispatchFails(actions)
    ensures outcome.Done? ==> sent == Dispatch(NothingSent, actions)
  {
    sent := NothingSent;
    var i := 0;
    while i < |actions|
      invariant 0 <= i <= |actions|
      invariant forall k | 0 <= k < i :: !Malformed(actions[k])
      invariant Dispatch(sent, actions[i..]) == Dispatch(NothingSent, actions)
    {
      var kind := actions[i].0;
      var arg := actions[i].1;
      ghost var before := sent;
      if kind == AudioKind {
        sent := sent.(audio := sent.audio + [PlayOnceSound(BigSwitchSound)]);
        assert AnimationStep(actions[i]) == [] && DoorStep(actions[i]) == [];
      } else if kind == AnimateKind {
        var parts := Split(arg, '.');
        SplitHasSecondPiece(arg, '.');
        if |parts| < 2 {
          return Panic("animate argument without a clip part"), sent;
        }
        sent := sent.(animations := sent.animations + [PlayOnce(parts[0], parts[1])]);
        assert AudioStep(actions[i]) == [] && DoorStep(actions[i]) == [];
      } else if kind == ToggleDoorKind {
        sent := sent.(doors := sent.doors + [Toggle(arg)]);
        assert AudioStep(actions[i]) == [] && AnimationStep(actions[i]) == [];
      } else {
        assert AudioStep(actions[i]) == [] && AnimationStep(actions[i]) == [] && DoorStep(actions[i]) == [];
      }
      assert sent == Emit(before, actions[i]);
      assert actions[i..][1..] == actions[i + 1..];
      i := i + 1;
    }
    outcome := Done;
  }
}

=== FILE: animatable_state.dfy ===
/** Animatables: a play request makes every animation player that sits under
    the named animatable's scene entity play that animatable's first clip. */
module Animatables {
  import opened Common
  import opened WorldStates
  import WorldLoading

  /** `AnimatableEvent` with its only action, `PlayOnce`; `animation` names a
      clip but is never read. */
  datatype AnimatableEvent = PlayOnce(name: string, animation: string)

  /** An animation player and the entity it is a child of. */
  datatype AnimationPlayer = AnimationPlayer(id: nat, parent: nat)

  /** One `play` command: which player starts which clip. */
  datatype Play = Play(player: nat, clip: string)

  /** The named animatable is resolved to the entity `parent`. */
  predicate Matches(animatables: map<string, AnimatableState>, name: string, parent: nat)
  {
    name in animatables && animatables[name].sceneEntity == Some(parent)
  }

  /** The plays one request causes, in player order. */
  function PlaysFor(animatables: map<string, AnimatableState>, players: seq<AnimationPlayer>, name: string): (plays: seq<Play>)
    ensures |plays| <= |players|
    ensures plays != [] ==> name in animatables && animatables[name].clips != []
    ensures forall p | p in plays :: p.clip == animatables[name].clips[0]
    decreases |players|
  {
    if players == [] then []
    else
      var rest := PlaysFor(animatables, players[1..], name);
      if Matches(animatables, name, players[0].parent) && animatables[name].clips != [] then
        [Play(players[0].id, animatables[name].clips[0])] + rest
      else rest
  }

  /** The plays a tick's requests cause, request by request. */
  function Plays(animatables: map<string, AnimatableState>, players: seq<AnimationPlayer>, events: seq<AnimatableEvent>): seq<Play>
    decreases |events|
  {
    if events == [] then []
    else PlaysFor(animatables, players, events[0].name) + Plays(animatables, players, events[1..])
  }

  /** A tick aborts when a request reaches a player under an animatable that
      has no clips (`clips[0]` is out of bounds). */
  predicate PlayFails(animatables: map<string, AnimatableState>, players: seq<AnimationPlayer>, events: seq<AnimatableEvent>)
  {
    exists i | 0 <= i < |events| :: RequestFails(animatables, players, events[i].name)
  }

  /** One request aborts: it reaches a player under an animatable without clips. */
  predicate RequestFails(animatables: map<string, AnimatableState>, players: seq<AnimationPlayer>, name: string)
  {
    exists j | 0 <= j < |players| :: Matches(animatables, name, players[j].parent) && animatables[name].clips == []
  }

  /** The clip name carried by a request never matters: requests naming the
      same animatables cause the same plays. */
  lemma {:induction false} AnimationNameIgnored(animatables: map<string, AnimatableState>, players: seq<AnimationPlayer>,
                                                events: seq<AnimatableEvent>, others: seq<AnimatableEvent>)
    requires |events| == |others|
    requires forall i | 0 <= i < |events| :: events[i].name == others[i].name
    ensures Plays(animatables, players, events) == Plays(animatables, players, others)
    ensures PlayFails(animatables, players, events) == PlayFails(animatables, players, others)
    decreases |events|
  {
    if events != [] {
      AnimationNameIgnored(animatables, players, events[1..], others[1..]);
    }
    if PlayFails(animatables, players, events) {
      var i :| 0 <= i < |events| && RequestFails(animatables, players, events[i].name);
      assert RequestFails(animatables, players, others[i].name);
    }
    if PlayFails(animatables, players, others) {
      var i :| 0 <= i < |others| && RequestFails(animatables, players, others[i].name);
      assert RequestFails(animatables, players, events[i].name);
    }
  }

  /** A request naming an unknown animatable, or one whose scene is not yet
      resolved, plays nothing. */
  lemma {:induction false} UnresolvedPlaysNothing(animatables: map<string, AnimatableState>, players: seq<AnimationPlayer>, name: string)
    requires name !in animatables || animatables[name].sceneEntity.None?
    ensures PlaysFor(animatables, players, name) == []
    decreases |players|
  {
    if players != [] {
      UnresolvedPlaysNothing(animatables, players[1..], name);
    }
  }

  /** The number of players that sit under `entity`. */
  function PlayersUnder(players: seq<AnimationPlayer>, entity: nat): nat
    decreases |players|
  {
    if players == [] then 0 else (if players[0].parent == entity then 1 else 0) + PlayersUnder(players[1..], entity)
  }

  /** A resolved animatable with clips plays its first clip once on every
      player under its entity. */
  lemma {:induction false} ResolvedPlaysEveryChild(animatables: map<string, AnimatableState>, players: seq<AnimationPlayer>, name: string)
    requires name in animatables && animatables[name].sceneEntity.Some? && animatables[name].clips != []
    ensures |PlaysFor(animatables, players, name)| == PlayersUnder(players, animatables[name].sceneEntity.value)
    decreases |players|
  {
    if players != [] {
      ResolvedPlaysEveryChild(animatables, players[1..], name);
    }
  }

  /** As loading resolves them, a "switch" animatable plays the switch clip on
      every child player and never aborts, while any other animatable aborts
      the tick as soon as it has a child player. */
  lemma LoadedAnimatablePlays(animatables: map<string, AnimatableState>, players: seq<AnimationPlayer>, name: string, entity: nat)
    requires name in animatables && animatables[name] == AnimatableState(Some(entity), WorldLoading.ClipsFor(name))
    ensures "switch" <= name ==> !PlayFails(animatables, players, [PlayOnce(name, "")])
    ensures "switch" <= name ==> forall p | p in PlaysFor(animatables, players, name) :: p.clip == WorldLoading.SwitchClip
    ensures !("switch" <= name) && PlayersUnder(players, entity) > 0 ==> PlayFails(animatables, players, [PlayOnce(name, "")])
  {
    if !("switch" <= name) && PlayersUnder(players, entity) > 0 {
      var j := ChildIndex(players, entity);
      assert RequestFails(animatables, players, [PlayOnce(name, "")][0].name);
    }
  }

  /** The position of a player under `entity`, when there is one. */
  lemma {:induction false} ChildIndex(players: seq<AnimationPlayer>, entity: nat) returns (j: nat)
    requires PlayersUnder(players, entity) > 0
    ensures j < |players| && players[j].parent == entity
    decreases |players|
  {
    if players[0].parent == entity {
      j := 0;
    } else {
      var k := ChildIndex(players[1..], entity);
      j := k + 1;
    }
  }

  /** Serves one request: every animation player under the named animatable's
      scene entity, in order, starts that animatable's first clip. */
  method PlayRequest(animatables: map<string, AnimatableState>, name: string, players: seq<AnimationPlayer>)
    returns (failed: bool, sent: seq<Play>)
    ensures failed <==> RequestFails(animatables, players, name)
    ensures !failed ==> sent == PlaysFor(animatables, players, name)
  {
    var j := 0;
    sent := [];
    while j < |players|
      invariant 0 <= j <= |players|
      invariant forall jj | 0 <= jj < j :: !(Matches(animatables, name, players[jj].parent) && animatables[name].clips == [])
      invariant sent + PlaysFor(animatables, players[j..], name) == PlaysFor(animatables, players, name)
    {
      if name in animatables {
        var state := animatables[name];
        if state.sceneEntity.Some? && state.sceneEntity.value == players[j].parent {
          if |state.clips| == 0 {
            assert Matches(animatables, name, players[j].parent);
            return true, sent;
          }
          sent := sent + [Play(players[j].id, state.clips[0])];
        }
      }
      assert players[j..][1..] == players[j + 1..];
      j := j + 1;
    }
    assert players[j..] == [];
    failed := false;
  }

  /** Runs the animatable system for one tick: for every request in order, for
      every animation player in order. */
  method UpdateAnimatableInteraction(ws: WorldState, cursorLocked: bool, events: seq<AnimatableEvent>, players: seq<AnimationPlayer>)
    returns (outcome: Outcome, plays: seq<Play>)
    ensures !cursorLocked ==> outcome == Done && plays == []
    ensures cursorLocked ==> (outcome.Panic? <==> PlayFails(ws.animatables, players, events))
    ensures outcome.Done? && cursorLocked ==> plays == Plays(ws.animatables, players, events)
  {
    plays := [];
    if !cursorLocked {
      return Done, plays;
    }
    var animatables := ws.animatables;
    var i := 0;
    while i < |events|
      invariant 0 <= i <= |events|
      invariant forall ii | 0 <= ii < i :: !RequestFails(animatables, players, events[ii].name)
      invariant plays + Plays(animatables, players, events[i..]) == Plays(animatables, players, events)
    {
      var failed, sent := PlayRequest(animatables, events[i].name, players);
      if failed {
        return Panic("animatable without clips"), plays;
      }
      plays := plays + sent;
      assert events[i..][1..] == events[i + 1..];
      i := i + 1;
    }
    outcome := Done;
  }
}

=== FILE: blender_exporter.dfy ===
/** The Blender exporter: walks the objects of a Blender scene, classifies each
    by its name prefix (`Collider`, `Door`, `Interactable`, `Prop`), converts
    its placement from Blender's Z-up axes to the game's Y-up axes, and writes
    the level description as RON text, one section per class. Numbers are
    rendered by a formatting function the model takes as a parameter. */
module BlenderExporter {
  import opened Common
  import opened WorldAssets

  // ---------------------------------------------------------------------------
  // Scene objects
  // ---------------------------------------------------------------------------

  /** A Blender quaternion, in Blender's component order. */
  datatype BlenderQuat = BlenderQuat(w: real, x: real, y: real, z: real)

  /** What the exporter reads from a scene object: its name, the decomposed
      world matrix, and its custom properties (all taken to be text). */
  datatype BlenderObject = BlenderObject(
    name: string, translation: Vec3, rotation: BlenderQuat, scale: Vec3,
    properties: map<string, string>)

  predicate StartsWith(s: string, prefix: string)
  {
    |prefix| <= |s| && s[..|prefix|] == prefix
  }

  /** The four class prefixes start with different letters, so an object name
      carries at most one of them. */
  lemma PrefixesExclusive(name: string)
    ensures StartsWith(name, "Collider") ==> !StartsWith(name, "Door") && !StartsWith(name, "Interactable") && !StartsWith(name, "Prop")
    ensures StartsWith(name, "Door") ==> !StartsWith(name, "Interactable") && !StartsWith(name, "Prop")
    ensures StartsWith(name, "Interactable") ==> !StartsWith(name, "Prop")
  {
    if StartsWith(name, "Collider") {
      assert name[..8][0] == 'C';
    }
    if StartsWith(name, "Door") {
      assert name[..4][0] == 'D';
    }
    if StartsWith(name, "Interactable") {
      assert name[..12][0] == 'I';
    }
    if StartsWith(name, "Prop") {
      assert name[..4][0] == 'P';
    }
  }

  // ---------------------------------------------------------------------------
  // Axis conversion
  // ---------------------------------------------------------------------------

  /** A Blender position in game axes: Blender's up (z) becomes the game's up
      (y), and Blender's forward (y) becomes the game's backward (-z). */
  function ToYUp(v: Vec3): Vec3
  {
    Vec3(v.x, v.z, -v.y)
  }

  /** The opposite conversion, from game axes back to Blender's. */
  function FromYUp(v: Vec3): Vec3
  {
    Vec3(v.x, -v.z, v.y)
  }

  /** The two conversions undo each other. */
  lemma AxisConversionInverts(v: Vec3)
    ensures FromYUp(ToYUp(v)) == v
    ensures ToYUp(FromYUp(v)) == v
  {
  }

  /** The conversion is a quarter turn about the x axis: it keeps lengths, and
      four of them in a row change nothing. */
  lemma AxisConversionIsQuarterTurn(v: Vec3)
    ensures var u := ToYUp(v); u.x * u.x + u.y * u.y + u.z * u.z == v.x * v.x + v.y * v.y + v.z * v.z
    ensures ToYUp(ToYUp(ToYUp(ToYUp(v)))) == v
    ensures ToYUp(ToYUp(v)) != v <==> v.y != 0.0 || v.z != 0.0
  {
  }

  /** A Blender rotation in game axes, in the game's component order. */
  function QuatToYUp(q: BlenderQuat): Quat
  {
    Quat(q.x, q.z, -q.y, q.w)
  }

  /** The rotation's components are carried over, so a unit quaternion stays a
      unit quaternion and the scalar part is kept. */
  lemma QuatConversionKeepsNorm(q: BlenderQuat)
    ensures var r := QuatToYUp(q);
      r.x * r.x + r.y * r.y + r.z * r.z + r.w * r.w == q.w * q.w + q.x * q.x + q.y * q.y + q.z * q.z
      && r.w == q.w
  {
  }

  /** The scale of colliders, doors and interactables: magnitudes, with the y
      and z components exchanged. */
  function SwappedScale(s: Vec3): Vec3
  {
    Vec3(Abs(s.x), Abs(s.z), Abs(s.y))
  }

  /** The scale of props: magnitudes, in Blender's component order. */
  function PropScale(s: Vec3): Vec3
  {
    Vec3(Abs(s.x), Abs(s.y), Abs(s.z))
  }

  function Abs(r: real): real
  {
    if r < 0.0 then -r else r
  }

  predicate NonNegative(v: Vec3)
  {
    v.x >= 0.0 && v.y >= 0.0 && v.z >= 0.0
  }

  // ---------------------------------------------------------------------------
  // Exported records
  // ---------------------------------------------------------------------------

  /** The interaction an interactable is exported with: its kind, and the
      action list copied as written in the object's property. */
  datatype ExportedInteraction = ExportedInteraction(interaction: string, actionsText: string)

  datatype ExportedInteractable = ExportedInteractable(
    shape: string, translation: Vec3, rotation: Quat, scale: Vec3,
    interaction: Option<ExportedInteraction>)

  /** What one object contributes: a record for one section, or nothing. */
  datatype Entry =
    | ColliderEntry(collider: WorldCollider)
    | DoorEntry(door: WorldDoor)
    | InteractableEntry(interactable: ExportedInteractable)
    | PropEntry(prop: WorldProp)
    | Ignored

  function InteractionOf(properties: map<string, string>): (i: Option<ExportedInteraction>)
    ensures i.Some? <==> "interaction" in properties
    ensures i.Some? ==> i.value.interaction == properties["interaction"]
    ensures i.Some? && "interaction_actions" !in properties ==> i.value.actionsText == ""
    ensures i.Some? && "interaction_actions" in properties ==> i.value.actionsText == properties["interaction_actions"]
  {
    if "interaction" in properties then
      Some(ExportedInteraction(
        properties["interaction"],
        if "interaction_actions" in properties then properties["interaction_actions"] else ""))
    else None
  }

  function AnimatableOf(properties: map<string, string>): (a: Option<string>)
    ensures a.Some? <==> "animatable" in properties
    ensures a.Some? ==> a.value == properties["animatable"]
  {
    if "animatable" in properties then Some(properties["animatable"]) else None
  }

  /** An object whose name carries a class prefix but too few dot-separated
      parts makes the export fail (Python raises `IndexError`). */
  predicate TooFewParts(name: string)
  {
    || ((StartsWith(name, "Collider") || StartsWith(name, "Interactable") || StartsWith(name, "Prop")) && |Split(name, '.')| < 2)
    || (StartsWith(name, "Door") && |Split(name, '.')| < 3)
  }

  /** What one object contributes, or `None` when its name is too short for
      its class. The kind is the second dot-separated part of the name; a
      door's name is the third. */
  function EntryOf(o: BlenderObject): (e: Option<Entry>)
    ensures e.None? <==> TooFewParts(o.name)
    ensures e.Some? && e.value.ColliderEntry? <==> StartsWith(o.name, "Collider") && !TooFewParts(o.name)
    ensures e.Some? && e.value.DoorEntry? <==> StartsWith(o.name, "Door") && !TooFewParts(o.name)
    ensures e.Some? && e.value.InteractableEntry? <==> StartsWith(o.name, "Interactable") && !TooFewParts(o.name)
    ensures e.Some? && e.value.PropEntry? <==> StartsWith(o.name, "Prop") && !TooFewParts(o.name)
  {
    PrefixesExclusive(o.name);
    var parts := Split(o.name, '.');
    var t := ToYUp(o.translation);
    var r := QuatToYUp(o.rotation);
    if StartsWith(o.name, "Collider") then
      if |parts| < 2 then None
      else Some(ColliderEntry(WorldCollider(parts[1], t, r, SwappedScale(o.scale))))
    else if StartsWith(o.name, "Door") then
      if |parts| < 3 then None
      else Some(DoorEntry(WorldDoor(parts[1], parts[2], t, r, SwappedScale(o.scale))))
    else if StartsWith(o.name, "Interactable") then
      if |parts| < 2 then None
      else Some(InteractableEntry(ExportedInteractable(parts[1], t, r, SwappedScale(o.scale), InteractionOf(o.properties))))
    else if StartsWith(o.name, "Prop") then
      if |parts| < 2 then None
      else Some(PropEntry(WorldProp(parts[1], t, r, PropScale(o.scale), AnimatableOf(o.properties))))
    else Some(Ignored)
  }

  /** A name made of a class prefix, a kind and an optional further suffix
      (Blender's ".001" copies) yields that kind. */
  lemma KindFromName(head: string, kind: string, tail: string)
    requires '.' !in head && '.' !in kind
    requires tail == [] || tail[0] == '.'
    ensures var parts := Split(head + "." + kind + tail, '.');
      |parts| >= 2 && parts[0] == head && parts[1] == kind
  {
    SplitAfterFirst(head, '.', kind + tail);
    assert head + "." + kind + tail == head + ['.'] + (kind + tail);
    if tail == [] {
      assert kind + tail == kind;
      SplitWithoutSep(kind, '.');
    } else {
      assert kind + tail == kind + ['.'] + tail[1..];
      SplitAfterFirst(kind, '.', tail[1..]);
    }
  }

  /** A door named `Door.<prop>.<name>` is exported with that prop and name. */
  lemma DoorFromName(prop: string, doorName: string, o: BlenderObject)
    requires '.' !in prop && '.' !in doorName
    requires o.name == "Door." + prop + "." + doorName
    ensures EntryOf(o).Some? && EntryOf(o).value.DoorEntry?
    ensures EntryOf(o).value.door.prop == prop && EntryOf(o).value.door.name == doorName
  {
    assert o.name == "Door" + ['.'] + (prop + ['.'] + doorName);
    SplitAfterFirst("Door", '.', prop + ['.'] + doorName);
    SplitAfterFirst(prop, '.', doorName);
    SplitWithoutSep(doorName, '.');
    assert o.name[..4] == "Door";
  }

  /** Every exported scale is made of magnitudes. */
  lemma EntryScalesNonNegative(o: BlenderObject)
    requires EntryOf(o).Some?
    ensures match EntryOf(o).value
      case ColliderEntry(c) => NonNegative(c.scale)
      case DoorEntry(d) => NonNegative(d.scale)
      case InteractableEntry(i) => NonNegative(i.scale)
      case PropEntry(p) => NonNegative(p.scale)
      case Ignored => true
  {
  }

  // ---------------------------------------------------------------------------
  // The exported level, section by section
  // ---------------------------------------------------------------------------

  /** The four sections the exporter writes; it never writes lights, sounds
      or trains. */
  datatype ExportedWorld = ExportedWorld(
    colliders: seq<WorldCollider>,
    doors: seq<WorldDoor>,
    interactables: seq<ExportedInteractable>,
    props: seq<WorldProp>)

  const EmptyWorld := ExportedWorld([], [], [], [])

  function Prepend(e: Entry, w: ExportedWorld): ExportedWorld
  {
    match e
    case ColliderEntry(c) => w.(colliders := [c] + w.colliders)
    case DoorEntry(d) => w.(doors := [d] + w.doors)
    case InteractableEntry(i) => w.(interactables := [i] + w.interactables)
    case PropEntry(p) => w.(props := [p] + w.props)
    case Ignored => w
  }

  /** The records of a list of objects, each section in object order, or
      `None` when some object's name is too short for its class. */
  function Export(objects: seq<BlenderObject>): Option<ExportedWorld>
    decreases |objects|
  {
    if objects == [] then Some(EmptyWorld)
    else match EntryOf(objects[0])
      case None => None
      case Some(e) =>
        match Export(objects[1..])
        case None => None
        case Some(w) => Some(Prepend(e, w))
  }

  function Concat(a: ExportedWorld, b: ExportedWorld): ExportedWorld
  {
    ExportedWorld(a.colliders + b.colliders, a.doors + b.doors, a.interactables + b.interactables, a.props + b.props)
  }

  /** The export fails exactly when some object's name is too short. */
  lemma {:induction false} ExportFailsIff(objects: seq<BlenderObject>)
    ensures Export(objects).None? <==> exists i | 0 <= i < |objects| :: TooFewParts(objects[i].name)
    decreases |objects|
  {
    if objects != [] {
      ExportFailsIff(objects[1..]);
      if exists i | 0 <= i < |objects[1..]| :: TooFewParts(objects[1..][i].name) {
        var i :| 0 <= i < |objects[1..]| && TooFewParts(objects[1..][i].name);
        assert TooFewParts(objects[i + 1].name);
      }
      if exists i | 0 <= i < |objects| :: TooFewParts(objects[i].name) {
        var i :| 0 <= i < |objects| && TooFewParts(objects[i].name);
        if i > 0 {
          assert TooFewParts(objects[1..][i - 1].name);
        }
      }
    }
  }

  /** Exporting two lists of objects one after the other gives each section
      of the first followed by the same section of the second. */
  lemma {:induction false} ExportAppend(xs: seq<BlenderObject>, ys: seq<BlenderObject>)
    ensures Export(xs + ys) ==
      (if Export(xs).None? || Export(ys).None? then None else Some(Concat(Export(xs).value, Export(ys).value)))
    decreases |xs|
  {
    if xs == [] {
      assert xs + ys == ys;
      if Export(ys).Some? {
        var w := Export(ys).value;
        assert Concat(EmptyWorld, w) == w;
      }
    } else {
      assert (xs + ys)[0] == xs[0];
      assert (xs + ys)[1..] == xs[1..] + ys;
      ExportAppend(xs[1..], ys);
      var e := EntryOf(xs[0]);
      if e.Some? && Export(xs[1..]).Some? && Export(ys).Some? {
        PrependConcat(e.value, Export(xs[1..]).value, Export(ys).value);
      }
    }
  }

  lemma PrependConcat(e: Entry, a: ExportedWorld, b: ExportedWorld)
    ensures Prepend(e, Concat(a, b)) == Concat(Prepend(e, a), b)
  {
    match e
    case ColliderEntry(c) => assert [c] + (a.colliders + b.colliders) == ([c] + a.colliders) + b.colliders;
    case DoorEntry(d) => assert [d] + (a.doors + b.doors) == ([d] + a.doors) + b.doors;
    case InteractableEntry(i) => assert [i] + (a.interactables + b.interactables) == ([i] + a.interactables) + b.interactables;
    case PropEntry(p) => assert [p] + (a.props + b.props) == ([p] + a.props) + b.props;
    case Ignored =>
  }

  /** An object without a class prefix leaves the export as it was. */
  lemma IgnoredObjectSkipped(xs: seq<BlenderObject>, o: BlenderObject, ys: seq<BlenderObject>)
    requires !StartsWith(o.name, "Collider") && !StartsWith(o.name, "Door")
    requires !StartsWith(o.name, "Interactable") && !StartsWith(o.name, "Prop")
    ensures Export(xs + [o] + ys) == Export(xs + ys)
  {
    ExportAppend(xs + [o], ys);
    ExportAppend(xs, [o]);
    ExportAppend(xs, ys);
    assert Export([o]) == Some(EmptyWorld);
    if Export(xs).Some? {
      var w := Export(xs).value;
      assert Concat(w, EmptyWorld) == w;
    }
  }

  /** Every exported scale is made of magnitudes. */
  lemma {:induction false} ExportedScalesNonNegative(objects: seq<BlenderObject>)
    requires Export(objects).Some?
    ensures forall c | c in Export(objects).value.colliders :: NonNegative(c.scale)
    ensures forall d | d in Export(objects).value.doors :: NonNegative(d.scale)
    ensures forall i | i in Export(objects).value.interactables :: NonNegative(i.scale)
    ensures forall p | p in Export(objects).value.props :: NonNegative(p.scale)
    decreases |objects|
  {
    if objects != [] {
      EntryScalesNonNegative(objects[0]);
      ExportedScalesNonNegative(objects[1..]);
    }
  }

  // ---------------------------------------------------------------------------
  // RON text
  // ---------------------------------------------------------------------------

  function Quoted(s: string): string
  {
    "\"" + s + "\""
  }

  function Vec3Text(fmt: real -> string, v: Vec3): string
  {
    "Vec3(" + fmt(v.x) + "," + fmt(v.y) + "," + fmt(v.z) + ")"
  }

  /** The exporter leaves a comma after the last component, which RON accepts. */
  function QuatText(fmt: real -> string, q: Quat): string
  {
    "Quat(" + fmt(q.x) + "," + fmt(q.y) + "," + fmt(q.z) + "," + fmt(q.w) + "," + ")"
  }

  function PlacementText(fmt: real -> string, t: Vec3, r: Quat, s: Vec3): string
  {
    "      translation: " + Vec3Text(fmt, t) + ",\n"
    + "      rotation: " + QuatText(fmt, r) + ",\n"
    + "      scale: " + Vec3Text(fmt, s) + ",\n"
  }

  function ColliderText(fmt: real -> string, c: WorldCollider): string
  {
    "    WorldCollider(\n"
    + "      shape: " + Quoted(c.shape) + ",\n"
    + PlacementText(fmt, c.translation, c.rotation, c.scale)
    + "    ),\n"
  }

  function DoorText(fmt: real -> string, d: WorldDoor): string
  {
    "    WorldDoor(\n"
    + "      prop: " + Quoted(d.prop) + ",\n"
    + "      name: " + Quoted(d.name) + ",\n"
    + PlacementText(fmt, d.translation, d.rotation, d.scale)
    + "    ),\n"
  }

  function InteractionText(i: Option<ExportedInteraction>): string
  {
    match i
    case None => "None"
    case Some(x) =>
      "Some(WorldInteraction(\n"
      + "        interaction: " + Quoted(x.interaction) + ",\n"
      + "        actions: [" + x.actionsText + "],\n"
      + "      ))"
  }

  function InteractableText(fmt: real -> string, i: ExportedInteractable): string
  {
    "    WorldInteractable(\n"
    + "      shape: " + Quoted(i.shape) + ",\n"
    + PlacementText(fmt, i.translation, i.rotation, i.scale)
    + "      interaction: " + InteractionText(i.interaction) + ",\n"
    + "    ),\n"
  }

  function AnimatableText(a: Option<string>): string
  {
    match a
    case None => "None"
    case Some(name) => "Some(" + Quoted(name) + ")"
  }

  function PropText(fmt: real -> string, p: WorldProp): string
  {
    "    WorldProp(\n"
    + "      prop: " + Quoted(p.prop) + ",\n"
    + PlacementText(fmt, p.translation, p.rotation, p.scale)
    + "      animatable: " + AnimatableText(p.animatable) + ",\n"
    + "    ),\n"
  }

  /** How each kind of record is written; `RonTexts` is the exporter's own. */
  datatype RecordTexts = RecordTexts(
    collider: WorldCollider -> string,
    door: WorldDoor -> string,
    interactable: ExportedInteractable -> string,
    prop: WorldProp -> string)

  function RonTexts(fmt: real -> string): RecordTexts
  {
    RecordTexts(
      c => ColliderText(fmt, c),
      d => DoorText(fmt, d),
      i => InteractableText(fmt, i),
      p => PropText(fmt, p))
  }

  /** The texts of a list of records, one after the other. */
  function Lines<T>(text: T -> string, xs: seq<T>): string
    decreases |xs|
  {
    if xs == [] then "" else text(xs[0]) + Lines(text, xs[1..])
  }

  lemma LinesCons<T>(text: T -> string, x: T, xs: seq<T>)
    ensures Lines(text, [x] + xs) == text(x) + Lines(text, xs)
  {
    assert ([x] + xs)[1..] == xs;
  }

  /** The text of the four sections' bodies. */
  datatype Sections = Sections(colliders: string, doors: string, interactables: string, props: string)

  const NoSections := Sections("", "", "", "")

  /** Each section's body: its records' texts in order. */
  function Render(texts: RecordTexts, w: ExportedWorld): Sections
  {
    Sections(Lines(texts.collider, w.colliders), Lines(texts.door, w.doors),
             Lines(texts.interactable, w.interactables), Lines(texts.prop, w.props))
  }

  /** The whole file: the sections in a fixed order inside `WorldAsset(...)`. */
  function Assemble(s: Sections): string
  {
    "WorldAsset(\n"
    + "  colliders: [\n" + s.colliders + "  ],\n"
    + "  doors: [\n" + s.doors + "  ],\n"
    + "  interactables: [\n" + s.interactables + "  ],\n"
    + "  props: [\n" + s.props + "  ],\n"
    + ")\n"
  }

  // ---------------------------------------------------------------------------
  // The single pass over the objects
  // ---------------------------------------------------------------------------

  /** One object's text appended to its section. */
  function AppendEntry(texts: RecordTexts, acc: Sections, e: Entry): Sections
  {
    match e
    case ColliderEntry(c) => acc.(colliders := acc.colliders + texts.collider(c))
    case DoorEntry(d) => acc.(doors := acc.doors + texts.door(d))
    case InteractableEntry(i) => acc.(interactables := acc.interactables + texts.interactable(i))
    case PropEntry(p) => acc.(props := acc.props + texts.prop(p))
    case Ignored => acc
  }

  /** The sections after appending each object's text in turn, as the exporter
      does in its single pass, or `None` when an object makes it fail. */
  function Collect(texts: RecordTexts, acc: Sections, objects: seq<BlenderObject>): Option<Sections>
    decreases |objects|
  {
    if objects == [] then Some(acc)
    else match EntryOf(objects[0])
      case None => None
      case Some(e) => Collect(texts, AppendEntry(texts, acc, e), objects[1..])
  }

  function Extend(acc: Sections, more: Sections): Sections
  {
    Sections(acc.colliders + more.colliders, acc.doors + more.doors,
             acc.interactables + more.interactables, acc.props + more.props)
  }

  /** The single interleaved pass writes, in each section, exactly the texts of
      that section's records in object order. */
  lemma {:induction false} CollectRendersExport(texts: RecordTexts, acc: Sections, objects: seq<BlenderObject>)
    ensures Collect(texts, acc, objects) ==
      (if Export(objects).None? then None else Some(Extend(acc, Render(texts, Export(objects).value))))
    decreases |objects|
  {
    if objects == [] {
      assert Extend(acc, Render(texts, EmptyWorld)) == acc;
    } else {
      var e := EntryOf(objects[0]);
      if e.Some? {
        CollectRendersExport(texts, AppendEntry(texts, acc, e.value), objects[1..]);
        var rest := Export(objects[1..]);
        if rest.Some? {
          PrependRenders(texts, acc, e.value, rest.value);
        }
      }
    }
  }

  lemma PrependRenders(texts: RecordTexts, acc: Sections, e: Entry, w: ExportedWorld)
    ensures Extend(AppendEntry(texts, acc, e), Render(texts, w)) == Extend(acc, Render(texts, Prepend(e, w)))
  {
    match e
    case ColliderEntry(c) => LinesCons(texts.collider, c, w.colliders);
    case DoorEntry(d) => LinesCons(texts.door, d, w.doors);
    case InteractableEntry(i) => LinesCons(texts.interactable, i, w.interactables);
    case PropEntry(p) => LinesCons(texts.prop, p, w.props);
    case Ignored =>
  }

  /** One iteration of the exporter's loop: the object's record text is
      appended to the section its name prefix selects. Fails when the name
      is too short for its class. */
  method AppendObject(fmt: real -> string, o: BlenderObject, acc: Sections) returns (failed: bool, next: Sections)
    ensures failed <==> TooFewParts(o.name)
    ensures !failed ==> EntryOf(o).Some? && next == AppendEntry(RonTexts(fmt), acc, EntryOf(o).value)
  {
    PrefixesExclusive(o.name);
    var colliderStr, doorStr, interactableStr, propStr := acc.colliders, acc.doors, acc.interactables, acc.props;
    var parts := Split(o.name, '.');
    var t := ToYUp(o.translation);
    var r := QuatToYUp(o.rotation);
    if StartsWith(o.name, "Collider") {
      if |parts| < 2 {
        return true, acc;
      }
      var c := WorldCollider(parts[1], t, r, SwappedScale(o.scale));
      assert EntryOf(o) == Some(ColliderEntry(c));
      colliderStr := colliderStr + ColliderText(fmt, c);
    }
    if StartsWith(o.name, "Door") {
      if |parts| < 3 {
        return true, acc;
      }
      var d := WorldDoor(parts[1], parts[2], t, r, SwappedScale(o.scale));
      assert EntryOf(o) == Some(DoorEntry(d));
      doorStr := doorStr + DoorText(fmt, d);
    }
    if StartsWith(o.name, "Interactable") {
      if |parts| < 2 {
        return true, acc;
      }
      var i := ExportedInteractable(parts[1], t, r, SwappedScale(o.scale), InteractionOf(o.properties));
      assert EntryOf(o) == Some(InteractableEntry(i));
      interactableStr := interactableStr + InteractableText(fmt, i);
    }
    if StartsWith(o.name, "Prop") {
      if |parts| < 2 {
        return true, acc;
      }
      var p := WorldProp(parts[1], t, r, PropScale(o.scale), AnimatableOf(o.properties));
      assert EntryOf(o) == Some(PropEntry(p));
      propStr := propStr + PropText(fmt, p);
    }
    failed, next := false, Sections(colliderStr, doorStr, interactableStr, propStr);
  }

  /** Writes the file around the four section bodies, piece by piece. */
  method WriteRon(sections: Sections) returns (ron: string)
    ensures ron == Assemble(sections)
  {
    ron := "WorldAsset(\n";
    ron := ron + "  colliders: [\n";
    ron := ron + sections.colliders;
    ron := ron + "  ],\n";
    ron := ron + "  doors: [\n";
    ron := ron + sections.doors;
    ron := ron + "  ],\n";
    ron := ron + "  interactables: [\n";
    ron := ron + sections.interactables;
    ron := ron + "  ],\n";
    ron := ron + "  props: [\n";
    ron := ron + sections.props;
    ron := ron + "  ],\n";
    ron := ron + ")\n";
  }

  /** A single pass that completes has rendered exactly the exported world. */
  lemma CollectedIsRendered(texts: RecordTexts, objects: seq<BlenderObject>, sections: Sections)
    requires Collect(texts, NoSections, objects) == Some(sections)
    ensures Export(objects).Some? && sections == Render(texts, Export(objects).value)
  {
    CollectRendersExport(texts, NoSections, objects);
    var rendered := Render(texts, Export(objects).value);
    assert "" + rendered.colliders == rendered.colliders && "" + rendered.doors == rendered.doors;
    assert "" + rendered.interactables == rendered.interactables && "" + rendered.props == rendered.props;
  }

  /** Builds the RON text of a scene's objects in one pass, appending each
      object's record to the text of its section and assembling the sections
      at the end. Fails, producing no text, when an object's name is too short
      for its class. */
  method BuildRon(fmt: real -> string, objects: seq<BlenderObject>) returns (outcome: Outcome, ron: string)
    ensures outcome.Panic? <==> exists i | 0 <= i < |objects| :: TooFewParts(objects[i].name)
    ensures outcome.Panic? ==> ron == ""
    ensures outcome.Done? ==> Export(objects).Some? && ron == Assemble(Render(RonTexts(fmt), Export(objects).value))
  {
    var sections := NoSections;
    var k := 0;
    while k < |objects|
      invariant 0 <= k <= |objects|
      invariant forall i | 0 <= i < k :: !TooFewParts(objects[i].name)
      invariant Collect(RonTexts(fmt), sections, objects[k..]) == Collect(RonTexts(fmt), NoSections, objects)
    {
      var failed, next := AppendObject(fmt, objects[k], sections);
      if failed {
        return Panic("IndexError: list index out of range"), "";
      }
      assert objects[k..][1..] == objects[k + 1..];
      sections := next;
      k := k + 1;
    }
    assert objects[k..] == [];
    CollectedIsRendered(RonTexts(fmt), objects, sections);
    ron := WriteRon(sections);
    outcome := Done;
  }
}

=== FILE: character_loading.dfy ===
/** Character loading: the player's scene is spawned once, and a polled latch
    waits for the spawner to report the scene's entities, keeps the one with
    the lowest id as the entity the character's animation players sit under,
    and then moves on to world loading. */
module CharacterLoading {
  import opened Common
  import opened GameStates
  import opened WorldStates
  import opened WorldAssets

  const CollidersMode: string := "colliders"

  /** The five character clips, by index: 0 walks forward, 1 toggles a
      switch, 4 idles. */
  const CharacterClips: seq<string> := [
    "characters/graham_4action_v2.glb#Animation4",
    "characters/graham_4action_v2.glb#Animation3",
    "characters/graham_4action_v2.glb#Animation2",
    "characters/graham_4action_v2.glb#Animation1",
    "characters/graham_4action_v2.glb#Animation0"
  ]

  /** The entity the character's animation players are children of, once known. */
  class CharacterState {
    var characterAnimEntity: Option<nat>

    constructor ()
      ensures characterAnimEntity.None?
    {
      characterAnimEntity := None;
    }
  }

  /** Where the player's body starts. */
  const MoverStart: Vec3 := Vec3(-0.5, 1.5, 0.0)

  class CharacterLoadingState {
    var characterSceneInstance: Option<nat>
    var done: bool
    /** The entity carrying the player's `Mover` component, which the other
        systems reach through a query. */
    var moverEntity: Option<nat>

    /** The derived default: no scene instance yet, not done. */
    constructor ()
      ensures characterSceneInstance.None? && !done && moverEntity.None?
    {
      characterSceneInstance := None;
      done := false;
      moverEntity := None;
    }

    /** Spawns the player in every render mode: the mover entity with its
        transform at the start position, and the character container under
        it. In "colliders" mode the container holds two render spheres; in any
        other mode it holds the character's scene, whose instance is recorded. */
    method SetupCharacterLoading(scene: Scene, renderMode: string)
      modifies this`characterSceneInstance, this`moverEntity
      modifies scene`nextEntity, scene`nextInstance, scene`translations
      ensures moverEntity == Some(old(scene.nextEntity))
      ensures scene.translations == old(scene.translations)[old(scene.nextEntity) := MoverStart]
      ensures scene.nextEntity == old(scene.nextEntity) + (if renderMode == CollidersMode then 4 else 2)
      ensures renderMode == CollidersMode ==>
        characterSceneInstance == old(characterSceneInstance) && scene.nextInstance == old(scene.nextInstance)
      ensures renderMode != CollidersMode ==>
        characterSceneInstance == Some(old(scene.nextInstance)) && scene.nextInstance == old(scene.nextInstance) + 1
    {
      var mover := scene.Spawn();
      scene.translations := scene.translations[mover := MoverStart];
      moverEntity := Some(mover);
      var container := scene.Spawn();
      if renderMode == CollidersMode {
        var upper := scene.Spawn();
        var lower := scene.Spawn();
      } else {
        var instance := scene.SpawnScene();
        characterSceneInstance := Some(instance);
      }
    }

    /** One poll. Finished loading does nothing; in "colliders" mode the
        latch closes at once; otherwise the lowest entity the scene reports
        becomes the character's entity, and with none reported yet the poll
        changes nothing. */
    method UpdateCharacterLoading(cs: CharacterState, spawner: map<nat, set<nat>>, renderMode: string)
      returns (outcome: Outcome, request: Option<GameState>)
      modifies this`done, cs`characterAnimEntity
      ensures old(done) ==> outcome == Done && request.None? && done && cs.characterAnimEntity == old(cs.characterAnimEntity)
      ensures outcome.Panic? <==> !old(done) && renderMode != CollidersMode && characterSceneInstance.None?
      ensures !old(done) && renderMode == CollidersMode ==>
        outcome == Done && done && request == Some(WorldLoading) && cs.characterAnimEntity == old(cs.characterAnimEntity)
      ensures !old(done) && renderMode != CollidersMode && characterSceneInstance.Some? ==>
        var entities := InstanceEntities(spawner, characterSceneInstance.value);
        && outcome == Done
        && (entities == {} ==> !done && request.None? && cs.characterAnimEntity == old(cs.characterAnimEntity))
        && (entities != {} ==>
              done && request == Some(WorldLoading) && cs.characterAnimEntity.Some? && IsLeast(cs.characterAnimEntity.value, entities))
      ensures request.Some? ==> !old(done) && done
    {
      request := None;
      if done {
        return Done, request;
      }
      if renderMode == CollidersMode {
        done := true;
        return Done, Some(WorldLoading);
      }
      if characterSceneInstance.None? {
        return Panic("character scene instance missing"), request;
      }
      var lowest := LowestEntity(InstanceEntities(spawner, characterSceneInstance.value));
      if lowest.Some? {
        cs.characterAnimEntity := lowest;
        done := true;
        request := Some(WorldLoading);
      }
      outcome := Done;
    }
  }
}

=== FILE: common.dfy ===
/** Shared vocabulary of the model: optional values, the outcome of a system
    step that may abort (a Rust panic), string splitting on a separator
    character, decimal rendering of counts, and the least element of a set of
    entity ids. */
module Common {

  datatype Option<+T> = None | Some(value: T)

  /** How one system step ends: normally, or aborted by a Rust panic
      (`unwrap` on `None`, an index out of bounds, an arithmetic overflow). */
  datatype Outcome = Done | Panic(reason: string)

  // ---------------------------------------------------------------------------
  // Splitting on a separator (Rust `str::split(".")`, Python `str.split(".")`)
  // ---------------------------------------------------------------------------

  /** The pieces of `s` between occurrences of `sep`; empty pieces are kept,
      so the result always has one more piece than `s` has separators. */
  function Split(s: string, sep: char): (parts: seq<string>)
    ensures |parts| >= 1
    decreases |s|
  {
    if |s| == 0 then [""]
    else
      var rest := Split(s[1..], sep);
      if s[0] == sep then [""] + rest
      else [[s[0]] + rest[0]] + rest[1..]
  }

  /** The inverse of `Split`: the pieces glued back with `sep`. */
  function Join(parts: seq<string>, sep: char): string
    decreases |parts|
  {
    if |parts| == 0 then ""
    else if |parts| == 1 then parts[0]
    else parts[0] + [sep] + Join(parts[1..], sep)
  }

  /** Number of occurrences of `c` in `s`. */
  function Occurrences(s: string, c: char): nat
    decreases |s|
  {
    if |s| == 0 then 0 else (if s[0] == c then 1 else 0) + Occurrences(s[1..], c)
  }

  /** Joining the pieces of a split gives back the original text. */
  lemma {:induction false} JoinSplit(s: string, sep: char)
    ensures Join(Split(s, sep), sep) == s
    decreases |s|
  {
    if |s| > 0 {
      var rest := Split(s[1..], sep);
      JoinSplit(s[1..], sep);
      if s[0] == sep {
        assert Split(s, sep) == [""] + rest;
        assert s == [sep] + s[1..];
      } else {
        var parts := [[s[0]] + rest[0]] + rest[1..];
        assert Split(s, sep) == parts;
        if |rest| == 1 {
          assert Join(rest, sep) == rest[0];
        } else {
          assert rest == [rest[0]] + rest[1..];
          assert Join(rest, sep) == rest[0] + [sep] + Join(rest[1..], sep);
          assert parts[1..] == rest[1..];
        }
      }
    }
  }

  /** No piece of a split contains the separator. */
  lemma {:induction false} SplitPiecesAvoidSep(s: string, sep: char)
    ensures forall i :: 0 <= i < |Split(s, sep)| ==> sep !in Split(s, sep)[i]
    decreases |s|
  {
    if |s| > 0 {
      SplitPiecesAvoidSep(s[1..], sep);
    }
  }

  /** A split has exactly one more piece than there are separators. */
  lemma {:induction false} SplitCount(s: string, sep: char)
    ensures |Split(s, sep)| == Occurrences(s, sep) + 1
    decreases |s|
  {
    if |s| > 0 {
      SplitCount(s[1..], sep);
    }
  }

  /** `c` occurs in `s` exactly when it is counted. */
  lemma {:induction false} OccurrencesPositive(s: string, c: char)
    ensures Occurrences(s, c) > 0 <==> c in s
    decreases |s|
  {
    if |s| > 0 {
      OccurrencesPositive(s[1..], c);
      assert s == [s[0]] + s[1..];
    }
  }

  /** A split has a second piece exactly when the separator occurs. */
  lemma SplitHasSecondPiece(s: string, sep: char)
    ensures |Split(s, sep)| >= 2 <==> sep in s
  {
    SplitCount(s, sep);
    OccurrencesPositive(s, sep);
  }

  /** Splitting `a + sep + b`, where `a` holds no separator, gives `a` followed
      by the pieces of `b`. */
  lemma {:induction false} SplitAfterFirst(a: string, sep: char, b: string)
    requires sep !in a
    ensures Split(a + [sep] + b, sep) == [a] + Split(b, sep)
    decreases |a|
  {
    if |a| > 0 {
      SplitAfterFirst(a[1..], sep, b);
      assert (a + [sep] + b)[1..] == a[1..] + [sep] + b;
      assert a == [a[0]] + a[1..];
    } else {
      assert a + [sep] + b == [sep] + b;
    }
  }

  /** Splitting text with no separator gives the text alone. */
  lemma {:induction false} SplitWithoutSep(a: string, sep: char)
    requires sep !in a
    ensures Split(a, sep) == [a]
    decreases |a|
  {
    if |a| > 0 {
      SplitWithoutSep(a[1..], sep);
      assert a == [a[0]] + a[1..];
    }
  }

  // ---------------------------------------------------------------------------
  // Decimal rendering of a count (Rust `format!("{}", n)` on an unsigned value)
  // ---------------------------------------------------------------------------

  predicate IsDigit(c: char) { '0' <= c <= '9' }

  function DigitChar(d: nat): (c: char)
    requires d < 10
    ensures IsDigit(c)
  {
    "0123456789"[d]
  }

  function DigitValue(c: char): nat
  {
    if IsDigit(c) then (c as int - '0' as int) as nat else 0
  }

  /** The decimal digits of `n`, most significant first, without leading zeros. */
  function NatToString(n: nat): (s: string)
    ensures |s| >= 1 && (forall i :: 0 <= i < |s| ==> IsDigit(s[i]))
    ensures |s| > 1 ==> s[0] != '0'
    decreases n
  {
    if n < 10 then [DigitChar(n)] else NatToString(n / 10) + [DigitChar(n % 10)]
  }

  /** The value of a string of decimal digits. */
  function ParseNat(s: string): nat
    decreases |s|
  {
    if |s| == 0 then 0 else ParseNat(s[..|s| - 1]) * 10 + DigitValue(s[|s| - 1])
  }

  /** Rendering a count in decimal loses nothing: reading it back gives the count. */
  lemma {:induction false} ParseNatToString(n: nat)
    ensures ParseNat(NatToString(n)) == n
    decreases n
  {
    if n >= 10 {
      ParseNatToString(n / 10);
      var s := NatToString(n);
      assert s[..|s| - 1] == NatToString(n / 10);
    }
  }

  // ---------------------------------------------------------------------------
  // The least entity id of a set
  // ---------------------------------------------------------------------------

  ghost predicate IsLeast(m: nat, s: set<nat>)
  {
    m in s && forall x :: x in s ==> m <= x
  }

  /** Every non-empty set of entity ids has a least element. */
  lemma {:induction false} LeastExists(s: set<nat>)
    requires s != {}
    ensures exists m :: IsLeast(m, s)
    decreases |s|
  {
    var x :| x in s;
    if s != {x} {
      LeastExists(s - {x});
      var m :| IsLeast(m, s - {x});
      var least := if x < m then x else m;
      forall y | y in s
        ensures least <= y
      {
        if y != x {
          assert y in s - {x};
        }
      }
      assert IsLeast(least, s);
    } else {
      assert IsLeast(x, s);
    }
  }

  ghost function Least(s: set<nat>): (m: nat)
    requires s != {}
    ensures IsLeast(m, s)
  {
    LeastExists(s);
    var m :| IsLeast(m, s);
    m
  }

  /** The entities a scene spawner reports for an instance; an instance the
      spawner does not know reports none (`iter_instance_entities` gives `None`). */
  function InstanceEntities(spawner: map<nat, set<nat>>, instance: nat): set<nat>
  {
    if instance in spawner then spawner[instance] else {}
  }

  /** The scan both loading trackers run over a scene instance's entities:
      keep the entity with the smallest id seen so far. */
  method LowestEntity(entities: set<nat>) returns (lowest: Option<nat>)
    ensures lowest.None? <==> entities == {}
    ensures lowest.Some? ==> IsLeast(lowest.value, entities)
  {
    lowest := None;
    var rest := entities;
    while rest != {}
      invariant rest <= entities
      invariant lowest.None? <==> rest == entities
      invariant lowest.Some? ==> lowest.value in entities
      invariant lowest.Some? ==> forall x :: x in entities - rest ==> lowest.value <= x
      decreases rest
    {
      var inst :| inst in rest;
      if lowest.None? || inst < lowest.value {
        lowest := Some(inst);
      }
      assert entities - (rest - {inst}) == (entities - rest) + {inst};
      rest := rest - {inst};
    }
    assert entities - rest == entities;
  }
}

=== FILE: door_state.dfy ===
/** Doors: a toggle event flips the named door's `open` flag. */
module Doors {
  import opened Common
  import opened WorldStates

  /** `DoorEvent` with its only action, `Toggle`. */
  datatype DoorEvent = Toggle(door: string)

  /** One toggle: a registered door flips, any other name is ignored. */
  function ToggleDoor(doors: map<string, DoorState>, name: string): map<string, DoorState>
  {
    if name in doors then doors[name := doors[name].(open := !doors[name].open)] else doors
  }

  /** The door map after a tick's toggles, applied in order. */
  function ApplyToggles(doors: map<string, DoorState>, events: seq<DoorEvent>): map<string, DoorState>
    decreases |events|
  {
    if events == [] then doors else ApplyToggles(ToggleDoor(doors, events[0].door), events[1..])
  }

  /** A tick aborts when an event names a registered door that has no parent
      entity (the transform lookup unwraps it). */
  predicate ToggleFails(doors: map<string, DoorState>, events: seq<DoorEvent>)
  {
    exists i | 0 <= i < |events| :: events[i].door in doors && doors[events[i].door].parentEntity.None?
  }

  /** How many of the events name `door`. */
  function TogglesOf(events: seq<DoorEvent>, door: string): nat
    decreases |events|
  {
    if events == [] then 0 else (if events[0].door == door then 1 else 0) + TogglesOf(events[1..], door)
  }

  /** A door ends open exactly when it started open and was toggled an even
      number of times, or started closed and was toggled an odd number of
      times; registration (names and parents) is never changed. */
  lemma {:induction false} TogglesByParity(doors: map<string, DoorState>, events: seq<DoorEvent>)
    ensures var after := ApplyToggles(doors, events);
      && after.Keys == doors.Keys
      && forall n | n in doors ::
           after[n].parentEntity == doors[n].parentEntity
           && after[n].open == (doors[n].open != (TogglesOf(events, n) % 2 == 1))
    decreases |events|
  {
    if events != [] {
      TogglesByParity(ToggleDoor(doors, events[0].door), events[1..]);
    }
  }

  /** Two toggles of the same door in one tick cancel out. */
  lemma DoubleToggleCancels(doors: map<string, DoorState>, name: string)
    ensures ApplyToggles(doors, [Toggle(name), Toggle(name)]) == doors
  {
    var once := ToggleDoor(doors, name);
    assert ApplyToggles(doors, [Toggle(name), Toggle(name)]) == ApplyToggles(once, [Toggle(name)]);
    assert ApplyToggles(once, [Toggle(name)]) == ToggleDoor(once, name);
    if name in doors {
      assert ToggleDoor(once, name) == doors;
    }
  }

  /** Doors freshly registered by level loading always have a parent, so a
      tick of toggles over them cannot abort. */
  lemma RegisteredDoorsNeverFail(doors: map<string, DoorState>, events: seq<DoorEvent>)
    requires forall n | n in doors :: doors[n].parentEntity.Some?
    ensures !ToggleFails(doors, events)
  {
  }

  /** Runs the door system for one tick. */
  method UpdateDoorInteraction(ws: WorldState, cursorLocked: bool, events: seq<DoorEvent>) returns (outcome: Outcome)
    modifies ws`doors
    ensures !cursorLocked ==> outcome == Done && ws.doors == old(ws.doors)
    ensures cursorLocked ==> (outcome.Panic? <==> ToggleFails(old(ws.doors), events))
    ensures outcome.Done? ==> ws.doors == (if cursorLocked then ApplyToggles(old(ws.doors), events) else old(ws.doors))
  {
    if !cursorLocked {
      return Done;
    }
    var i := 0;
    while i < |events|
      invariant 0 <= i <= |events|
      invariant ws.doors.Keys == old(ws.doors).Keys
      invariant forall n | n in ws.doors :: ws.doors[n].parentEntity == old(ws.doors)[n].parentEntity
      invariant !ToggleFails(old(ws.doors), events[..i])
      invariant ApplyToggles(ws.doors, events[i..]) == ApplyToggles(old(ws.doors), events)
    {
      var name := events[i].door;
      if name in ws.doors {
        var door := ws.doors[name];
        if door.parentEntity.None? {
          assert events[i].door in old(ws.doors) && old(ws.doors)[events[i].door].parentEntity.None?;
          return Panic("door without a parent entity");
        }
        ws.doors := ws.doors[name := door.(open := !door.open)];
      }
      assert events[i..][1..] == events[i + 1..];
      assert events[..i + 1] == events[..i] + [events[i]];
      i := i + 1;
    }
    assert events[..i] == events;
    outcome := Done;
  }
}

=== FILE: game_state.dfy ===
/** The top-level state machine of the game. `Credits` belongs to the same
    revision of the game as the level loader, which requests it. */
module GameStates {

  datatype GameState =
    | PreLoading
    | AssetLoading
    | WorldInit
    | World01Loading
    | World03Loading
    | Menu
    | Running
    | Paused
    | CharacterLoading
    | WorldLoading
    | Credits
}

=== FILE: interactable_state.dfy ===
/** Interactables: the interaction ray picks the registered interactable the
    player looks at, and a click runs that interactable's actions. */
module Interactables {
  import opened Common
  import opened WorldStates
  import opened Actions
  import opened Movement

  const InteractionBlockedDuration: real := 1.2
  /** A cooldown at or below this value counts as expired. */
  const BlockThreshold: real := 0.0001

  /** The cooldown as the click step finds it after its first statement: any
      cooldown above the threshold is cleared, so it is always expired. */
  function Zeroed(blockedRmn: real): (z: real)
    ensures z <= BlockThreshold
    ensures blockedRmn <= BlockThreshold ==> z == blockedRmn
  {
    if blockedRmn > BlockThreshold then 0.0 else blockedRmn
  }

  /** The registered interactable of the hit entity, if any. */
  function Target(ws: map<nat, InteractableState>, hit: Option<nat>): (t: Option<InteractableState>)
    ensures t.Some? <==> hit.Some? && hit.value in ws
    ensures t.Some? ==> t.value == ws[hit.value]
  {
    if hit.Some? && hit.value in ws then Some(ws[hit.value]) else None
  }

  class InteractablesState {
    var activeInteractable: Option<InteractableState>
    var blockedRmn: real

    /** The derived default: no target, no cooldown. */
    constructor ()
      ensures activeInteractable.None? && blockedRmn == 0.0
    {
      activeInteractable := None;
      blockedRmn := 0.0;
    }

    /** Targeting: with the cursor locked, the target becomes the registered
        interactable the ray hits, or none. `along` lists the entities whose
        colliders the ray meets, nearest first; only those on the ray's layer
        can be hit, so a target is always a ray target. */
    method UpdateInteractableInteraction(ws: WorldState, scene: Scene, cursorLocked: bool, along: seq<nat>)
      modifies this`activeInteractable
      ensures !cursorLocked ==> activeInteractable == old(activeInteractable)
      ensures cursorLocked ==> activeInteractable == Target(ws.interactableStates, RayHit(along, scene.rayTargets))
      ensures cursorLocked && activeInteractable.Some? ==>
        exists e | e in along && e in scene.rayTargets && e in ws.interactableStates :: activeInteractable.value == ws.interactableStates[e]
    {
      if !cursorLocked {
        return;
      }
      var hit := RayHit(along, scene.rayTargets);
      if hit.Some? {
        if hit.value in ws.interactableStates {
          activeInteractable := Some(ws.interactableStates[hit.value]);
        } else {
          activeInteractable := None;
        }
      } else {
        activeInteractable := None;
      }
    }

    /** The click: the cooldown is cleared first, so a click of the left button
        with a target always dispatches the target's actions and then starts
        both cooldowns; a click without a target changes nothing else. */
    method UpdateMouseClickInteraction(movement: MovementState, cursorLocked: bool, leftJustPressed: bool)
      returns (outcome: Outcome, sent: Sent)
      modifies this`blockedRmn, movement`toggleSwitchRmn
      ensures !cursorLocked ==>
        outcome == Done && sent == NothingSent
        && blockedRmn == old(blockedRmn) && movement.toggleSwitchRmn == old(movement.toggleSwitchRmn)
      ensures cursorLocked ==>
        (outcome.Panic? <==> leftJustPressed && activeInteractable.Some? && DispatchFails(activeInteractable.value.interaction.actions))
      ensures cursorLocked && outcome.Done? ==>
        var clicked := leftJustPressed && activeInteractable.Some?;
        && sent == (if clicked then Dispatch(NothingSent, activeInteractable.value.interaction.actions) else NothingSent)
        && blockedRmn == (if clicked then InteractionBlockedDuration else Zeroed(old(blockedRmn)))
        && movement.toggleSwitchRmn == (if clicked then ToggleSwitchDuration else old(movement.toggleSwitchRmn))
    {
      sent := NothingSent;
      if !cursorLocked {
        return Done, sent;
      }
      if blockedRmn > BlockThreshold {
        blockedRmn := 0.0;
      }
      if leftJustPressed && blockedRmn <= BlockThreshold {
        if activeInteractable.Some? {
          outcome, sent := DispatchActions(activeInteractable.value.interaction.actions);
          if outcome.Panic? {
            return;
          }
          blockedRmn := InteractionBlockedDuration;
          movement.toggleSwitchRmn := InteractionBlockedDuration;
        }
      }
      outcome := Done;
    }
  }
}

=== FILE: inventory_state.dfy ===
/** Inventory: the count of small fuses the player carries, and the HUD label
    and icon that show it. */
module Inventory {
  import opened Common

  /** The largest value of the unsigned machine-word count (`usize` on a
      64-bit target); stepping past either end aborts, as it does with
      overflow checks on (a debug build). */
  const UsizeMax: nat := 0xFFFF_FFFF_FFFF_FFFF

  datatype InventoryItem = FuseSmall
  datatype InventoryAction = AddItem | RemoveItem
  datatype InventoryEvent = InventoryEvent(action: InventoryAction, item: InventoryItem)

  /** The count after one event, or `None` when the step leaves the range of
      the count (removing from an empty inventory, or adding past the top). */
  function Apply(count: nat, e: InventoryEvent): (next: Option<nat>)
    ensures e.action == AddItem ==> (next.Some? <==> count < UsizeMax) && (next.Some? ==> next.value == count + 1)
    ensures e.action == RemoveItem ==> (next.Some? <==> count > 0) && (next.Some? ==> next.value == count - 1)
  {
    match e.action
    case AddItem => if count < UsizeMax then Some(count + 1) else None
    case RemoveItem => if count > 0 then Some(count - 1) else None
  }

  /** The count after a tick's events, applied in order, or `None` when one of
      them aborts. */
  function Replay(count: nat, events: seq<InventoryEvent>): Option<nat>
    decreases |events|
  {
    if events == [] then Some(count)
    else match Apply(count, events[0])
      case None => None
      case Some(next) => Replay(next, events[1..])
  }

  function Adds(events: seq<InventoryEvent>): nat
    decreases |events|
  {
    if events == [] then 0 else (if events[0].action == AddItem then 1 else 0) + Adds(events[1..])
  }

  function Removes(events: seq<InventoryEvent>): nat
    decreases |events|
  {
    if events == [] then 0 else (if events[0].action == RemoveItem then 1 else 0) + Removes(events[1..])
  }

  /** When a tick does not abort, the count moves by the number of additions
      minus the number of removals. */
  lemma {:induction false} ReplayNet(count: nat, events: seq<InventoryEvent>)
    ensures Replay(count, events).Some? ==> Replay(count, events).value == count + Adds(events) - Removes(events)
    decreases |events|
  {
    if events != [] {
      var next := Apply(count, events[0]);
      if next.Some? {
        ReplayNet(next.value, events[1..]);
      }
    }
  }

  /** Adding a fuse and then removing one gives the count back. */
  lemma AddThenRemoveRestores(count: nat)
    requires count < UsizeMax
    ensures Replay(count, [InventoryEvent(AddItem, FuseSmall), InventoryEvent(RemoveItem, FuseSmall)]) == Some(count)
  {
    var events := [InventoryEvent(AddItem, FuseSmall), InventoryEvent(RemoveItem, FuseSmall)];
    assert events[1..] == [InventoryEvent(RemoveItem, FuseSmall)];
    assert Replay(count + 1, events[1..]) == Replay(count, events[1..][1..]);
  }

  /** Removing a fuse from an empty inventory aborts, whatever follows. */
  lemma RemoveFromEmptyAborts(rest: seq<InventoryEvent>)
    ensures Replay(0, [InventoryEvent(RemoveItem, FuseSmall)] + rest).None?
  {
    assert ([InventoryEvent(RemoveItem, FuseSmall)] + rest)[0] == InventoryEvent(RemoveItem, FuseSmall);
  }

  /** The HUD label for a count: "x " followed by the count in decimal. */
  function Label(count: nat): (text: string)
    ensures |text| >= 3 && text[..2] == "x "
  {
    "x " + NatToString(count)
  }

  /** The label can be read back: the digits after "x " spell the count. */
  lemma LabelShowsCount(count: nat)
    ensures ParseNat(Label(count)[2..]) == count
  {
    assert Label(count)[2..] == NatToString(count);
    ParseNatToString(count);
  }

  class InventoryState {
    var fuseSmallCount: nat

    /** The derived default: no fuses. */
    constructor ()
      ensures fuseSmallCount == 0
    {
      fuseSmallCount := 0;
    }
  }

  /** The HUD node: the count label and whether the icon is shown. */
  class InventoryHud {
    var countText: string
    var visible: bool

    /** On entering the running state the HUD is spawned hidden, reading "x 1". */
    constructor ()
      ensures countText == "x 1" && !visible
    {
      countText := "x 1";
      visible := false;
    }
  }

  /** Runs the inventory handler for one tick. */
  method UpdateInventoryInteraction(inv: InventoryState, hud: InventoryHud, cursorLocked: bool, events: seq<InventoryEvent>)
    returns (outcome: Outcome)
    modifies inv`fuseSmallCount, hud`countText, hud`visible
    requires inv.fuseSmallCount <= UsizeMax
    ensures inv.fuseSmallCount <= UsizeMax
    ensures !cursorLocked ==>
      outcome == Done && inv.fuseSmallCount == old(inv.fuseSmallCount) && hud.countText == old(hud.countText) && hud.visible == old(hud.visible)
    ensures cursorLocked ==> (outcome.Panic? <==> Replay(old(inv.fuseSmallCount), events).None?)
    ensures cursorLocked && outcome.Done? ==> Replay(old(inv.fuseSmallCount), events) == Some(inv.fuseSmallCount)
    ensures cursorLocked && outcome.Done? && events != [] ==>
      hud.countText == Label(inv.fuseSmallCount) && (hud.visible <==> inv.fuseSmallCount > 0)
    ensures cursorLocked && events == [] ==> hud.countText == old(hud.countText) && hud.visible == old(hud.visible)
  {
    if !cursorLocked {
      return Done;
    }
    var i := 0;
    while i < |events|
      invariant 0 <= i <= |events|
      invariant inv.fuseSmallCount <= UsizeMax
      invariant Replay(inv.fuseSmallCount, events[i..]) == Replay(old(inv.fuseSmallCount), events)
      invariant i > 0 ==> hud.countText == Label(inv.fuseSmallCount) && (hud.visible <==> inv.fuseSmallCount > 0)
      invariant i == 0 ==> hud.countText == old(hud.countText) && hud.visible == old(hud.visible)
    {
      match events[i].action {
        case AddItem =>
          if inv.fuseSmallCount == UsizeMax {
            return Panic("fuse count overflow");
          }
          inv.fuseSmallCount := inv.fuseSmallCount + 1;
        case RemoveItem =>
          if inv.fuseSmallCount == 0 {
            return Panic("fuse count underflow");
          }
          inv.fuseSmallCount := inv.fuseSmallCount - 1;
      }
      hud.countText := "x " + NatToString(inv.fuseSmallCount);
      hud.visible := inv.fuseSmallCount > 0;
      assert events[i..][1..] == events[i + 1..];
      i := i + 1;
    }
    outcome := Done;
  }
}

=== FILE: key_input.dfy ===
/** Keyboard input: the key bindings and the per-tick intent flags derived
    from them, all gated by the cursor lock. */
module KeyInput {
  import opened Common
  import opened GameStates

  /** The keys the default bindings use; every other key is `Other`. */
  datatype KeyCode = W | S | A | D | Space | LShift | LControl | F | T | Escape | Other(code: nat)

  /** Which key drives which intent. */
  datatype KeyInputMap = KeyInputMap(
    forward: KeyCode, backward: KeyCode, left: KeyCode, right: KeyCode, jump: KeyCode,
    run: KeyCode, crouch: KeyCode, fly: KeyCode, toggleView: KeyCode, escape: KeyCode)
  {
    /** The default bindings: W/S/A/D to walk, Space to jump, left shift to
        run, left control to crouch, F to fly, T to switch view, Escape to pause. */
    static function Default(): (m: KeyInputMap)
      ensures m.forward == W && m.backward == S && m.left == A && m.right == D
      ensures m.jump == Space && m.run == LShift && m.crouch == LControl
      ensures m.fly == F && m.toggleView == T && m.escape == Escape
    {
      KeyInputMap(W, S, A, D, Space, LShift, LControl, F, T, Escape)
    }
  }

  /** The keyboard this tick: keys held down, and keys that went down this tick. */
  datatype Keyboard = Keyboard(pressed: set<KeyCode>, justPressed: set<KeyCode>)

  /** The engine reports a key as just pressed only while it is held. */
  predicate Consistent(kb: Keyboard)
  {
    kb.justPressed <= kb.pressed
  }

  /** The ten intent flags of one tick, as a value. */
  datatype Intents = Intents(
    forward: bool, backward: bool, left: bool, right: bool, run: bool,
    up: bool, down: bool, jump: bool, toggleFly: bool, toggleView: bool)

  const NoIntent: Intents := Intents(false, false, false, false, false, false, false, false, false, false)

  /** The intents a keyboard expresses through a key map: held intents follow
      the held keys, the toggles and the jump follow keys that went down this
      tick, and nothing counts while the cursor is free. */
  function IntentsFor(kb: Keyboard, m: KeyInputMap, cursorLocked: bool): Intents
  {
    var held := if cursorLocked then kb.pressed else {};
    var hit := if cursorLocked then kb.justPressed else {};
    Intents(m.forward in held, m.backward in held, m.left in held, m.right in held, m.run in held,
            m.jump in held, m.crouch in held, m.jump in hit, m.fly in hit, m.toggleView in hit)
  }

  /** Without the cursor lock no intent is set, whatever is pressed. */
  lemma UnlockedMeansIdle(kb: Keyboard, m: KeyInputMap)
    ensures IntentsFor(kb, m, false) == NoIntent
  {
  }

  /** `up` follows the jump key and `down` the crouch key; a jump, a fly
      toggle or a view toggle needs its key to have gone down this tick, and so
      a jump always comes with `up`. */
  lemma VerticalIntents(kb: Keyboard, m: KeyInputMap, cursorLocked: bool)
    requires Consistent(kb)
    ensures var i := IntentsFor(kb, m, cursorLocked);
      && (i.up <==> cursorLocked && m.jump in kb.pressed)
      && (i.down <==> cursorLocked && m.crouch in kb.pressed)
      && (i.jump ==> i.up)
      && (i.jump <==> cursorLocked && m.jump in kb.justPressed)
      && (i.toggleFly <==> cursorLocked && m.fly in kb.justPressed)
      && (i.toggleView <==> cursorLocked && m.toggleView in kb.justPressed)
  {
  }

  /** With the default bindings and the cursor locked, holding W walks
      forward, holding W and S sets both directions, and holding Space without
      pressing it this tick flies up but does not jump. */
  lemma DefaultBindings()
    ensures IntentsFor(Keyboard({W}, {}), KeyInputMap.Default(), true) == NoIntent.(forward := true)
    ensures IntentsFor(Keyboard({W, S}, {}), KeyInputMap.Default(), true) == NoIntent.(forward := true, backward := true)
    ensures IntentsFor(Keyboard({Space}, {}), KeyInputMap.Default(), true) == NoIntent.(up := true)
    ensures IntentsFor(Keyboard({Space, F}, {Space, F}), KeyInputMap.Default(), true) == NoIntent.(up := true, jump := true, toggleFly := true)
  {
  }

  /** The per-tick intent flags. */
  class KeyInputState {
    var forward: bool
    var backward: bool
    var left: bool
    var right: bool
    var run: bool
    var up: bool
    var down: bool
    var jump: bool
    var toggleFly: bool
    var toggleView: bool

    /** The derived default: no intent. */
    constructor ()
      ensures Current() == NoIntent
    {
      forward, backward, left, right, run := false, false, false, false, false;
      up, down, jump, toggleFly, toggleView := false, false, false, false, false;
    }

    function Current(): Intents
      reads this
    {
      Intents(forward, backward, left, right, run, up, down, jump, toggleFly, toggleView)
    }

    /** Recomputes every intent from the keyboard; an Escape press while the
        cursor is locked asks for the pause menu. */
    method InputToMove(kb: Keyboard, m: KeyInputMap, cursorLocked: bool) returns (request: Option<GameState>)
      modifies this
      ensures request == (if cursorLocked && m.escape in kb.justPressed then Some(Paused) else None)
      ensures Current() == IntentsFor(kb, m, cursorLocked)
    {
      request := if cursorLocked && m.escape in kb.justPressed then Some(Paused) else None;
      var held := if cursorLocked then kb.pressed else {};
      var hit := if cursorLocked then kb.justPressed else {};
      run, toggleFly, toggleView, jump := m.run in held, m.fly in hit, m.toggleView in hit, m.jump in hit;
      forward, backward, right, left := m.forward in held, m.backward in held, m.right in held, m.left in held;
      up, down := m.jump in held, m.crouch in held;
    }
  }
}

=== FILE: lights_state.dfy ===
/** Lights: a toggle event switches the named light's point light between off
    and a fixed intensity. */
module Lights {
  import opened Common
  import opened WorldStates
  import opened WorldAssets
  import WorldLoading

  /** `LightsEvent` with its only action, `Toggle`. */
  datatype LightsEvent = Toggle(name: string)

  const OnIntensity: real := 50.0
  const OffThreshold: real := 0.0001

  /** A light at or below the threshold is switched on, any other is switched off. */
  function Toggled(intensity: real): (next: real)
    ensures next == 0.0 || next == OnIntensity
    ensures next == OnIntensity <==> intensity <= OffThreshold
  {
    if intensity <= OffThreshold then OnIntensity else 0.0
  }

  /** One toggle on the point-light intensities: a registered light's entity is toggled. */
  function ToggleLight(lights: map<string, nat>, intensities: map<nat, real>, name: string): map<nat, real>
  {
    if name in lights && lights[name] in intensities then
      intensities[lights[name] := Toggled(intensities[lights[name]])]
    else intensities
  }

  /** The point-light intensities after a tick's toggles, applied in order. */
  function ApplyToggles(lights: map<string, nat>, intensities: map<nat, real>, events: seq<LightsEvent>): map<nat, real>
    decreases |events|
  {
    if events == [] then intensities
    else ApplyToggles(lights, ToggleLight(lights, intensities, events[0].name), events[1..])
  }

  /** A tick aborts when an event names a registered light whose entity carries
      no point light (an animatable "spot" light is a directional light). */
  predicate ToggleFails(lights: map<string, nat>, intensities: map<nat, real>, events: seq<LightsEvent>)
  {
    exists i | 0 <= i < |events| :: events[i].name in lights && lights[events[i].name] !in intensities
  }

  /** How many of the events toggle entity `e`. */
  function TogglesOf(lights: map<string, nat>, events: seq<LightsEvent>, e: nat): nat
    decreases |events|
  {
    if events == [] then 0
    else (if events[0].name in lights && lights[events[0].name] == e then 1 else 0) + TogglesOf(lights, events[1..], e)
  }

  /** The intensity a light reaches after `k` toggles from `start`. */
  function AfterToggles(start: real, k: nat): real
  {
    if k == 0 then start
    else if (start <= OffThreshold) == (k % 2 == 1) then OnIntensity
    else 0.0
  }

  /** Every point light ends at the intensity its own number of toggles gives:
      a light that was toggled at all is at 0 or 50, an off light ends on after
      an odd number of toggles, an on light ends off after an odd number; other
      entities are untouched. */
  lemma {:induction false} TogglesByCount(lights: map<string, nat>, intensities: map<nat, real>, events: seq<LightsEvent>)
    ensures var after := ApplyToggles(lights, intensities, events);
      && after.Keys == intensities.Keys
      && forall e | e in intensities :: after[e] == AfterToggles(intensities[e], TogglesOf(lights, events, e))
    decreases |events|
  {
    if events != [] {
      var next := ToggleLight(lights, intensities, events[0].name);
      TogglesByCount(lights, next, events[1..]);
      forall e | e in intensities
        ensures ApplyToggles(lights, intensities, events)[e] == AfterToggles(intensities[e], TogglesOf(lights, events, e))
      {
        var k := TogglesOf(lights, events[1..], e);
        if events[0].name in lights && lights[events[0].name] == e {
          ToggleThenMore(intensities[e], k);
        }
      }
    }
  }

  /** Toggling once and then `k` more times is the same as `k + 1` toggles. */
  lemma ToggleThenMore(start: real, k: nat)
    ensures AfterToggles(Toggled(start), k) == AfterToggles(start, k + 1)
  {
  }

  /** Starting from off, two toggles return the light to off; a light that
      starts above the threshold is switched off by its first toggle. */
  lemma ToggleScenarios(start: real)
    ensures start == 0.0 ==> AfterToggles(start, 2) == 0.0 && AfterToggles(start, 1) == OnIntensity
    ensures start > OffThreshold ==> AfterToggles(start, 1) == 0.0
  {
  }

  /** An animatable "spot" light is registered under its name but spawned as a
      directional light, so the first toggle naming it aborts the tick. */
  lemma SpotLightToggleFails(r: WorldLoading.Registry, l: WorldLight)
    requires l.lightType == "spot" && l.animatable.Some?
    requires r.nextEntity !in r.pointLights
    ensures var r' := WorldLoading.RegisterLight(r, l);
      ToggleFails(r'.lights, r'.pointLights, [Toggle(l.animatable.value)])
  {
    var r' := WorldLoading.RegisterLight(r, l);
    assert [Toggle(l.animatable.value)][0].name in r'.lights;
  }

  /** Runs the light system for one tick. */
  method UpdateLightInteraction(ws: WorldState, scene: Scene, cursorLocked: bool, events: seq<LightsEvent>) returns (outcome: Outcome)
    modifies scene`pointLights
    ensures !cursorLocked ==> outcome == Done && scene.pointLights == old(scene.pointLights)
    ensures cursorLocked ==> (outcome.Panic? <==> ToggleFails(ws.animatableLights, old(scene.pointLights), events))
    ensures outcome.Done? && cursorLocked ==> scene.pointLights == ApplyToggles(ws.animatableLights, old(scene.pointLights), events)
  {
    if !cursorLocked {
      return Done;
    }
    var i := 0;
    while i < |events|
      invariant 0 <= i <= |events|
      invariant scene.pointLights.Keys == old(scene.pointLights).Keys
      invariant !ToggleFails(ws.animatableLights, old(scene.pointLights), events[..i])
      invariant ApplyToggles(ws.animatableLights, scene.pointLights, events[i..]) == ApplyToggles(ws.animatableLights, old(scene.pointLights), events)
    {
      var name := events[i].name;
      if name in ws.animatableLights {
        var light := ws.animatableLights[name];
        if light !in scene.pointLights {
          assert events[i].name in ws.animatableLights && ws.animatableLights[events[i].name] !in old(scene.pointLights);
          return Panic("light entity without a point light");
        }
        scene.pointLights := scene.pointLights[light := Toggled(scene.pointLights[light])];
      }
      assert events[i..][1..] == events[i + 1..];
      assert events[..i + 1] == events[..i] + [events[i]];
      i := i + 1;
    }
    assert events[..i] == events;
    outcome := Done;
  }
}

=== FILE: mouse_input.dfy ===
/** Mouse input: the cursor lock that gates every gameplay system, and the
    look state (yaw, pitch, roll and zoom) the mouse drives while locked. */
module MouseInput {
  /** The two sensitivities; `Default` gives the built-in values. */
  datatype MouseSettings = MouseSettings(sensitivity: real, zoomSensitivity: real)
  {
    static function Default(): (s: MouseSettings)
      ensures s.sensitivity == 0.002 && s.zoomSensitivity == 0.02
    {
      MouseSettings(0.002, 0.02)
    }
  }

  /** Half of pi less one thousandth: the largest pitch the look may reach. */
  const PitchBound: real := 1.5697963267948966
  /** Motion whose squared length is at or below this is ignored. */
  const MotionThreshold: real := 0.000001

  datatype Vec2 = Vec2(x: real, y: real)

  function LengthSquared(v: Vec2): real
  {
    v.x * v.x + v.y * v.y
  }

  /** The sum of a tick's motion deltas. */
  function Total(motions: seq<Vec2>): Vec2
    decreases |motions|
  {
    if motions == [] then Vec2(0.0, 0.0)
    else
      var front := Total(motions[..|motions| - 1]);
      Vec2(front.x + motions[|motions| - 1].x, front.y + motions[|motions| - 1].y)
  }

  /** The sum of a tick's vertical wheel deltas. */
  function WheelTotal(wheels: seq<real>): real
    decreases |wheels|
  {
    if wheels == [] then 0.0 else WheelTotal(wheels[..|wheels| - 1]) + wheels[|wheels| - 1]
  }

  /** Summing is additive over consecutive runs of wheel events, so the zoom
      does not depend on how the events are split between ticks. */
  lemma {:induction false} WheelTotalAppend(xs: seq<real>, ys: seq<real>)
    ensures WheelTotal(xs + ys) == WheelTotal(xs) + WheelTotal(ys)
    decreases |ys|
  {
    if ys == [] {
      assert xs + ys == xs;
    } else {
      var zs := xs + ys;
      assert zs[..|zs| - 1] == xs + ys[..|ys| - 1];
      WheelTotalAppend(xs, ys[..|ys| - 1]);
    }
  }

  /** The pitch after the two clamping steps, which run one after the other. */
  function ClampPitch(y: real): (c: real)
    ensures -PitchBound <= c <= PitchBound
    ensures y > PitchBound ==> c == PitchBound
    ensures y < -PitchBound ==> c == -PitchBound
    ensures -PitchBound <= y <= PitchBound ==> c == y
  {
    var upper := if y > PitchBound then PitchBound else y;
    if upper < -PitchBound then -PitchBound else upper
  }

  /** Clamping is monotone: looking further up never lowers the pitch. */
  lemma ClampMonotone(a: real, b: real)
    requires a <= b
    ensures ClampPitch(a) <= ClampPitch(b)
  {
  }

  /** The host window's cursor settings. */
  class Window {
    var cursorGrabbed: bool
    var cursorVisible: bool

    constructor ()
      ensures !cursorGrabbed && cursorVisible
    {
      cursorGrabbed := false;
      cursorVisible := true;
    }
  }

  class CursorLockState {
    var enabled: bool

    /** The derived default: unlocked. */
    constructor ()
      ensures !enabled
    {
      enabled := false;
    }

    /** The window agrees with the lock: grabbed and hidden exactly when locked. */
    predicate InSync(window: Window)
      reads this, window
    {
      window.cursorGrabbed == enabled && window.cursorVisible == !enabled
    }

    /** Escape unlocks; otherwise holding the left button locks; Escape wins
        when both happen in one tick. The window follows the lock. */
    method UpdateCursorLock(window: Window, escapeJustPressed: bool, leftPressed: bool)
      modifies this`enabled, window`cursorGrabbed, window`cursorVisible
      ensures escapeJustPressed ==> !enabled
      ensures !escapeJustPressed && leftPressed ==> enabled
      ensures !escapeJustPressed && !leftPressed ==>
        enabled == old(enabled) && window.cursorGrabbed == old(window.cursorGrabbed)
        && window.cursorVisible == old(window.cursorVisible)
      ensures escapeJustPressed || leftPressed ==> InSync(window)
      ensures old(InSync(window)) ==> InSync(window)
    {
      if escapeJustPressed {
        window.cursorGrabbed := false;
        window.cursorVisible := true;
        enabled := false;
      } else if leftPressed {
        window.cursorGrabbed := true;
        window.cursorVisible := false;
        enabled := true;
      }
    }
  }

  class MouseLookState {
    var yaw: real
    var pitch: real
    var roll: real
    var zoom: real

    /** The derived default: everything zero. */
    constructor ()
      ensures yaw == 0.0 && pitch == 0.0 && roll == 0.0 && zoom == 0.0
      ensures Valid()
    {
      yaw, pitch, roll, zoom := 0.0, 0.0, 0.0, 0.0;
    }

    /** The pitch stays within the bound on either side. */
    predicate Valid()
      reads this
    {
      -PitchBound <= pitch <= PitchBound
    }

    /** Runs the look system for one tick. Motion and wheel events are consumed
        whether or not the cursor is locked, but only applied when it is; the
        motion turns the view (and `reoriented` reports that the direction
        vectors were recomputed) only when its squared length exceeds the
        threshold. Moving the mouse right or down decreases yaw or pitch, and
        scrolling up decreases the zoom. */
    method InputToLook(motions: seq<Vec2>, wheels: seq<real>, settings: MouseSettings, cursorLocked: bool)
      returns (reoriented: bool)
      modifies this`yaw, this`pitch, this`zoom
      ensures old(Valid()) ==> Valid()
      ensures !cursorLocked ==>
        !reoriented && yaw == old(yaw) && pitch == old(pitch) && zoom == old(zoom)
      ensures cursorLocked ==> (reoriented <==> LengthSquared(Total(motions)) > MotionThreshold)
      ensures cursorLocked ==>
        yaw == (if reoriented then old(yaw) - Total(motions).x * settings.sensitivity else old(yaw))
      ensures cursorLocked ==>
        pitch == (if reoriented then ClampPitch(old(pitch) - Total(motions).y * settings.sensitivity) else old(pitch))
      ensures cursorLocked ==> zoom == old(zoom) - WheelTotal(wheels) * settings.zoomSensitivity
    {
      var dx, dy := 0.0, 0.0;
      var i := 0;
      while i < |motions|
        invariant 0 <= i <= |motions|
        invariant dx == -Total(motions[..i]).x && dy == -Total(motions[..i]).y
      {
        assert motions[..i + 1][..i] == motions[..i];
        dx := dx - motions[i].x;
        dy := dy - motions[i].y;
        i := i + 1;
      }
      assert motions[..i] == motions;
      var wheelY := 0.0;
      var j := 0;
      while j < |wheels|
        invariant 0 <= j <= |wheels|
        invariant wheelY == -WheelTotal(wheels[..j])
      {
        assert wheels[..j + 1][..j] == wheels[..j];
        wheelY := wheelY - wheels[j];
        j := j + 1;
      }
      assert wheels[..j] == wheels;
      reoriented := false;
      if !cursorLocked {
        return;
      }
      var delta := Total(motions);
      assert pitch == old(pitch) && yaw == old(yaw);
      assert dx * dx + dy * dy == LengthSquared(delta) by {
        assert dx * dx == delta.x * delta.x && dy * dy == delta.y * delta.y;
      }
      if dx * dx + dy * dy > MotionThreshold {
        reoriented := true;
        var turnX, turnY := dx * settings.sensitivity, dy * settings.sensitivity;
        assert turnX == -(delta.x * settings.sensitivity) by {
          assert dx == -delta.x;
        }
        assert turnY == -(Total(motions).y * settings.sensitivity) by {
          assert dy == -Total(motions).y;
        }
        yaw := yaw + turnX;
        var turned := pitch + turnY;
        pitch := turned;
        if pitch > PitchBound {
          pitch := PitchBound;
        }
        if pitch < -PitchBound {
          pitch := -PitchBound;
        }
        assert turned == old(pitch) - Total(motions).y * settings.sensitivity;
        assert pitch == ClampPitch(turned);
        assert pitch == ClampPitch(old(pitch) - Total(motions).y * settings.sensitivity);
      }
      assert wheelY * settings.zoomSensitivity == -(WheelTotal(wheels) * settings.zoomSensitivity);
      zoom := zoom + wheelY * settings.zoomSensitivity;
    }
  }
}

=== FILE: movement_state.dfy ===
/** Movement: the fly and view toggles, the character's animation choice, and
    the character's own click on interactables. */
module Movement {
  import opened Common
  import opened WorldStates
  import opened Animatables
  import opened Actions
  import opened KeyInput
  import opened CharacterLoading

  const ForwardAnimation: nat := 0
  const ToggleSwitchAnimation: nat := 1
  const IdleAnimation: nat := 4
  const ToggleSwitchDuration: real := 1.2
  /** A switch timer at or below this value counts as expired. */
  const TimerThreshold: real := 0.0001

  class MovementState {
    var noclip: bool
    var playingAnimation: Option<nat>
    var toggleSwitchRmn: real

    /** The derived default: walking, nothing playing, no switch timer. */
    constructor ()
      ensures !noclip && playingAnimation.None? && toggleSwitchRmn == 0.0
    {
      noclip := false;
      playingAnimation := None;
      toggleSwitchRmn := 0.0;
    }
  }

  /** The player's rigid body marker. */
  class Mover {
    var thirdPerson: bool

    constructor ()
      ensures !thirdPerson
    {
      thirdPerson := false;
    }
  }

  /** Applies the fly and view toggles; the walking impulse is written only
      while not flying (its value is vector math, not part of this model). */
  method UpdateMovement(keys: KeyInputState, state: MovementState, mover: Mover) returns (impulseWritten: bool)
    modifies state`noclip, mover`thirdPerson
    ensures state.noclip == (old(state.noclip) != keys.toggleFly)
    ensures mover.thirdPerson == (old(mover.thirdPerson) != keys.toggleView)
    ensures impulseWritten <==> !state.noclip
  {
    if keys.toggleFly {
      state.noclip := !state.noclip;
    }
    if keys.toggleView {
      mover.thirdPerson := !mover.thirdPerson;
    }
    impulseWritten := !state.noclip;
  }

  // ---------------------------------------------------------------------------
  // Animation choice
  // ---------------------------------------------------------------------------

  /** The animation-choice state: the switch timer and the clip index playing. */
  datatype Animator = Animator(toggleSwitchRmn: real, playing: Option<nat>)

  /** The clip the character should be playing: the switch clip while the
      switch timer runs, else the walk clip while walking forward, else idle. */
  function Choice(rmn: real, forward: bool): (idx: nat)
    ensures idx < |CharacterClips|
    ensures idx == ToggleSwitchAnimation <==> rmn > TimerThreshold
    ensures idx == ForwardAnimation <==> rmn <= TimerThreshold && forward
    ensures idx == IdleAnimation <==> rmn <= TimerThreshold && !forward
  {
    if rmn > TimerThreshold then ToggleSwitchAnimation else if forward then ForwardAnimation else IdleAnimation
  }

  /** One animation player under the character: a running timer is counted
      down by the frame time, and the chosen clip becomes the playing one. */
  function AnimStep(a: Animator, forward: bool, delta: real): Animator
  {
    Animator(if a.toggleSwitchRmn > TimerThreshold then a.toggleSwitchRmn - delta else a.toggleSwitchRmn,
             Some(Choice(a.toggleSwitchRmn, forward)))
  }

  predicate UnderCharacter(p: AnimationPlayer, entity: Option<nat>)
  {
    entity.Some? && entity.value == p.parent
  }

  /** The animation state after every player under the character has stepped. */
  function Animate(a: Animator, players: seq<AnimationPlayer>, entity: Option<nat>, forward: bool, delta: real): Animator
    decreases |players|
  {
    if players == [] then a
    else if UnderCharacter(players[0], entity) then Animate(AnimStep(a, forward, delta), players[1..], entity, forward, delta)
    else Animate(a, players[1..], entity, forward, delta)
  }

  /** The plays those steps issue: a player is told to play only when the
      chosen clip differs from the one playing. */
  function AnimPlays(a: Animator, players: seq<AnimationPlayer>, entity: Option<nat>, forward: bool, delta: real): (plays: seq<Play>)
    ensures forall p | p in plays :: p.clip in CharacterClips
    decreases |players|
  {
    if players == [] then []
    else if UnderCharacter(players[0], entity) then
      var idx := Choice(a.toggleSwitchRmn, forward);
      (if a.playing != Some(idx) then [Play(players[0].id, CharacterClips[idx])] else [])
        + AnimPlays(AnimStep(a, forward, delta), players[1..], entity, forward, delta)
    else AnimPlays(a, players[1..], entity, forward, delta)
  }

  predicate HasCharacterPlayer(players: seq<AnimationPlayer>, entity: Option<nat>)
  {
    exists j | 0 <= j < |players| :: UnderCharacter(players[j], entity)
  }

  /** With the switch timer expired, stepping keeps the timer and leaves the
      chosen clip playing when some player is under the character, and
      changes nothing otherwise. */
  lemma {:induction false} ExpiredTimerSettles(a: Animator, players: seq<AnimationPlayer>, entity: Option<nat>, forward: bool, delta: real)
    requires a.toggleSwitchRmn <= TimerThreshold
    ensures Animate(a, players, entity, forward, delta).toggleSwitchRmn == a.toggleSwitchRmn
    ensures HasCharacterPlayer(players, entity) ==>
      Animate(a, players, entity, forward, delta).playing == Some(Choice(a.toggleSwitchRmn, forward))
    ensures !HasCharacterPlayer(players, entity) ==> Animate(a, players, entity, forward, delta) == a
    decreases |players|
  {
    if players != [] {
      var next := if UnderCharacter(players[0], entity) then AnimStep(a, forward, delta) else a;
      ExpiredTimerSettles(next, players[1..], entity, forward, delta);
      if HasCharacterPlayer(players[1..], entity) {
        var j :| 0 <= j < |players[1..]| && UnderCharacter(players[1..][j], entity);
        assert UnderCharacter(players[j + 1], entity);
      }
      if !UnderCharacter(players[0], entity) && HasCharacterPlayer(players, entity) {
        var j :| 0 <= j < |players| && UnderCharacter(players[j], entity);
        assert j > 0 && UnderCharacter(players[1..][j - 1], entity);
      }
    }
  }

  /** With the switch timer expired and the chosen clip already playing, no
      player is told to play anything. */
  lemma {:induction false} SettledPlaysNothing(a: Animator, players: seq<AnimationPlayer>, entity: Option<nat>, forward: bool, delta: real)
    requires a.toggleSwitchRmn <= TimerThreshold
    requires a.playing == Some(Choice(a.toggleSwitchRmn, forward)) || !HasCharacterPlayer(players, entity)
    ensures AnimPlays(a, players, entity, forward, delta) == []
    decreases |players|
  {
    if players != [] {
      if UnderCharacter(players[0], entity) {
        assert HasCharacterPlayer(players, entity);
        SettledPlaysNothing(AnimStep(a, forward, delta), players[1..], entity, forward, delta);
      } else {
        SettledPlaysNothing(a, players[1..], entity, forward, delta);
      }
    }
  }

  /** Once the switch timer has expired, a second tick with the same input
      issues no play: a clip is restarted only when the choice changes. */
  lemma RepeatedTickIsQuiet(a: Animator, players: seq<AnimationPlayer>, entity: Option<nat>, forward: bool, delta: real)
    requires a.toggleSwitchRmn <= TimerThreshold
    ensures var b := Animate(a, players, entity, forward, delta);
      AnimPlays(b, players, entity, forward, delta) == []
  {
    ExpiredTimerSettles(a, players, entity, forward, delta);
    var b := Animate(a, players, entity, forward, delta);
    SettledPlaysNothing(b, players, entity, forward, delta);
  }

  /** A running switch timer wins over walking: the first player under the
      character is told to play the switch clip unless it already plays, and
      the timer drops by the frame time. */
  lemma SwitchTimerWins(a: Animator, p: AnimationPlayer, entity: nat, forward: bool, delta: real)
    requires a.toggleSwitchRmn > TimerThreshold && p.parent == entity
    ensures Animate(a, [p], Some(entity), forward, delta) == Animator(a.toggleSwitchRmn - delta, Some(ToggleSwitchAnimation))
    ensures AnimPlays(a, [p], Some(entity), forward, delta) ==
      (if a.playing == Some(ToggleSwitchAnimation) then [] else [Play(p.id, CharacterClips[ToggleSwitchAnimation])])
  {
    assert [p][1..] == [];
  }

  /** Runs the animation choice for one tick. */
  method UpdateCharacterState(state: MovementState, cs: CharacterState, cursorLocked: bool, forward: bool, delta: real,
                              renderMode: string, players: seq<AnimationPlayer>) returns (plays: seq<Play>)
    modifies state`toggleSwitchRmn, state`playingAnimation
    ensures !cursorLocked || state.noclip ==>
      plays == [] && state.toggleSwitchRmn == old(state.toggleSwitchRmn) && state.playingAnimation == old(state.playingAnimation)
    ensures cursorLocked && !state.noclip && renderMode == CollidersMode ==>
      && plays == []
      && state.playingAnimation == old(state.playingAnimation)
      && state.toggleSwitchRmn == (if old(state.toggleSwitchRmn) > TimerThreshold then 0.0 else old(state.toggleSwitchRmn))
    ensures cursorLocked && !state.noclip && renderMode != CollidersMode ==>
      var a := Animator(old(state.toggleSwitchRmn), old(state.playingAnimation));
      && Animator(state.toggleSwitchRmn, state.playingAnimation) == Animate(a, players, cs.characterAnimEntity, forward, delta)
      && plays == AnimPlays(a, players, cs.characterAnimEntity, forward, delta)
  {
    plays := [];
    if !cursorLocked || state.noclip {
      return;
    }
    if renderMode == CollidersMode {
      if state.toggleSwitchRmn > TimerThreshold {
        state.toggleSwitchRmn := 0.0;
      }
      return;
    }
    ghost var a := Animator(state.toggleSwitchRmn, state.playingAnimation);
    var i := 0;
    while i < |players|
      invariant 0 <= i <= |players|
      invariant var cur := Animator(state.toggleSwitchRmn, state.playingAnimation);
        && Animate(cur, players[i..], cs.characterAnimEntity, forward, delta) == Animate(a, players, cs.characterAnimEntity, forward, delta)
        && plays + AnimPlays(cur, players[i..], cs.characterAnimEntity, forward, delta) == AnimPlays(a, players, cs.characterAnimEntity, forward, delta)
    {
      var player := players[i];
      if cs.characterAnimEntity.Some? && cs.characterAnimEntity.value == player.parent {
        var idx;
        if state.toggleSwitchRmn > TimerThreshold {
          state.toggleSwitchRmn := state.toggleSwitchRmn - delta;
          idx := ToggleSwitchAnimation;
        } else if forward {
          idx := ForwardAnimation;
        } else {
          idx := IdleAnimation;
        }
        if !(state.playingAnimation.Some? && state.playingAnimation.value == idx) {
          state.playingAnimation := Some(idx);
          plays := plays + [Play(player.id, CharacterClips[idx])];
        }
      }
      assert players[i..][1..] == players[i + 1..];
      i := i + 1;
    }
  }

  // ---------------------------------------------------------------------------
  // The character's own click
  // ---------------------------------------------------------------------------

  /** A click counts only with the cursor locked, on the tick the left button
      goes down, and with the switch timer expired. */
  predicate ClickCounts(cursorLocked: bool, leftJustPressed: bool, rmn: real)
  {
    cursorLocked && leftJustPressed && rmn <= TimerThreshold
  }

  /** Runs the character's click for one tick. `along` lists the entities
      whose colliders the interaction ray meets, nearest first, and the hit
      is the first of them on the ray's layer. Any hit restarts the switch
      timer, even on an entity that is not a registered interactable; only a
      registered one has its actions dispatched. */
  method UpdateMouseInteraction(state: MovementState, ws: WorldState, scene: Scene, cursorLocked: bool, leftJustPressed: bool, along: seq<nat>)
    returns (outcome: Outcome, sent: Sent)
    modifies state`toggleSwitchRmn
    ensures var clicked := ClickCounts(cursorLocked, leftJustPressed, old(state.toggleSwitchRmn));
      var hit := RayHit(along, scene.rayTargets);
      && (outcome.Panic? <==> clicked && hit.Some? && hit.value in ws.interactableStates
                              && DispatchFails(ws.interactableStates[hit.value].interaction.actions))
      && (outcome.Done? ==> sent == (if clicked && hit.Some? && hit.value in ws.interactableStates
                                     then Dispatch(NothingSent, ws.interactableStates[hit.value].interaction.actions)
                                     else NothingSent))
      && (outcome.Done? ==> state.toggleSwitchRmn == (if clicked && hit.Some? then ToggleSwitchDuration else old(state.toggleSwitchRmn)))
  {
    sent := NothingSent;
    if !cursorLocked {
      return Done, sent;
    }
    if leftJustPressed && state.toggleSwitchRmn <= TimerThreshold {
      var hit := RayHit(along, scene.rayTargets);
      if hit.Some? {
        if hit.value in ws.interactableStates {
          var interactable := ws.interactableStates[hit.value];
          outcome, sent := DispatchActions(interactable.interaction.actions);
          if outcome.Panic? {
            return;
          }
        }
        state.toggleSwitchRmn := ToggleSwitchDuration;
      }
    }
    outcome := Done;
  }
}

=== FILE: pre_loading.dfy ===
/** Pre-loading: the game waits for its UI font, then moves on to asset
    loading exactly once. */
module PreLoading {
  import opened Common
  import opened GameStates

  /** Whether a tick with the font in the given availability requests a state
      change, for a latch in the given position. */
  predicate Fires(preLoaded: bool, fontAvailable: bool)
  {
    !preLoaded && fontAvailable
  }

  /** The number of transition requests over a run of ticks, where `fonts[i]`
      says whether the font is available on tick `i`. */
  function Requests(preLoaded: bool, fonts: seq<bool>): nat
    decreases |fonts|
  {
    if fonts == [] then 0
    else (if Fires(preLoaded, fonts[0]) then 1 else 0) + Requests(preLoaded || fonts[0], fonts[1..])
  }

  /** Over any run of ticks the transition is requested once if the latch
      starts open and the font shows up on some tick, and never otherwise. */
  lemma {:induction false} RequestedAtMostOnce(preLoaded: bool, fonts: seq<bool>)
    ensures Requests(preLoaded, fonts) == (if !preLoaded && exists i | 0 <= i < |fonts| :: fonts[i] then 1 else 0)
    decreases |fonts|
  {
    if fonts != [] {
      RequestedAtMostOnce(preLoaded || fonts[0], fonts[1..]);
      if !preLoaded && !fonts[0] {
        if exists i | 0 <= i < |fonts| :: fonts[i] {
          var i :| 0 <= i < |fonts| && fonts[i];
          assert fonts[1..][i - 1];
        }
        if exists i | 0 <= i < |fonts[1..]| :: fonts[1..][i] {
          var i :| 0 <= i < |fonts[1..]| && fonts[1..][i];
          assert fonts[i + 1];
        }
      }
      if preLoaded || fonts[0] {
        assert Requests(true, fonts[1..]) == 0;
      }
    }
  }

  class PreLoadingState {
    var preLoaded: bool

    /** The derived default: not yet pre-loaded. */
    constructor ()
      ensures !preLoaded
    {
      preLoaded := false;
    }

    /** Runs the pre-loading step for one tick: the first tick on which the font
        is available closes the latch and requests `AssetLoading`; every other
        tick does nothing. */
    method UpdatePreLoading(fontAvailable: bool) returns (request: Option<GameState>)
      modifies this`preLoaded
      ensures request.Some? <==> Fires(old(preLoaded), fontAvailable)
      ensures request.Some? ==> request.value == AssetLoading
      ensures preLoaded == (old(preLoaded) || fontAvailable)
    {
      if preLoaded || !fontAvailable {
        return None;
      }
      preLoaded := true;
      request := Some(AssetLoading);
    }
  }
}

=== FILE: sounds_state.dfy ===
/** Sounds: every registered sound plays on its own looped audio channel; a
    toggle pauses or resumes it, and the stereo panning of every playing sound
    follows the camera. */
module Sounds {
  import opened Common
  import opened WorldStates

  /** The sound event actions. The sounds file declares `Toggle` alone, and
      the sound handler acts on it only; `Resume` and `Pause` are added here
      because the train system sends them. */
  datatype SoundsAction = Toggle | Resume | Pause

  datatype SoundsEvent = SoundsEvent(action: SoundsAction, name: string)

  /** An audio channel as the handler leaves it: the clip it loops and
      whether it is paused. */
  datatype Channel = Channel(path: string, paused: bool)

  /** A command to the audio channel of a sound. */
  datatype ChannelCommand = ResumeChannel(channel: string) | PauseChannel(channel: string)

  /** The asset path of a sound: "audio/<sound>.ogg". */
  function SoundPath(sound: string): (path: string)
    ensures |path| == |sound| + 10
    ensures path[..6] == "audio/" && path[|path| - 4..] == ".ogg" && path[6..|path| - 4] == sound
  {
    "audio/" + sound + ".ogg"
  }

  /** The channels agree with the sound states: one channel per sound, paused
      exactly when the sound is. */
  ghost predicate Agree(channels: map<string, Channel>, sounds: map<string, WorldSoundState>)
  {
    channels.Keys == sounds.Keys && forall n | n in sounds :: channels[n].paused == sounds[n].paused
  }

  /** On entering the running state: one looped channel per registered sound,
      paused at once when the sound is registered paused. */
  method SetupSoundsInteraction(ws: WorldState) returns (channels: map<string, Channel>)
    ensures channels.Keys == ws.animatableSounds.Keys
    ensures forall n | n in channels ::
      channels[n] == Channel(SoundPath(ws.animatableSounds[n].sound), ws.animatableSounds[n].paused)
    ensures Agree(channels, ws.animatableSounds)
  {
    channels := map[];
    var rest := ws.animatableSounds.Keys;
    while rest != {}
      invariant rest <= ws.animatableSounds.Keys
      invariant channels.Keys == ws.animatableSounds.Keys - rest
      invariant forall n | n in channels ::
        channels[n] == Channel(SoundPath(ws.animatableSounds[n].sound), ws.animatableSounds[n].paused)
      decreases rest
    {
      var name :| name in rest;
      var state := ws.animatableSounds[name];
      var channel := Channel(SoundPath(state.sound), false);
      if state.paused {
        channel := channel.(paused := true);
      }
      channels := channels[name := channel];
      rest := rest - {name};
    }
  }

  // ---------------------------------------------------------------------------
  // Toggles
  // ---------------------------------------------------------------------------

  /** One event: a toggle of a registered sound flips its `paused` flag. */
  function ToggleSound(sounds: map<string, WorldSoundState>, e: SoundsEvent): map<string, WorldSoundState>
  {
    if e.action == Toggle && e.name in sounds then sounds[e.name := sounds[e.name].(paused := !sounds[e.name].paused)]
    else sounds
  }

  /** The channel command one event causes. */
  function CommandsFor(sounds: map<string, WorldSoundState>, e: SoundsEvent): seq<ChannelCommand>
  {
    if e.action == Toggle && e.name in sounds then
      (if sounds[e.name].paused then [ResumeChannel(e.name)] else [PauseChannel(e.name)])
    else []
  }

  function ApplyToggles(sounds: map<string, WorldSoundState>, events: seq<SoundsEvent>): map<string, WorldSoundState>
    decreases |events|
  {
    if events == [] then sounds else ApplyToggles(ToggleSound(sounds, events[0]), events[1..])
  }

  function Commands(sounds: map<string, WorldSoundState>, events: seq<SoundsEvent>): seq<ChannelCommand>
    decreases |events|
  {
    if events == [] then [] else CommandsFor(sounds, events[0]) + Commands(ToggleSound(sounds, events[0]), events[1..])
  }

  /** A channel after a command. */
  function ApplyCommands(channels: map<string, Channel>, commands: seq<ChannelCommand>): map<string, Channel>
    decreases |commands|
  {
    if commands == [] then channels
    else
      var c := commands[0];
      var next := if c.channel in channels then channels[c.channel := channels[c.channel].(paused := c.PauseChannel?)] else channels;
      ApplyCommands(next, commands[1..])
  }

  /** How many toggles of a sound the events hold. */
  function TogglesOf(events: seq<SoundsEvent>, name: string): nat
    decreases |events|
  {
    if events == [] then 0 else (if events[0] == SoundsEvent(Toggle, name) then 1 else 0) + TogglesOf(events[1..], name)
  }

  /** A sound ends paused exactly when it started paused and was toggled an
      even number of times or started playing and was toggled an odd number
      of times; its other fields, and the set of sounds, never change. */
  lemma {:induction false} TogglesByParity(sounds: map<string, WorldSoundState>, events: seq<SoundsEvent>)
    ensures var after := ApplyToggles(sounds, events);
      && after.Keys == sounds.Keys
      && forall n | n in sounds ::
           after[n] == sounds[n].(paused := sounds[n].paused != (TogglesOf(events, n) % 2 == 1))
    decreases |events|
  {
    if events != [] {
      TogglesByParity(ToggleSound(sounds, events[0]), events[1..]);
    }
  }

  /** Resume and pause requests do not reach this handler: a tick of them
      changes nothing and sends nothing. */
  lemma {:induction false} OnlyTogglesAct(sounds: map<string, WorldSoundState>, events: seq<SoundsEvent>)
    requires forall i | 0 <= i < |events| :: events[i].action != Toggle
    ensures ApplyToggles(sounds, events) == sounds && Commands(sounds, events) == []
    decreases |events|
  {
    if events != [] {
      OnlyTogglesAct(sounds, events[1..]);
    }
  }

  /** The channel commands a tick sends keep the channels in agreement with
      the sound states: each toggle resumes or pauses its channel to match. */
  lemma {:induction false} CommandsKeepAgreement(channels: map<string, Channel>, sounds: map<string, WorldSoundState>, events: seq<SoundsEvent>)
    requires Agree(channels, sounds)
    ensures Agree(ApplyCommands(channels, Commands(sounds, events)), ApplyToggles(sounds, events))
    decreases |events|
  {
    if events != [] {
      var e := events[0];
      var cs := CommandsFor(sounds, e);
      var next := ApplyCommands(channels, cs);
      if e.action == Toggle && e.name in sounds {
        assert cs[1..] == [];
        var step := channels[e.name := channels[e.name].(paused := cs[0].PauseChannel?)];
        assert next == ApplyCommands(step, []);
        assert Agree(next, ToggleSound(sounds, e));
      } else {
        assert next == channels;
      }
      CommandsKeepAgreement(next, ToggleSound(sounds, e), events[1..]);
      ApplyCommandsAppend(channels, cs, Commands(ToggleSound(sounds, e), events[1..]));
    }
  }

  lemma {:induction false} ApplyCommandsAppend(channels: map<string, Channel>, xs: seq<ChannelCommand>, ys: seq<ChannelCommand>)
    ensures ApplyCommands(channels, xs + ys) == ApplyCommands(ApplyCommands(channels, xs), ys)
    decreases |xs|
  {
    if xs != [] {
      assert (xs + ys)[0] == xs[0];
      assert (xs + ys)[1..] == xs[1..] + ys;
      var c := xs[0];
      var next := if c.channel in channels then channels[c.channel := channels[c.channel].(paused := c.PauseChannel?)] else channels;
      ApplyCommandsAppend(next, xs[1..], ys);
    } else {
      assert xs + ys == ys;
    }
  }

  /** Runs the toggle handler for one tick (it does not look at the cursor lock). */
  method UpdateSoundsInteraction(ws: WorldState, events: seq<SoundsEvent>) returns (commands: seq<ChannelCommand>)
    modifies ws`animatableSounds
    ensures ws.animatableSounds == ApplyToggles(old(ws.animatableSounds), events)
    ensures commands == Commands(old(ws.animatableSounds), events)
  {
    var sounds := ws.animatableSounds;
    commands := [];
    var i := 0;
    while i < |events|
      invariant 0 <= i <= |events|
      invariant ApplyToggles(sounds, events[i..]) == ApplyToggles(old(ws.animatableSounds), events)
      invariant commands + Commands(sounds, events[i..]) == Commands(old(ws.animatableSounds), events)
    {
      var e := events[i];
      ghost var before := sounds;
      if e.name in sounds {
        var state := sounds[e.name];
        if e.action == Toggle {
          if state.paused {
            commands := commands + [ResumeChannel(e.name)];
            sounds := sounds[e.name := state.(paused := false)];
          } else {
            commands := commands + [PauseChannel(e.name)];
            sounds := sounds[e.name := state.(paused := true)];
          }
        }
      }
      assert events[i..][1..] == events[i + 1..];
      assert sounds == ToggleSound(before, e);
      i := i + 1;
    }
    ws.animatableSounds := sounds;
  }

  // ---------------------------------------------------------------------------
  // Panning
  // ---------------------------------------------------------------------------

  /** `f32::EPSILON`, 2^-23. */
  const Epsilon: real := 0.00000011920928955078125

  /** The stereo panning for a sound whose offset from the camera, projected
      on the camera's right vector, is `d`. */
  function Panning(d: real): (p: real)
    ensures 0.0 <= p <= 1.0
    ensures d <= -2.0 ==> p == 1.0
    ensures d >= 2.0 ==> p == 0.0
  {
    var clamped := if d * 0.5 < -1.0 then -1.0 else if d * 0.5 > 1.0 then 1.0 else d * 0.5;
    clamped * -0.5 + 0.5
  }

  function Abs(x: real): real { if x < 0.0 then -x else x }

  /** Updates the panning of every playing sound. `dot` gives, per sound, the
      projection of its offset from the camera on the camera's right vector;
      the result is the panning sent to each channel that was updated. */
  method UpdateSoundsStates(ws: WorldState, dot: string -> real) returns (sent: map<string, real>)
    modifies ws`animatableSounds
    ensures ws.animatableSounds.Keys == old(ws.animatableSounds).Keys
    ensures sent.Keys <= ws.animatableSounds.Keys
    ensures forall n | n in ws.animatableSounds ::
      var before := old(ws.animatableSounds)[n];
      && ws.animatableSounds[n] == before.(panning := ws.animatableSounds[n].panning)
      && (before.paused ==> ws.animatableSounds[n].panning == before.panning && n !in sent)
      && (!before.paused && Abs(before.panning - Panning(dot(n))) > Epsilon ==>
            ws.animatableSounds[n].panning == Panning(dot(n)) && n in sent && sent[n] == Panning(dot(n)))
      && (!before.paused && Abs(before.panning - Panning(dot(n))) <= Epsilon ==>
            ws.animatableSounds[n].panning == before.panning && n !in sent)
    ensures forall n | n in ws.animatableSounds && !ws.animatableSounds[n].paused ::
      Abs(ws.animatableSounds[n].panning - Panning(dot(n))) <= Epsilon
  {
    sent := map[];
    var rest := ws.animatableSounds.Keys;
    while rest != {}
      invariant rest <= ws.animatableSounds.Keys
      invariant ws.animatableSounds.Keys == old(ws.animatableSounds).Keys
      invariant sent.Keys <= ws.animatableSounds.Keys - rest
      invariant forall n | n in rest :: ws.animatableSounds[n] == old(ws.animatableSounds)[n]
      invariant forall n | n in ws.animatableSounds && n !in rest ::
        var before := old(ws.animatableSounds)[n];
        && ws.animatableSounds[n] == before.(panning := ws.animatableSounds[n].panning)
        && (before.paused ==> ws.animatableSounds[n].panning == before.panning && n !in sent)
        && (!before.paused && Abs(before.panning - Panning(dot(n))) > Epsilon ==>
              ws.animatableSounds[n].panning == Panning(dot(n)) && n in sent && sent[n] == Panning(dot(n)))
        && (!before.paused && Abs(before.panning - Panning(dot(n))) <= Epsilon ==>
              ws.animatableSounds[n].panning == before.panning && n !in sent)
      decreases rest
    {
      var name :| name in rest;
      var state := ws.animatableSounds[name];
      if !state.paused {
        var panning := Panning(dot(name));
        if Abs(state.panning - panning) > Epsilon {
          sent := sent[name := panning];
          ws.animatableSounds := ws.animatableSounds[name := state.(panning := panning)];
        }
      }
      rest := rest - {name};
    }
  }
}

=== FILE: trains_state.dfy ===
/** Trains: a control event makes a registered train the active one, and the
    W and S keys then drive it (and the player standing on it) along the z
    axis, with the train sound resumed when it starts and paused when it stops. */
module Trains {
  import opened Common
  import opened WorldAssets
  import opened WorldStates
  import opened KeyInput
  import opened Sounds

  /** `TrainsEvent` with its only action, `StartControl`. */
  datatype TrainsEvent = StartControl(train: string)

  // ---------------------------------------------------------------------------
  // Control
  // ---------------------------------------------------------------------------

  /** The active train after a tick's control events: each event naming a
      registered train makes it the active one; other events are ignored. */
  function Controlled(trains: map<string, WorldTrainState>, active: Option<string>, events: seq<TrainsEvent>): Option<string>
    decreases |events|
  {
    if events == [] then active
    else Controlled(trains, if events[0].train in trains then Some(events[0].train) else active, events[1..])
  }

  /** The active train is the one it was, or a registered train some event named. */
  lemma {:induction false} ControlledOrigin(trains: map<string, WorldTrainState>, active: Option<string>, events: seq<TrainsEvent>)
    ensures var after := Controlled(trains, active, events);
      after == active || (after.Some? && after.value in trains && exists i | 0 <= i < |events| :: events[i].train == after.value)
    decreases |events|
  {
    if events != [] {
      var next := if events[0].train in trains then Some(events[0].train) else active;
      ControlledOrigin(trains, next, events[1..]);
      var after := Controlled(trains, active, events);
      if after != next {
        var i :| 0 <= i < |events[1..]| && events[1..][i].train == after.value;
        assert events[i + 1].train == after.value;
      }
    }
  }

  lemma {:induction false} ControlledAppend(trains: map<string, WorldTrainState>, active: Option<string>, xs: seq<TrainsEvent>, ys: seq<TrainsEvent>)
    ensures Controlled(trains, active, xs + ys) == Controlled(trains, Controlled(trains, active, xs), ys)
    decreases |xs|
  {
    if xs != [] {
      assert (xs + ys)[0] == xs[0];
      assert (xs + ys)[1..] == xs[1..] + ys;
      ControlledAppend(trains, if xs[0].train in trains then Some(xs[0].train) else active, xs[1..], ys);
    } else {
      assert xs + ys == ys;
    }
  }

  /** Events naming unregistered trains leave the active train alone. */
  lemma {:induction false} UnregisteredIgnored(trains: map<string, WorldTrainState>, active: Option<string>, events: seq<TrainsEvent>)
    requires forall i | 0 <= i < |events| :: events[i].train !in trains
    ensures Controlled(trains, active, events) == active
    decreases |events|
  {
    if events != [] {
      UnregisteredIgnored(trains, active, events[1..]);
    }
  }

  /** The last event naming a registered train wins. */
  lemma LastRegisteredWins(trains: map<string, WorldTrainState>, active: Option<string>,
                           xs: seq<TrainsEvent>, name: string, ys: seq<TrainsEvent>)
    requires name in trains
    requires forall i | 0 <= i < |ys| :: ys[i].train !in trains
    ensures Controlled(trains, active, xs + [StartControl(name)] + ys) == Some(name)
  {
    ControlledAppend(trains, active, xs + [StartControl(name)], ys);
    ControlledAppend(trains, active, xs, [StartControl(name)]);
    UnregisteredIgnored(trains, Some(name), ys);
  }

  /** Runs the control handler for one tick. */
  method UpdateTrainsInteraction(ws: WorldState, cursorLocked: bool, events: seq<TrainsEvent>)
    modifies ws`activeTrain
    ensures ws.activeTrain == (if cursorLocked then Controlled(ws.animatableTrains, old(ws.activeTrain), events) else old(ws.activeTrain))
  {
    if !cursorLocked {
      return;
    }
    var i := 0;
    while i < |events|
      invariant 0 <= i <= |events|
      invariant Controlled(ws.animatableTrains, ws.activeTrain, events[i..]) == Controlled(ws.animatableTrains, old(ws.activeTrain), events)
    {
      if events[i].train in ws.animatableTrains {
        ws.activeTrain := Some(events[i].train);
      }
      assert events[i..][1..] == events[i + 1..];
      i := i + 1;
    }
  }

  // ---------------------------------------------------------------------------
  // Movement
  // ---------------------------------------------------------------------------

  const TrainSpeed: real := 0.02
  /** The name of the train sound's channel. */
  const TrainSound: string := "train"

  /** The z step this tick: W drives forward (-z), S backward (+z), and S wins
      when both are held. */
  function Step(pressed: set<KeyCode>): (step: real)
    ensures S in pressed ==> step == TrainSpeed
    ensures S !in pressed && W in pressed ==> step == -TrainSpeed
    ensures S !in pressed && W !in pressed ==> step == 0.0
  {
    var afterW := if W in pressed then -TrainSpeed else 0.0;
    if S in pressed then TrainSpeed else afterW
  }

  /** A step counts as motion when its size reaches `f32::EPSILON`. */
  predicate Moving(step: real)
  {
    Abs(step) >= Epsilon
  }

  /** The train moves exactly when W or S is held. */
  lemma MovingIffDriven(pressed: set<KeyCode>)
    ensures Moving(Step(pressed)) <==> W in pressed || S in pressed
  {
  }

  /** An entity's translation moved by `d` along z. */
  function MoveZ(translations: map<nat, Vec3>, e: nat, d: real): (moved: map<nat, Vec3>)
    requires e in translations
    ensures moved.Keys == translations.Keys
    ensures moved[e] == translations[e].(z := translations[e].z + d)
    ensures forall o | o in translations && o != e :: moved[o] == translations[o]
  {
    translations[e := translations[e].(z := translations[e].z + d)]
  }

  /** The sound request of one tick: resume on the first moving tick, pause
      on the first still tick, nothing otherwise. */
  function TickSounds(running: bool, step: real): seq<SoundsEvent>
  {
    if Moving(step) && !running then [SoundsEvent(Resume, TrainSound)]
    else if !Moving(step) && running then [SoundsEvent(Pause, TrainSound)]
    else []
  }

  /** The sound requests of a run of ticks with the keys held in each. */
  function RunSounds(running: bool, keys: seq<set<KeyCode>>): seq<SoundsEvent>
    decreases |keys|
  {
    if keys == [] then [] else TickSounds(running, Step(keys[0])) + RunSounds(Moving(Step(keys[0])), keys[1..])
  }

  /** Over any run of ticks the train sends resume and pause requests
      alternately, starting with the one that changes its current state. */
  lemma {:induction false} SoundsAlternate(running: bool, keys: seq<set<KeyCode>>)
    ensures var out := RunSounds(running, keys);
      && (out != [] ==> out[0] == SoundsEvent(if running then Pause else Resume, TrainSound))
      && (forall i | 0 <= i < |out| - 1 :: out[i].action != out[i + 1].action)
      && (forall i | 0 <= i < |out| :: out[i].name == TrainSound && out[i].action != Toggle)
    decreases |keys|
  {
    if keys != [] {
      var moving := Moving(Step(keys[0]));
      SoundsAlternate(moving, keys[1..]);
      var first := TickSounds(running, Step(keys[0]));
      var rest := RunSounds(moving, keys[1..]);
      var out := RunSounds(running, keys);
      assert out == first + rest;
      if first != [] {
        assert moving != running;
        forall i | 0 <= i < |out| - 1
          ensures out[i].action != out[i + 1].action
        {
          if i > 0 {
            assert out[i] == rest[i - 1] && out[i + 1] == rest[i];
          }
        }
      } else {
        assert moving == running;
      }
    }
  }

  /** Runs the train drive for one tick. `pressed` are the keys held down and
      `mover` is the player's entity, the one character loading records. */
  method UpdateTrainsMovement(ws: WorldState, scene: Scene, cursorLocked: bool, pressed: set<KeyCode>, mover: nat)
    returns (outcome: Outcome, sounds: seq<SoundsEvent>)
    modifies ws`animatableTrains, scene`translations
    ensures !cursorLocked || ws.activeTrain.None? || ws.activeTrain.value !in old(ws.animatableTrains) ==>
      outcome == Done && sounds == []
      && ws.animatableTrains == old(ws.animatableTrains) && scene.translations == old(scene.translations)
    ensures cursorLocked && ws.activeTrain.Some? && ws.activeTrain.value in old(ws.animatableTrains) ==>
      var name := ws.activeTrain.value;
      var train := old(ws.animatableTrains)[name];
      var step := Step(pressed);
      && (outcome.Panic? <==>
            train.parentEntity.None? || train.parentEntity.value !in old(scene.translations)
            || (Moving(step) && mover !in old(scene.translations)))
      && (outcome.Done? ==>
            && ws.animatableTrains == old(ws.animatableTrains)[name := train.(running := Moving(step))]
            && sounds == TickSounds(train.running, step)
            && scene.translations ==
                 (var moved := MoveZ(old(scene.translations), train.parentEntity.value, step);
                  if Moving(step) then MoveZ(moved, mover, step) else moved))
  {
    sounds := [];
    if !cursorLocked || ws.activeTrain.None? {
      return Done, sounds;
    }
    var name := ws.activeTrain.value;
    if name !in ws.animatableTrains {
      return Done, sounds;
    }
    var train := ws.animatableTrains[name];
    if train.parentEntity.None? || train.parentEntity.value !in scene.translations {
      return Panic("train without a transform"), sounds;
    }
    var parent := train.parentEntity.value;
    var amove := 0.0;
    if W in pressed {
      amove := -TrainSpeed;
    }
    if S in pressed {
      amove := TrainSpeed;
    }
    scene.translations := scene.translations[parent := scene.translations[parent].(z := scene.translations[parent].z + amove)];
    if Abs(amove) >= Epsilon {
      if !train.running {
        train := train.(running := true);
        ws.animatableTrains := ws.animatableTrains[name := train];
        sounds := sounds + [SoundsEvent(Resume, TrainSound)];
      }
      if mover !in scene.translations {
        return Panic("mover without a transform"), sounds;
      }
      scene.translations := scene.translations[mover := scene.translations[mover].(z := scene.translations[mover].z + amove)];
    }
    if Abs(amove) < Epsilon && train.running {
      train := train.(running := false);
      ws.animatableTrains := ws.animatableTrains[name := train];
      sounds := sounds + [SoundsEvent(Pause, TrainSound)];
    }
    outcome := Done;
  }
}

=== FILE: world_asset.dfy ===
/** The level description format: one `WorldAsset` per `.world` file, made of
    ordered lists of colliders, doors, interactables, lights, props, sounds and
    trains. The `trains` list and its records belong to the revision of the
    format that the level loader reads. */
module WorldAssets {
  import opened Common

  datatype Vec3 = Vec3(x: real, y: real, z: real)

  datatype Quat = Quat(x: real, y: real, z: real, w: real)

  /** A convex physics collider; `shape` names its kind ("cuboid"). */
  datatype WorldCollider = WorldCollider(shape: string, translation: Vec3, rotation: Quat, scale: Vec3)

  /** A door; `prop` names its model, `name` is the key door events use. */
  datatype WorldDoor = WorldDoor(prop: string, name: string, translation: Vec3, rotation: Quat, scale: Vec3)

  /** The rule attached to an interactable: its trigger kind, its prompt text and
      two ordered lists of `(kind, argument)` pairs. Kinds are free text: the
      loader does not check them against any vocabulary. */
  datatype WorldInteraction = WorldInteraction(
    interaction: string,
    interactionText: string,
    actions: seq<(string, string)>,
    blockers: seq<(string, string)>)

  /** An interaction target; the rule is optional. */
  datatype WorldInteractable = WorldInteractable(
    shape: string, translation: Vec3, rotation: Quat, scale: Vec3,
    interaction: Option<WorldInteraction>)

  /** A model placed in the level; `animatable` optionally names it for animation. */
  datatype WorldProp = WorldProp(prop: string, translation: Vec3, rotation: Quat, scale: Vec3, animatable: Option<string>)

  /** A positioned, looped sound. */
  datatype WorldSound = WorldSound(sound: string, translation: Vec3, paused: bool, animatable: Option<string>)

  /** A light; `light_type` "spot" makes a directional light, anything else a point light. */
  datatype WorldLight = WorldLight(
    lightType: string, translation: Vec3, rotation: Quat, scale: Vec3,
    watts: real, animatable: Option<string>)

  /** A train: a parent entity whose children come from the nested level named by `prop`. */
  datatype WorldTrain = WorldTrain(prop: string, translation: Vec3, animatable: Option<string>)

  datatype WorldAsset = WorldAsset(
    colliders: seq<WorldCollider>,
    doors: seq<WorldDoor>,
    interactables: seq<WorldInteractable>,
    lights: seq<WorldLight>,
    props: seq<WorldProp>,
    sounds: seq<WorldSound>,
    trains: seq<WorldTrain>)

  datatype ParseError = ParseError(message: string)

  /** What the RON deserialiser made of a file's bytes (the deserialiser itself
      is a library and is not modelled). */
  datatype Parsed = Parsed(asset: WorldAsset) | Malformed(error: ParseError)

  /** What one load registers: the assets handed to the asset store, or the error. */
  datatype LoadResult = Registered(assets: seq<WorldAsset>) | LoadError(error: ParseError)

  /** The file extensions the level loader claims. */
  const Extensions: seq<string> := ["world"]

  /** Loading is all-or-nothing: a parse error registers nothing and is passed
      on; a successful parse registers exactly the parsed asset. Action and
      blocker kinds are accepted whatever they are. */
  function Load(parsed: Parsed): (r: LoadResult)
    ensures r.LoadError? <==> parsed.Malformed?
    ensures r.LoadError? ==> r.error == parsed.error
    ensures r.Registered? ==> |r.assets| == 1 && r.assets[0] == parsed.asset
  {
    match parsed
    case Parsed(asset) => Registered([asset])
    case Malformed(e) => LoadError(e)
  }

  /** The loader is chosen for a file exactly when its extension is "world". */
  function ClaimsExtension(ext: string): (claimed: bool)
    ensures claimed <==> ext == "world"
  {
    ext in Extensions
  }
}

=== FILE: world_flags.dfy ===
/** World flags: named booleans the story raises. The only action sets a flag;
    nothing ever clears one. */
module WorldFlags {
  /** `WorldFlagsEvent` with its only action, `Enable`. */
  datatype WorldFlagsEvent = Enable(flag: string)

  /** The flag map after enabling each named flag in turn. */
  function EnableAll(flags: map<string, bool>, events: seq<WorldFlagsEvent>): map<string, bool>
    decreases |events|
  {
    if events == [] then flags else EnableAll(flags[events[0].flag := true], events[1..])
  }

  /** The names the events raise. */
  function Named(events: seq<WorldFlagsEvent>): set<string>
  {
    set i | 0 <= i < |events| :: events[i].flag
  }

  /** After enabling, the map holds the old flags plus every named one; each
      named flag is raised and every other flag is as it was. */
  lemma {:induction false} EnableAllEffect(flags: map<string, bool>, events: seq<WorldFlagsEvent>)
    ensures EnableAll(flags, events).Keys == flags.Keys + Named(events)
    ensures forall f | f in Named(events) :: EnableAll(flags, events)[f]
    ensures forall f | f in flags && f !in Named(events) :: EnableAll(flags, events)[f] == flags[f]
    decreases |events|
  {
    if events != [] {
      var next := flags[events[0].flag := true];
      EnableAllEffect(next, events[1..]);
      assert Named(events) == {events[0].flag} + Named(events[1..]) by {
        forall f | f in Named(events) ensures f in {events[0].flag} + Named(events[1..]) {
          var i :| 0 <= i < |events| && events[i].flag == f;
          if i > 0 {
            assert events[1..][i - 1].flag == f;
          }
        }
        forall f | f in Named(events[1..]) ensures f in Named(events) {
          var i :| 0 <= i < |events[1..]| && events[1..][i].flag == f;
          assert events[i + 1].flag == f;
        }
      }
    }
  }

  /** A raised flag stays raised. */
  lemma {:induction false} EnableAllMonotone(flags: map<string, bool>, events: seq<WorldFlagsEvent>, f: string)
    requires f in flags && flags[f]
    ensures f in EnableAll(flags, events) && EnableAll(flags, events)[f]
    decreases |events|
  {
    if events != [] {
      EnableAllMonotone(flags[events[0].flag := true], events[1..], f);
    }
  }

  /** Replaying the same events changes nothing more. */
  lemma EnableAllIdempotent(flags: map<string, bool>, events: seq<WorldFlagsEvent>)
    ensures EnableAll(EnableAll(flags, events), events) == EnableAll(flags, events)
  {
    var once := EnableAll(flags, events);
    EnableAllEffect(flags, events);
    EnableAllEffect(once, events);
    var twice := EnableAll(once, events);
    assert twice.Keys == once.Keys;
    forall f | f in once ensures twice[f] == once[f] {
      if f in Named(events) {
        assert twice[f] && once[f];
      }
    }
  }

  class WorldFlagsState {
    var flags: map<string, bool>

    /** The derived default: no flags. */
    constructor ()
      ensures flags == map[]
    {
      flags := map[];
    }

    /** Runs the flags handler for one tick: with the cursor locked, each event
        raises its flag. */
    method UpdateWorldFlagsInteraction(cursorLocked: bool, events: seq<WorldFlagsEvent>)
      modifies this`flags
      ensures flags == (if cursorLocked then EnableAll(old(flags), events) else old(flags))
    {
      if !cursorLocked {
        return;
      }
      var i := 0;
      while i < |events|
        invariant 0 <= i <= |events|
        invariant EnableAll(flags, events[i..]) == EnableAll(old(flags), events)
      {
        flags := flags[events[i].flag := true];
        assert events[i..][1..] == events[i + 1..];
        i := i + 1;
      }
    }
  }
}

=== FILE: world_loading.dfy ===
/** Level loading: the one-shot init step that picks the next game state, the
    registration of a level's content into the live world state, and the
    per-tick tracker that waits for every animatable prop's scene to be
    instantiated before the level starts running. */
module WorldLoading {
  import opened Common
  import opened GameStates
  import opened WorldAssets
  import opened WorldStates

  /** Prop kinds the loader has a model for; any other kind is skipped. */
  const PropCatalogue: set<string> := {
    "big_switch", "bottle_lightfuel", "cardboard_closed", "cardboard_opened", "cardboard_tube",
    "city_fence", "diesel_generator", "door_blue", "fountain_round", "fuse_console", "fuse_small",
    "house_roof01", "house_woodside", "office_table", "office_desk", "office_chair", "pallet",
    "rail_track", "train_wire", "tunnel_entrance", "world01_building01", "world01_generator_wire",
    "world01_ground01", "world01_ground02", "world01_ground03", "refinery_column01",
    "refinery_desalter", "refinery_scaffolding", "refinery_sphere", "refinery_tank01",
    "refinery_warmer", "world03_ground", "world03_pipes", "world03_walkways"
  }

  /** The only door model, and the only nested level (and nested prop) a train may name. */
  const DoorProp: string := "door_blue"
  const TrainLevel: string := "denki_train"
  const TrainProp: string := "denki_train"

  /** The clip every resolved "switch..." animatable gets. */
  const SwitchClip: string := "props/big_switch.glb#Animation3"

  /** The render mode in which no visual scene is instantiated. */
  const CollidersMode: string := "colliders"

  predicate KnownProp(kind: string) { kind in PropCatalogue }

  /** The loaded level files the loader can pick from. */
  datatype WorldAssetStore = WorldAssetStore(world01: WorldAsset, world03: WorldAsset, denkiTrain: WorldAsset)

  /** The level read for the chosen world: world03 for "world03", world01 otherwise. */
  function SelectedLevel(store: WorldAssetStore, activeWorld: string): WorldAsset
  {
    if activeWorld == "world03" then store.world03 else store.world01
  }

  // ---------------------------------------------------------------------------
  // Registration, as a function of the level content
  // ---------------------------------------------------------------------------

  /** Everything registration writes: the world-state maps, the pending scene
      instances, the engine components it creates and the id counters. */
  datatype Registry = Registry(
    interactables: map<nat, InteractableState>,
    lights: map<string, nat>,
    sounds: map<string, WorldSoundState>,
    trains: map<string, WorldTrainState>,
    doors: map<string, DoorState>,
    pending: map<string, nat>,
    pointLights: map<nat, real>,
    translations: map<nat, Vec3>,
    rayTargets: set<nat>,
    nextEntity: nat,
    nextInstance: nat)

  /** The registry a fresh load starts from: every map emptied, the engine left as it is. */
  function Reset(pointLights: map<nat, real>, translations: map<nat, Vec3>, rayTargets: set<nat>, nextEntity: nat, nextInstance: nat): Registry
  {
    Registry(map[], map[], map[], map[], map[], map[], pointLights, translations, rayTargets, nextEntity, nextInstance)
  }

  /** An animatable prop without a model, outside colliders mode, reaches
      `unwrap` on a missing scene instance. */
  predicate PropPanics(p: WorldProp, colliders: bool)
  {
    p.animatable.Some? && !colliders && !KnownProp(p.prop)
  }

  /** A prop with a model gets a scene instance (outside colliders mode); an
      animatable one is recorded as pending on that instance. */
  function RegisterProp(r: Registry, p: WorldProp, colliders: bool): Registry
  {
    var spawned := KnownProp(p.prop) && !colliders;
    r.(pending := if spawned && p.animatable.Some? then r.pending[p.animatable.value := r.nextInstance] else r.pending,
       nextInstance := if spawned then r.nextInstance + 1 else r.nextInstance)
  }

  /** A door with the door model gets a parent entity (and, outside colliders
      mode, a scene instance) and is recorded closed under its name. */
  function RegisterDoor(r: Registry, d: WorldDoor, colliders: bool): Registry
  {
    var door := d.prop == DoorProp;
    r.(doors := if door then r.doors[d.name := DoorState(Some(r.nextEntity), false)] else r.doors,
       nextEntity := if door then r.nextEntity + 1 else r.nextEntity,
       nextInstance := if door && !colliders then r.nextInstance + 1 else r.nextInstance)
  }

  /** An interactable with a rule gets a collider entity keyed to the rule.
      `nested` marks a train's interactables: only those whose trigger is
      "click" go on the layer the interaction ray is filtered to. */
  function RegisterInteractable(r: Registry, x: WorldInteractable, nested: bool): Registry
  {
    var ruled := x.interaction.Some?;
    r.(interactables := if ruled then r.interactables[r.nextEntity := InteractableState(x.interaction.value)] else r.interactables,
       rayTargets := if ruled && (!nested || x.interaction.value.interaction == "click") then r.rayTargets + {r.nextEntity} else r.rayTargets,
       nextEntity := if ruled then r.nextEntity + 1 else r.nextEntity)
  }

  /** Every light gets an entity: a directional light for "spot", a point light
      of the given power otherwise; an animatable one is recorded by name. */
  function RegisterLight(r: Registry, l: WorldLight): Registry
  {
    r.(lights := if l.animatable.Some? then r.lights[l.animatable.value := r.nextEntity] else r.lights,
       pointLights := if l.lightType == "spot" then r.pointLights else r.pointLights[r.nextEntity := l.watts],
       nextEntity := r.nextEntity + 1)
  }

  /** An animatable sound is recorded centred, at half volume, paused as the file says. */
  function RegisterSound(r: Registry, s: WorldSound): Registry
  {
    r.(sounds := if s.animatable.Some? then r.sounds[s.animatable.value := WorldSoundState(s.sound, s.translation, 0.5, 0.5, s.paused)] else r.sounds)
  }

  /** Inside a train only the train model gets a scene instance. */
  function RegisterNestedProp(r: Registry, p: WorldProp, colliders: bool): Registry
  {
    r.(nextInstance := if p.prop == TrainProp && !colliders then r.nextInstance + 1 else r.nextInstance)
  }

  /** A train spawns a parent entity at its position, then registers the
      nested level's props, lights and interactables under it; an animatable
      train is recorded stopped, with that parent. */
  function RegisterTrain(r: Registry, t: WorldTrain, nested: WorldAsset, colliders: bool): Registry
  {
    var r1 := TrainChildren(r.(nextEntity := r.nextEntity + 1, translations := r.translations[r.nextEntity := t.translation]), nested, colliders);
    r1.(trains := if t.animatable.Some? then r1.trains[t.animatable.value := WorldTrainState(Some(r.nextEntity), false)] else r1.trains)
  }

  /** The nested level's content, registered under a train. */
  function TrainChildren(r: Registry, nested: WorldAsset, colliders: bool): Registry
  {
    RegisterInteractables(RegisterLights(RegisterNestedProps(r, nested.props, colliders), nested.lights), nested.interactables, true)
  }

  function RegisterProps(r: Registry, ps: seq<WorldProp>, colliders: bool): Registry
    decreases |ps|
  {
    if ps == [] then r else RegisterProps(RegisterProp(r, ps[0], colliders), ps[1..], colliders)
  }

  function RegisterDoors(r: Registry, ds: seq<WorldDoor>, colliders: bool): Registry
    decreases |ds|
  {
    if ds == [] then r else RegisterDoors(RegisterDoor(r, ds[0], colliders), ds[1..], colliders)
  }

  function RegisterInteractables(r: Registry, xs: seq<WorldInteractable>, nested: bool): Registry
    decreases |xs|
  {
    if xs == [] then r else RegisterInteractables(RegisterInteractable(r, xs[0], nested), xs[1..], nested)
  }

  function RegisterLights(r: Registry, ls: seq<WorldLight>): Registry
    decreases |ls|
  {
    if ls == [] then r else RegisterLights(RegisterLight(r, ls[0]), ls[1..])
  }

  function RegisterSounds(r: Registry, ss: seq<WorldSound>): Registry
    decreases |ss|
  {
    if ss == [] then r else RegisterSounds(RegisterSound(r, ss[0]), ss[1..])
  }

  function RegisterNestedProps(r: Registry, ps: seq<WorldProp>, colliders: bool): Registry
    decreases |ps|
  {
    if ps == [] then r else RegisterNestedProps(RegisterNestedProp(r, ps[0], colliders), ps[1..], colliders)
  }

  function RegisterTrains(r: Registry, ts: seq<WorldTrain>, nested: WorldAsset, colliders: bool): Registry
    decreases |ts|
  {
    if ts == [] then r else RegisterTrains(RegisterTrain(r, ts[0], nested, colliders), ts[1..], nested, colliders)
  }

  /** A whole level's registration, in the order the loader walks the lists. */
  function Registration(level: WorldAsset, trainLevel: WorldAsset, colliders: bool, r0: Registry): Registry
  {
    var r1 := RegisterProps(r0, level.props, colliders);
    var r2 := RegisterDoors(r1, level.doors, colliders);
    var r3 := RegisterInteractables(r2, level.interactables, false);
    var r4 := RegisterLights(r3, level.lights);
    var r5 := RegisterSounds(r4, level.sounds);
    RegisterTrains(r5, level.trains, trainLevel, colliders)
  }

  /** Registration aborts on an animatable prop without a model (outside
      colliders mode) or on a train naming a nested level other than the train's. */
  predicate SetupPanics(level: WorldAsset, colliders: bool)
  {
    || (exists i | 0 <= i < |level.props| :: PropPanics(level.props[i], colliders))
    || (exists i | 0 <= i < |level.trains| :: level.trains[i].prop != TrainLevel)
  }

  // ---------------------------------------------------------------------------
  // Completion tracking, as a relation between two ticks
  // ---------------------------------------------------------------------------

  /** The clips a resolved animatable gets: the switch clip for keys starting
      with "switch", none otherwise. */
  function ClipsFor(key: string): (clips: seq<string>)
  {
    if "switch" <= key then [SwitchClip] else []
  }

  /** The keys whose scene has been recorded but not yet resolved. */
  function WaitingKeys(scenes: map<string, nat>, animatables: map<string, AnimatableState>): set<string>
  {
    set k | k in scenes && k !in animatables
  }

  /** `a` is what the tracker records for `key`: the lowest entity the key's
      scene instance reports, and the clips its name calls for. */
  ghost predicate ResolvedEntry(key: string, a: AnimatableState, scenes: map<string, nat>, spawner: map<nat, set<nat>>)
  {
    && key in scenes
    && a.sceneEntity.Some?
    && IsLeast(a.sceneEntity.value, InstanceEntities(spawner, scenes[key]))
    && a.clips == ClipsFor(key)
  }

  /** One resolving tick: resolved keys keep their entry; a waiting key is
      resolved exactly when its instance reports an entity; nothing else appears. */
  ghost predicate ResolvedTick(before: map<string, AnimatableState>, after: map<string, AnimatableState>,
                               scenes: map<string, nat>, spawner: map<nat, set<nat>>)
  {
    && (forall k :: k in before ==> k in after && after[k] == before[k])
    && (forall k :: k in after && k !in before ==> ResolvedEntry(k, after[k], scenes, spawner))
    && (forall k :: k in scenes && k !in before ==> (k in after <==> InstanceEntities(spawner, scenes[k]) != {}))
  }

  // ---------------------------------------------------------------------------
  // The loader's own state and its systems
  // ---------------------------------------------------------------------------

  class WorldLoadingState {
    /** Scene instance of every animatable prop, by animatable name. */
    var animatableScenes: map<string, nat>
    var inited: bool
    var done: bool

    constructor ()
      ensures animatableScenes == map[] && !inited && !done
    {
      animatableScenes := map[];
      inited := false;
      done := false;
    }

    /** What registration has written so far. */
    function Snapshot(ws: WorldState, scene: Scene): Registry
      reads this, ws, scene
    {
      Registry(ws.interactableStates, ws.animatableLights, ws.animatableSounds, ws.animatableTrains,
               ws.doors, animatableScenes, scene.pointLights, scene.translations, scene.rayTargets,
               scene.nextEntity, scene.nextInstance)
    }

    /** Entering world init re-arms the init latch, shows "Spawning" on the
        loading screen, and despawns the previous level's world entities and
        the mover: no point light, transform or ray target of theirs is left.
        The id counters keep running, so later ids stay fresh. */
    method SetupWorldInit(scene: Scene) returns (loadingText: string)
      modifies this`inited, scene`pointLights, scene`translations, scene`rayTargets
      ensures !inited && loadingText == "Spawning"
      ensures scene.pointLights == map[] && scene.translations == map[] && scene.rayTargets == {}
      ensures scene.nextEntity == old(scene.nextEntity) && scene.nextInstance == old(scene.nextInstance)
    {
      inited := false;
      loadingText := "Spawning";
      scene.pointLights := map[];
      scene.translations := map[];
      scene.rayTargets := {};
    }

    /** The first tick after init requests the credits for the "credits"
        world and character loading for any other; later ticks do nothing. */
    method UpdateWorldInit(ws: WorldState) returns (request: Option<GameState>)
      modifies this`inited
      ensures inited
      ensures old(inited) ==> request == None
      ensures !old(inited) ==> request == Some(if ws.activeWorld == "credits" then Credits else CharacterLoading)
    {
      request := None;
      if !inited {
        inited := true;
        if ws.activeWorld == "credits" {
          request := Some(Credits);
        } else {
          request := Some(CharacterLoading);
        }
      }
    }

    /** Entering world loading: wipe the level state, then register the chosen
        level's content in file order. */
    method SetupWorldLoading(ws: WorldState, scene: Scene, store: WorldAssetStore, renderMode: string) returns (outcome: Outcome)
      modifies this`animatableScenes, this`done
      modifies ws`interactableStates, ws`animatables, ws`animatableLights, ws`animatableSounds,
               ws`animatableTrains, ws`doors, ws`activeTrain
      modifies scene`nextEntity, scene`nextInstance, scene`pointLights, scene`translations, scene`rayTargets
      ensures !done && ws.animatables == map[] && ws.activeTrain == None
      ensures outcome.Panic? <==> SetupPanics(SelectedLevel(store, ws.activeWorld), renderMode == CollidersMode)
      ensures outcome.Done? ==>
        Snapshot(ws, scene)
        == Registration(SelectedLevel(store, ws.activeWorld), store.denkiTrain, renderMode == CollidersMode,
                        Reset(old(scene.pointLights), old(scene.translations), old(scene.rayTargets),
                              old(scene.nextEntity), old(scene.nextInstance)))
    {
      ResetLevel(ws, scene);
      var level := SelectedLevel(store, ws.activeWorld);
      var colliders := renderMode == CollidersMode;
      outcome := LoadProps(ws, scene, level.props, colliders);
      if outcome.Panic? {
        return;
      }
      LoadFixtures(ws, scene, level, colliders);
      outcome := LoadTrains(ws, scene, level.trains, store.denkiTrain, colliders);
    }

    /** The wipe that opens world loading: every registry and the pending
        animatables are emptied, and the entity and instance counters are kept. */
    method ResetLevel(ws: WorldState, scene: Scene)
      modifies this`animatableScenes, this`done
      modifies ws`interactableStates, ws`animatables, ws`animatableLights, ws`animatableSounds,
               ws`animatableTrains, ws`doors, ws`activeTrain
      ensures !done && ws.animatables == map[] && ws.activeTrain == None
      ensures Snapshot(ws, scene) == Reset(scene.pointLights, scene.translations, scene.rayTargets, scene.nextEntity, scene.nextInstance)
    {
      done := false;
      animatableScenes := map[];
      ws.interactableStates := map[];
      ws.animatables := map[];
      ws.animatableLights := map[];
      ws.animatableSounds := map[];
      ws.animatableTrains := map[];
      ws.doors := map[];
      ws.activeTrain := None;
    }

    /** The level's doors, interactables, lights and sounds, registered in
        that order between the props and the trains. */
    method LoadFixtures(ws: WorldState, scene: Scene, level: WorldAsset, colliders: bool)
      modifies ws`doors, ws`interactableStates, ws`animatableLights, ws`animatableSounds
      modifies scene`nextEntity, scene`nextInstance, scene`rayTargets, scene`pointLights
      ensures Snapshot(ws, scene)
        == RegisterSounds(RegisterLights(RegisterInteractables(RegisterDoors(old(Snapshot(ws, scene)), level.doors, colliders),
                                                               level.interactables, false), level.lights), level.sounds)
    {
      LoadDoors(ws, scene, level.doors, colliders);
      LoadInteractables(ws, scene, level.interactables, false);
      LoadLights(ws, scene, level.lights);
      LoadSounds(ws, scene, level.sounds);
    }

    method LoadProps(ws: WorldState, scene: Scene, ps: seq<WorldProp>, colliders: bool) returns (outcome: Outcome)
      modifies this`animatableScenes, scene`nextInstance
      ensures outcome.Panic? <==> exists i | 0 <= i < |ps| :: PropPanics(ps[i], colliders)
      ensures outcome.Done? ==> Snapshot(ws, scene) == RegisterProps(old(Snapshot(ws, scene)), ps, colliders)
    {
      var i := 0;
      while i < |ps|
        invariant 0 <= i <= |ps|
        invariant forall j | 0 <= j < i :: !PropPanics(ps[j], colliders)
        invariant RegisterProps(Snapshot(ws, scene), ps[i..], colliders) == RegisterProps(old(Snapshot(ws, scene)), ps, colliders)
      {
        var p := ps[i];
        var instance: Option<nat> := None;
        if KnownProp(p.prop) && !colliders {
          var inst := scene.SpawnScene();
          instance := Some(inst);
        }
        if p.animatable.Some? && !colliders {
          if instance.None? {
            return Panic("animatable prop without a scene instance");
          }
          animatableScenes := animatableScenes[p.animatable.value := instance.value];
        }
        assert ps[i..][1..] == ps[i + 1..];
        i := i + 1;
      }
      outcome := Done;
    }

    method LoadDoors(ws: WorldState, scene: Scene, ds: seq<WorldDoor>, colliders: bool)
      modifies ws`doors, scene`nextEntity, scene`nextInstance
      ensures Snapshot(ws, scene) == RegisterDoors(old(Snapshot(ws, scene)), ds, colliders)
    {
      var i := 0;
      while i < |ds|
        invariant 0 <= i <= |ds|
        invariant RegisterDoors(Snapshot(ws, scene), ds[i..], colliders) == RegisterDoors(old(Snapshot(ws, scene)), ds, colliders)
      {
        var d := ds[i];
        if d.prop == DoorProp {
          var parent := scene.Spawn();
          if !colliders {
            var _ := scene.SpawnScene();
          }
          ws.doors := ws.doors[d.name := DoorState(Some(parent), false)];
        }
        assert ds[i..][1..] == ds[i + 1..];
        i := i + 1;
      }
    }

    method LoadInteractables(ws: WorldState, scene: Scene, xs: seq<WorldInteractable>, nested: bool)
      modifies ws`interactableStates, scene`nextEntity, scene`rayTargets
      ensures Snapshot(ws, scene) == RegisterInteractables(old(Snapshot(ws, scene)), xs, nested)
    {
      var i := 0;
      while i < |xs|
        invariant 0 <= i <= |xs|
        invariant RegisterInteractables(Snapshot(ws, scene), xs[i..], nested) == RegisterInteractables(old(Snapshot(ws, scene)), xs, nested)
      {
        var x := xs[i];
        if x.interaction.Some? {
          var collider := scene.Spawn();
          if !nested || x.interaction.value.interaction == "click" {
            scene.rayTargets := scene.rayTargets + {collider};
          }
          ws.interactableStates := ws.interactableStates[collider := InteractableState(x.interaction.value)];
        }
        assert xs[i..][1..] == xs[i + 1..];
        i := i + 1;
      }
    }

    method LoadLights(ws: WorldState, scene: Scene, ls: seq<WorldLight>)
      modifies ws`animatableLights, scene`nextEntity, scene`pointLights
      ensures Snapshot(ws, scene) == RegisterLights(old(Snapshot(ws, scene)), ls)
    {
      var i := 0;
      while i < |ls|
        invariant 0 <= i <= |ls|
        invariant RegisterLights(Snapshot(ws, scene), ls[i..]) == RegisterLights(old(Snapshot(ws, scene)), ls)
      {
        var l := ls[i];
        var light := scene.Spawn();
        if l.lightType != "spot" {
          scene.pointLights := scene.pointLights[light := l.watts];
        }
        if l.animatable.Some? {
          ws.animatableLights := ws.animatableLights[l.animatable.value := light];
        }
        assert ls[i..][1..] == ls[i + 1..];
        i := i + 1;
      }
    }

    method LoadSounds(ws: WorldState, scene: Scene, ss: seq<WorldSound>)
      modifies ws`animatableSounds
      ensures Snapshot(ws, scene) == RegisterSounds(old(Snapshot(ws, scene)), ss)
    {
      var i := 0;
      while i < |ss|
        invariant 0 <= i <= |ss|
        invariant RegisterSounds(Snapshot(ws, scene), ss[i..]) == RegisterSounds(old(Snapshot(ws, scene)), ss)
      {
        var s := ss[i];
        if s.animatable.Some? {
          ws.animatableSounds := ws.animatableSounds[s.animatable.value := WorldSoundState(s.sound, s.translation, 0.5, 0.5, s.paused)];
        }
        assert ss[i..][1..] == ss[i + 1..];
        i := i + 1;
      }
    }

    method LoadNestedProps(ws: WorldState, scene: Scene, ps: seq<WorldProp>, colliders: bool)
      modifies scene`nextInstance
      ensures Snapshot(ws, scene) == RegisterNestedProps(old(Snapshot(ws, scene)), ps, colliders)
    {
      var i := 0;
      while i < |ps|
        invariant 0 <= i <= |ps|
        invariant RegisterNestedProps(Snapshot(ws, scene), ps[i..], colliders) == RegisterNestedProps(old(Snapshot(ws, scene)), ps, colliders)
      {
        if ps[i].prop == TrainProp && !colliders {
          var _ := scene.SpawnScene();
        }
        assert ps[i..][1..] == ps[i + 1..];
        i := i + 1;
      }
    }

    /** One train: a parent entity at the train's position, then the nested
        level's props, lights and interactables under it; an animatable train
        is recorded stopped. Aborts when the train names another nested level. */
    method LoadTrain(ws: WorldState, scene: Scene, t: WorldTrain, nested: WorldAsset, colliders: bool) returns (outcome: Outcome)
      modifies ws`animatableTrains, ws`animatableLights, ws`interactableStates
      modifies scene`nextEntity, scene`nextInstance, scene`pointLights, scene`translations, scene`rayTargets
      ensures outcome.Panic? <==> t.prop != TrainLevel
      ensures outcome.Done? ==> Snapshot(ws, scene) == RegisterTrain(old(Snapshot(ws, scene)), t, nested, colliders)
    {
      ghost var before := Snapshot(ws, scene);
      var parent := scene.Spawn();
      scene.translations := scene.translations[parent := t.translation];
      if t.prop != TrainLevel {
        return Panic("train names an unknown nested level");
      }
      ghost var spawned := Snapshot(ws, scene);
      assert spawned == before.(nextEntity := before.nextEntity + 1, translations := before.translations[before.nextEntity := t.translation]);
      LoadNestedProps(ws, scene, nested.props, colliders);
      LoadLights(ws, scene, nested.lights);
      LoadInteractables(ws, scene, nested.interactables, true);
      ghost var children := Snapshot(ws, scene);
      assert children == TrainChildren(spawned, nested, colliders);
      if t.animatable.Some? {
        ws.animatableTrains := ws.animatableTrains[t.animatable.value := WorldTrainState(Some(parent), false)];
      }
      assert Snapshot(ws, scene) == children.(trains := if t.animatable.Some? then children.trains[t.animatable.value := WorldTrainState(Some(parent), false)] else children.trains);
      outcome := Done;
    }

    method LoadTrains(ws: WorldState, scene: Scene, ts: seq<WorldTrain>, nested: WorldAsset, colliders: bool) returns (outcome: Outcome)
      modifies ws`animatableTrains, ws`animatableLights, ws`interactableStates
      modifies scene`nextEntity, scene`nextInstance, scene`pointLights, scene`translations, scene`rayTargets
      ensures outcome.Panic? <==> exists i | 0 <= i < |ts| :: ts[i].prop != TrainLevel
      ensures outcome.Done? ==> Snapshot(ws, scene) == RegisterTrains(old(Snapshot(ws, scene)), ts, nested, colliders)
    {
      var i := 0;
      while i < |ts|
        invariant 0 <= i <= |ts|
        invariant forall j | 0 <= j < i :: ts[j].prop == TrainLevel
        invariant RegisterTrains(Snapshot(ws, scene), ts[i..], nested, colliders) == RegisterTrains(old(Snapshot(ws, scene)), ts, nested, colliders)
      {
        outcome := LoadTrain(ws, scene, ts[i], nested, colliders);
        if outcome.Panic? {
          return;
        }
        assert ts[i..][1..] == ts[i + 1..];
        i := i + 1;
      }
      outcome := Done;
    }

    /** One tick of the completion tracker. Once done it does nothing. A tick
        that starts with no waiting key finishes loading: it sets `done`, hides
        the loading screen, resumes physics and requests `Running`. Any other
        tick resolves the waiting keys whose scene instance reports entities. */
    method UpdateWorldLoading(ws: WorldState, spawner: map<nat, set<nat>>)
      returns (request: Option<GameState>, hideLoadingUi: bool, resumePhysics: bool)
      modifies this`done, ws`animatables
      ensures old(done) ==> done && ws.animatables == old(ws.animatables)
      ensures old(done) || old(WaitingKeys(animatableScenes, ws.animatables)) != {} ==>
        request == None && !hideLoadingUi && !resumePhysics
      ensures !old(done) && old(WaitingKeys(animatableScenes, ws.animatables)) == {} ==>
        done && request == Some(Running) && hideLoadingUi && resumePhysics && ws.animatables == old(ws.animatables)
      ensures !old(done) && old(WaitingKeys(animatableScenes, ws.animatables)) != {} ==>
        !done && ResolvedTick(old(ws.animatables), ws.animatables, animatableScenes, spawner)
    {
      request, hideLoadingUi, resumePhysics := None, false, false;
      if done {
        return;
      }
      var waiting := set k | k in animatableScenes && k !in ws.animatables;
      if waiting == {} {
        hideLoadingUi := true;
        done := true;
        request := Some(Running);
        resumePhysics := true;
        return;
      }
      ghost var before := ws.animatables;
      var rest := waiting;
      while rest != {}
        invariant rest <= waiting && !done
        invariant forall k :: k in before ==> k in ws.animatables && ws.animatables[k] == before[k]
        invariant forall k :: k in ws.animatables && k !in before ==> k in waiting - rest && ResolvedEntry(k, ws.animatables[k], animatableScenes, spawner)
        invariant forall k :: k in waiting - rest ==> (k in ws.animatables <==> InstanceEntities(spawner, animatableScenes[k]) != {})
        invariant forall k :: k in rest ==> k !in ws.animatables
        decreases rest
      {
        var key :| key in rest;
        var lowest := LowestEntity(InstanceEntities(spawner, animatableScenes[key]));
        if lowest.Some? {
          ws.animatables := ws.animatables[key := AnimatableState(lowest, ClipsFor(key))];
        }
        rest := rest - {key};
      }
      assert forall k :: k in animatableScenes && k !in before ==> k in waiting;
    }
  }
}

/** What registration does to each part of the world state, fold by fold, and
    for a whole level; and how the completion tracker makes progress. */
module WorldLoadingFacts {
  import opened Common
  import opened WorldAssets
  import opened WorldStates
  import opened WorldLoading

  // Names and counts read off the level lists.

  function PropAnims(ps: seq<WorldProp>): set<string>
    decreases |ps|
  {
    if ps == [] then {}
    else (if ps[0].animatable.Some? then {ps[0].animatable.value} else {}) + PropAnims(ps[1..])
  }

  function DoorNames(ds: seq<WorldDoor>): set<string>
    decreases |ds|
  {
    if ds == [] then {}
    else (if ds[0].prop == DoorProp then {ds[0].name} else {}) + DoorNames(ds[1..])
  }

  function LightAnims(ls: seq<WorldLight>): set<string>
    decreases |ls|
  {
    if ls == [] then {}
    else (if ls[0].animatable.Some? then {ls[0].animatable.value} else {}) + LightAnims(ls[1..])
  }

  function SoundAnims(ss: seq<WorldSound>): set<string>
    decreases |ss|
  {
    if ss == [] then {}
    else (if ss[0].animatable.Some? then {ss[0].animatable.value} else {}) + SoundAnims(ss[1..])
  }

  function TrainAnims(ts: seq<WorldTrain>): set<string>
    decreases |ts|
  {
    if ts == [] then {}
    else (if ts[0].animatable.Some? then {ts[0].animatable.value} else {}) + TrainAnims(ts[1..])
  }

  /** The number of interactables that carry a rule. */
  function CountRules(xs: seq<WorldInteractable>): nat
    decreases |xs|
  {
    if xs == [] then 0 else (if xs[0].interaction.Some? then 1 else 0) + CountRules(xs[1..])
  }

  /** Every registered interactable's id was handed out before the counter. */
  ghost predicate Fresh(r: Registry)
  {
    forall k | k in r.interactables :: k < r.nextEntity
  }

  /** Props leave everything but the pending instances and the instance counter alone. */
  lemma {:induction false} PropsFrame(r: Registry, ps: seq<WorldProp>, colliders: bool)
    ensures var r' := RegisterProps(r, ps, colliders);
      && r'.interactables == r.interactables && r'.lights == r.lights && r'.sounds == r.sounds
      && r'.trains == r.trains && r'.doors == r.doors && r'.pointLights == r.pointLights
      && r'.translations == r.translations && r'.rayTargets == r.rayTargets && r'.nextEntity == r.nextEntity
    decreases |ps|
  {
    if ps != [] {
      PropsFrame(RegisterProp(r, ps[0], colliders), ps[1..], colliders);
    }
  }

  /** Props record their pending scene instances, each a fresh one; in colliders
      mode nothing is recorded and no instance is spawned. */
  lemma {:induction false} PropsRegistration(r: Registry, ps: seq<WorldProp>, colliders: bool)
    ensures var r' := RegisterProps(r, ps, colliders);
      && (colliders ==> r'.pending == r.pending && r'.nextInstance == r.nextInstance)
      && r.nextInstance <= r'.nextInstance
      && (forall n | n in r.pending :: n in r'.pending)
      && (forall n | n in r'.pending ::
            (n in r.pending && r'.pending[n] == r.pending[n]) || r.nextInstance <= r'.pending[n] < r'.nextInstance)
    decreases |ps|
  {
    if ps != [] {
      PropsRegistration(RegisterProp(r, ps[0], colliders), ps[1..], colliders);
    }
  }

  /** Outside colliders mode, and when no prop aborts, the pending keys gain
      exactly the animatable names of the props. */
  lemma {:induction false} PropsNamed(r: Registry, ps: seq<WorldProp>, colliders: bool)
    requires !colliders && forall i | 0 <= i < |ps| :: !PropPanics(ps[i], colliders)
    ensures RegisterProps(r, ps, colliders).pending.Keys == r.pending.Keys + PropAnims(ps)
    decreases |ps|
  {
    if ps != [] {
      assert forall i | 0 <= i < |ps[1..]| :: !PropPanics(ps[1..][i], colliders) by {
        forall i | 0 <= i < |ps[1..]| ensures !PropPanics(ps[1..][i], colliders) {
          assert ps[1..][i] == ps[i + 1];
        }
      }
      assert !PropPanics(ps[0], colliders);
      PropsNamed(RegisterProp(r, ps[0], colliders), ps[1..], colliders);
    }
  }

  /** Doors leave everything but the doors and the two counters alone. */
  lemma {:induction false} DoorsFrame(r: Registry, ds: seq<WorldDoor>, colliders: bool)
    ensures var r' := RegisterDoors(r, ds, colliders);
      && r'.interactables == r.interactables && r'.lights == r.lights && r'.sounds == r.sounds
      && r'.trains == r.trains && r'.pending == r.pending && r'.pointLights == r.pointLights
      && r'.translations == r.translations && r'.rayTargets == r.rayTargets
      && r.nextEntity <= r'.nextEntity
    decreases |ds|
  {
    if ds != [] {
      DoorsFrame(RegisterDoor(r, ds[0], colliders), ds[1..], colliders);
    }
  }

  /** Doors register under their name when their model is the door model, closed
      and with a freshly spawned parent; other names keep their entry. */
  lemma {:induction false} DoorsRegistration(r: Registry, ds: seq<WorldDoor>, colliders: bool)
    ensures var r' := RegisterDoors(r, ds, colliders);
      && r'.doors.Keys == r.doors.Keys + DoorNames(ds)
      && (forall n | n in DoorNames(ds) ::
            n in r'.doors && !r'.doors[n].open && r'.doors[n].parentEntity.Some?
            && r.nextEntity <= r'.doors[n].parentEntity.value < r'.nextEntity)
      && (forall n | n in r.doors && n !in DoorNames(ds) :: n in r'.doors && r'.doors[n] == r.doors[n])
    decreases |ds|
  {
    if ds != [] {
      var r1 := RegisterDoor(r, ds[0], colliders);
      DoorsFrame(r1, ds[1..], colliders);
      DoorsRegistration(r1, ds[1..], colliders);
    }
  }

  /** Interactables leave everything but the interactables, the ray targets and
      the entity counter alone. */
  lemma {:induction false} InteractablesFrame(r: Registry, xs: seq<WorldInteractable>, nested: bool)
    ensures var r' := RegisterInteractables(r, xs, nested);
      && r'.lights == r.lights && r'.sounds == r.sounds && r'.trains == r.trains
      && r'.doors == r.doors && r'.pending == r.pending && r'.pointLights == r.pointLights
      && r'.translations == r.translations && r'.nextInstance == r.nextInstance
      && r.nextEntity <= r'.nextEntity
    decreases |xs|
  {
    if xs != [] {
      InteractablesFrame(RegisterInteractable(r, xs[0], nested), xs[1..], nested);
    }
  }

  /** Each interactable with a rule gets one new collider id; top-level ones are
      all ray targets. Earlier entries are kept. */
  lemma {:induction false} InteractablesRegistration(r: Registry, xs: seq<WorldInteractable>, nested: bool)
    requires Fresh(r)
    ensures var r' := RegisterInteractables(r, xs, nested);
      && Fresh(r')
      && r'.nextEntity == r.nextEntity + CountRules(xs)
      && |r'.interactables| == |r.interactables| + CountRules(xs)
      && (forall k | k in r.interactables :: k in r'.interactables && r'.interactables[k] == r.interactables[k])
      && r.rayTargets <= r'.rayTargets
      && (!nested ==> forall k | k in r'.interactables && k !in r.interactables :: k in r'.rayTargets)
    decreases |xs|
  {
    if xs != [] {
      var r1 := RegisterInteractable(r, xs[0], nested);
      assert Fresh(r1);
      InteractablesRegistration(r1, xs[1..], nested);
    }
  }

  /** Every ray target is an entity spawned before the counter. */
  ghost predicate TargetsFresh(r: Registry)
  {
    forall k | k in r.rayTargets :: k < r.nextEntity
  }

  /** A new interactable goes on the interaction ray's layer exactly when it
      belongs to the level itself or its trigger is "click": a train's other
      interactables can never be targeted. Earlier entities keep their layer. */
  lemma {:induction false} InteractablesTargeting(r: Registry, xs: seq<WorldInteractable>, nested: bool)
    requires Fresh(r) && TargetsFresh(r)
    ensures var r' := RegisterInteractables(r, xs, nested);
      && TargetsFresh(r')
      && (forall k | k in r.rayTargets :: k in r'.rayTargets)
      && (forall k | k in r'.rayTargets && k < r.nextEntity :: k in r.rayTargets)
      && (forall k | k in r'.interactables && k !in r.interactables ::
            (k in r'.rayTargets <==> !nested || r'.interactables[k].interaction.interaction == "click"))
    decreases |xs|
  {
    if xs != [] {
      var r1 := RegisterInteractable(r, xs[0], nested);
      InteractablesTargeting(r1, xs[1..], nested);
      InteractablesRegistration(r1, xs[1..], nested);
    }
  }

  /** Lights leave everything but the light names, the point lights and the
      entity counter alone. */
  lemma {:induction false} LightsFrame(r: Registry, ls: seq<WorldLight>)
    ensures var r' := RegisterLights(r, ls);
      && r'.interactables == r.interactables && r'.sounds == r.sounds && r'.trains == r.trains
      && r'.doors == r.doors && r'.pending == r.pending && r'.translations == r.translations
      && r'.rayTargets == r.rayTargets && r'.nextInstance == r.nextInstance
    decreases |ls|
  {
    if ls != [] {
      LightsFrame(RegisterLight(r, ls[0]), ls[1..]);
    }
  }

  /** Every light spawns one entity; animatable ones are recorded by name. */
  lemma {:induction false} LightsRegistration(r: Registry, ls: seq<WorldLight>)
    ensures var r' := RegisterLights(r, ls);
      && r'.nextEntity == r.nextEntity + |ls|
      && r'.lights.Keys == r.lights.Keys + LightAnims(ls)
    decreases |ls|
  {
    if ls != [] {
      LightsRegistration(RegisterLight(r, ls[0]), ls[1..]);
    }
  }

  /** `state` is what registering `ss` records for `n`: the sound, position
      and paused flag of the last record naming `n`, centred and at half volume. */
  ghost predicate RecordedLast(ss: seq<WorldSound>, n: string, state: WorldSoundState)
  {
    exists i | 0 <= i < |ss| && ss[i].animatable == Some(n) ::
      && state == WorldSoundState(ss[i].sound, ss[i].translation, 0.5, 0.5, ss[i].paused)
      && forall j | i < j < |ss| :: ss[j].animatable != Some(n)
  }

  /** Every name a record carries is among the sounds' animatable names. */
  lemma {:induction false} SoundAnimsHas(ss: seq<WorldSound>, j: int)
    requires 0 <= j < |ss| && ss[j].animatable.Some?
    ensures ss[j].animatable.value in SoundAnims(ss)
    decreases |ss|
  {
    if j > 0 {
      SoundAnimsHas(ss[1..], j - 1);
    }
  }

  /** Animatable sounds are recorded by name, centred and at half volume,
      each with the sound, position and paused flag of the last record naming
      it; nothing else changes. */
  lemma {:induction false} SoundsRegistration(r: Registry, ss: seq<WorldSound>)
    ensures var r' := RegisterSounds(r, ss);
      && r'.interactables == r.interactables && r'.lights == r.lights && r'.trains == r.trains
      && r'.doors == r.doors && r'.pending == r.pending && r'.nextEntity == r.nextEntity
      && r'.translations == r.translations
      && r'.sounds.Keys == r.sounds.Keys + SoundAnims(ss)
      && (forall n | n in SoundAnims(ss) :: n in r'.sounds && r'.sounds[n].panning == 0.5 && r'.sounds[n].volume == 0.5)
      && (forall n | n in SoundAnims(ss) :: n in r'.sounds && RecordedLast(ss, n, r'.sounds[n]))
      && (forall n | n in r.sounds && n !in SoundAnims(ss) :: n in r'.sounds && r'.sounds[n] == r.sounds[n])
    decreases |ss|
  {
    if ss != [] {
      var r1 := RegisterSound(r, ss[0]);
      SoundsRegistration(r1, ss[1..]);
      var r' := RegisterSounds(r, ss);
      forall n | n in SoundAnims(ss)
        ensures n in r'.sounds && RecordedLast(ss, n, r'.sounds[n])
      {
        if n in SoundAnims(ss[1..]) {
          var i :| 0 <= i < |ss[1..]| && ss[1..][i].animatable == Some(n)
                   && r'.sounds[n] == WorldSoundState(ss[1..][i].sound, ss[1..][i].translation, 0.5, 0.5, ss[1..][i].paused)
                   && forall j | i < j < |ss[1..]| :: ss[1..][j].animatable != Some(n);
          assert ss[i + 1] == ss[1..][i];
          forall j | i + 1 < j < |ss| ensures ss[j].animatable != Some(n) {
            assert ss[j] == ss[1..][j - 1];
          }
        } else {
          forall j | 0 < j < |ss| ensures ss[j].animatable != Some(n) {
            if ss[j].animatable == Some(n) {
              SoundAnimsHas(ss[1..], j - 1);
              assert false;
            }
          }
        }
      }
    }
  }

  /** A train's nested props only spawn scene instances. */
  lemma {:induction false} NestedPropsRegistration(r: Registry, ps: seq<WorldProp>, colliders: bool)
    ensures var r' := RegisterNestedProps(r, ps, colliders);
      && r'.interactables == r.interactables && r'.lights == r.lights && r'.sounds == r.sounds
      && r'.trains == r.trains && r'.doors == r.doors && r'.pending == r.pending
      && r'.pointLights == r.pointLights && r'.translations == r.translations
      && r'.rayTargets == r.rayTargets && r'.nextEntity == r.nextEntity
    decreases |ps|
  {
    if ps != [] {
      NestedPropsRegistration(RegisterNestedProp(r, ps[0], colliders), ps[1..], colliders);
    }
  }

  /** A train's children leave the named doors, sounds, trains and pending
      instances alone. */
  lemma TrainChildrenFrame(r: Registry, nested: WorldAsset, colliders: bool)
    ensures var r' := TrainChildren(r, nested, colliders);
      r'.doors == r.doors && r'.sounds == r.sounds && r'.pending == r.pending && r'.trains == r.trains
  {
    var r2 := RegisterNestedProps(r, nested.props, colliders);
    NestedPropsRegistration(r, nested.props, colliders);
    var r3 := RegisterLights(r2, nested.lights);
    LightsFrame(r2, nested.lights);
    InteractablesFrame(r3, nested.interactables, true);
  }

  /** A train's children add the nested level's lights and interactables once. */
  lemma TrainChildrenRegistration(r: Registry, nested: WorldAsset, colliders: bool)
    requires Fresh(r)
    ensures var r' := TrainChildren(r, nested, colliders);
      && Fresh(r')
      && |r'.interactables| == |r.interactables| + CountRules(nested.interactables)
      && r'.lights.Keys == r.lights.Keys + LightAnims(nested.lights)
  {
    var r2 := RegisterNestedProps(r, nested.props, colliders);
    NestedPropsRegistration(r, nested.props, colliders);
    var r3 := RegisterLights(r2, nested.lights);
    LightsFrame(r2, nested.lights);
    LightsRegistration(r2, nested.lights);
    assert Fresh(r3);
    InteractablesFrame(r3, nested.interactables, true);
    InteractablesRegistration(r3, nested.interactables, true);
  }

  /** One train's own entry: an animatable train is recorded stopped, with the
      parent it spawned; nothing else named changes. */
  lemma TrainEntry(r: Registry, t: WorldTrain, nested: WorldAsset, colliders: bool)
    ensures var r' := RegisterTrain(r, t, nested, colliders);
      && r'.doors == r.doors && r'.sounds == r.sounds && r'.pending == r.pending
      && r'.trains == if t.animatable.Some? then r.trains[t.animatable.value := WorldTrainState(Some(r.nextEntity), false)] else r.trains
  {
    TrainChildrenFrame(r.(nextEntity := r.nextEntity + 1, translations := r.translations[r.nextEntity := t.translation]), nested, colliders);
  }

  /** One train's children. */
  lemma TrainRegistration(r: Registry, t: WorldTrain, nested: WorldAsset, colliders: bool)
    requires Fresh(r)
    ensures var r' := RegisterTrain(r, t, nested, colliders);
      && Fresh(r')
      && |r'.interactables| == |r.interactables| + CountRules(nested.interactables)
      && r'.lights.Keys == r.lights.Keys + LightAnims(nested.lights)
  {
    var r0 := r.(nextEntity := r.nextEntity + 1, translations := r.translations[r.nextEntity := t.translation]);
    assert Fresh(r0);
    TrainChildrenRegistration(r0, nested, colliders);
  }

  lemma MulSucc(n: nat, c: nat)
    ensures (n + 1) * c == c + n * c
  {
  }

  /** Every train gets its own copy of the nested level's interactables, and
      leaves the doors, sounds and pending instances alone. */
  lemma {:induction false} TrainsRegistration(r: Registry, ts: seq<WorldTrain>, nested: WorldAsset, colliders: bool)
    requires Fresh(r)
    ensures var r' := RegisterTrains(r, ts, nested, colliders);
      && r'.doors == r.doors && r'.sounds == r.sounds && r'.pending == r.pending
      && Fresh(r')
      && |r'.interactables| == |r.interactables| + |ts| * CountRules(nested.interactables)
    decreases |ts|
  {
    if ts != [] {
      var r1 := RegisterTrain(r, ts[0], nested, colliders);
      TrainEntry(r, ts[0], nested, colliders);
      TrainRegistration(r, ts[0], nested, colliders);
      TrainsRegistration(r1, ts[1..], nested, colliders);
      MulSucc(|ts[1..]|, CountRules(nested.interactables));
    }
  }

  /** Trains leave the doors, sounds and pending instances alone. */
  lemma {:induction false} TrainsFrame(r: Registry, ts: seq<WorldTrain>, nested: WorldAsset, colliders: bool)
    ensures var r' := RegisterTrains(r, ts, nested, colliders);
      r'.doors == r.doors && r'.sounds == r.sounds && r'.pending == r.pending
    decreases |ts|
  {
    if ts != [] {
      TrainEntry(r, ts[0], nested, colliders);
      TrainsFrame(RegisterTrain(r, ts[0], nested, colliders), ts[1..], nested, colliders);
    }
  }

  /** Animatable trains are recorded by name, stopped and with a parent. */
  lemma {:induction false} TrainsNamed(r: Registry, ts: seq<WorldTrain>, nested: WorldAsset, colliders: bool)
    ensures var r' := RegisterTrains(r, ts, nested, colliders);
      && r'.trains.Keys == r.trains.Keys + TrainAnims(ts)
      && (forall n | n in TrainAnims(ts) :: n in r'.trains && !r'.trains[n].running && r'.trains[n].parentEntity.Some?)
      && (forall n | n in r.trains && n !in TrainAnims(ts) :: n in r'.trains && r'.trains[n] == r.trains[n])
    decreases |ts|
  {
    if ts != [] {
      var r1 := RegisterTrain(r, ts[0], nested, colliders);
      TrainEntry(r, ts[0], nested, colliders);
      TrainsNamed(r1, ts[1..], nested, colliders);
    }
  }

  /** The nested level's named lights are added once there is a train. */
  lemma {:induction false} TrainsLights(r: Registry, ts: seq<WorldTrain>, nested: WorldAsset, colliders: bool)
    requires Fresh(r)
    ensures var r' := RegisterTrains(r, ts, nested, colliders);
      r'.lights.Keys == r.lights.Keys + (if ts == [] then {} else LightAnims(nested.lights))
    decreases |ts|
  {
    if ts != [] {
      var r1 := RegisterTrain(r, ts[0], nested, colliders);
      TrainRegistration(r, ts[0], nested, colliders);
      TrainsLights(r1, ts[1..], nested, colliders);
    }
  }

  /** A whole level loaded from scratch: its doors and sounds are exactly the
      named ones from the file, doors all closed, and the pending scene
      instances are the animatable props (none in colliders mode). */
  lemma RegistrationNamed(level: WorldAsset, trainLevel: WorldAsset, colliders: bool,
                          pointLights: map<nat, real>, translations: map<nat, Vec3>, rayTargets: set<nat>,
                          nextEntity: nat, nextInstance: nat)
    requires !SetupPanics(level, colliders)
    ensures var r := Registration(level, trainLevel, colliders, Reset(pointLights, translations, rayTargets, nextEntity, nextInstance));
      && r.doors.Keys == DoorNames(level.doors)
      && (forall n | n in r.doors :: !r.doors[n].open && r.doors[n].parentEntity.Some?)
      && r.sounds.Keys == SoundAnims(level.sounds)
      && r.pending.Keys == (if colliders then {} else PropAnims(level.props))
  {
    var r0 := Reset(pointLights, translations, rayTargets, nextEntity, nextInstance);
    var r1 := RegisterProps(r0, level.props, colliders);
    PropsFrame(r0, level.props, colliders);
    PropsRegistration(r0, level.props, colliders);
    if !colliders {
      PropsNamed(r0, level.props, colliders);
    }
    var r2 := RegisterDoors(r1, level.doors, colliders);
    DoorsFrame(r1, level.doors, colliders);
    DoorsRegistration(r1, level.doors, colliders);
    assert r2.doors.Keys == DoorNames(level.doors);
    var r3 := RegisterInteractables(r2, level.interactables, false);
    InteractablesFrame(r2, level.interactables, false);
    var r4 := RegisterLights(r3, level.lights);
    LightsFrame(r3, level.lights);
    var r5 := RegisterSounds(r4, level.sounds);
    SoundsRegistration(r4, level.sounds);
    assert r5.doors == r2.doors && r5.pending == r1.pending;
    TrainsFrame(r5, level.trains, trainLevel, colliders);
  }

  /** The registry just before the trains: trains empty, the level's
      animatable lights named, and the entity ids still fresh. */
  lemma BeforeTrains(level: WorldAsset, colliders: bool,
                     pointLights: map<nat, real>, translations: map<nat, Vec3>, rayTargets: set<nat>,
                     nextEntity: nat, nextInstance: nat)
    ensures var r0 := Reset(pointLights, translations, rayTargets, nextEntity, nextInstance);
      var r5 := RegisterSounds(RegisterLights(RegisterInteractables(RegisterDoors(RegisterProps(r0, level.props, colliders), level.doors, colliders), level.interactables, false), level.lights), level.sounds);
      && r5.trains == map[] && r5.lights.Keys == LightAnims(level.lights) && Fresh(r5)
  {
    var r0 := Reset(pointLights, translations, rayTargets, nextEntity, nextInstance);
    var r1 := RegisterProps(r0, level.props, colliders);
    PropsFrame(r0, level.props, colliders);
    var r2 := RegisterDoors(r1, level.doors, colliders);
    DoorsFrame(r1, level.doors, colliders);
    var r3 := RegisterInteractables(r2, level.interactables, false);
    InteractablesFrame(r2, level.interactables, false);
    InteractablesRegistration(r2, level.interactables, false);
    var r4 := RegisterLights(r3, level.lights);
    LightsFrame(r3, level.lights);
    LightsRegistration(r3, level.lights);
    SoundsRegistration(r4, level.sounds);
  }

  /** Every entity with a transform was spawned before the counter. */
  ghost predicate TransformsFresh(r: Registry)
  {
    forall e | e in r.translations :: e < r.nextEntity
  }

  /** A train's children add no transform and only spawn new entities. */
  lemma TrainChildrenKeepTransforms(r: Registry, nested: WorldAsset, colliders: bool)
    ensures var r' := TrainChildren(r, nested, colliders);
      r'.translations == r.translations && r.nextEntity <= r'.nextEntity
  {
    var r2 := RegisterNestedProps(r, nested.props, colliders);
    NestedPropsRegistration(r, nested.props, colliders);
    LightsFrame(r2, nested.lights);
    LightsRegistration(r2, nested.lights);
    InteractablesFrame(RegisterLights(r2, nested.lights), nested.interactables, true);
  }

  /** Trains give each parent a transform on a fresh entity, so the transform
      of every entity spawned before them is kept as it was. */
  lemma {:induction false} TrainsKeepTransforms(r: Registry, ts: seq<WorldTrain>, nested: WorldAsset, colliders: bool)
    requires TransformsFresh(r)
    ensures var r' := RegisterTrains(r, ts, nested, colliders);
      && TransformsFresh(r')
      && forall e | e in r.translations :: e in r'.translations && r'.translations[e] == r.translations[e]
    decreases |ts|
  {
    if ts != [] {
      var r0 := r.(nextEntity := r.nextEntity + 1, translations := r.translations[r.nextEntity := ts[0].translation]);
      TrainChildrenKeepTransforms(r0, nested, colliders);
      TrainsKeepTransforms(RegisterTrain(r, ts[0], nested, colliders), ts[1..], nested, colliders);
    }
  }

  /** A whole level loaded over a scene whose transforms all belong to
      earlier entities (the player's mover among them): every such transform
      survives world loading unchanged. */
  lemma RegistrationKeepsTransforms(level: WorldAsset, trainLevel: WorldAsset, colliders: bool,
                                    pointLights: map<nat, real>, translations: map<nat, Vec3>, rayTargets: set<nat>,
                                    nextEntity: nat, nextInstance: nat)
    requires forall e | e in translations :: e < nextEntity
    ensures var r := Registration(level, trainLevel, colliders, Reset(pointLights, translations, rayTargets, nextEntity, nextInstance));
      forall e | e in translations :: e in r.translations && r.translations[e] == translations[e]
  {
    var r0 := Reset(pointLights, translations, rayTargets, nextEntity, nextInstance);
    var r1 := RegisterProps(r0, level.props, colliders);
    PropsFrame(r0, level.props, colliders);
    var r2 := RegisterDoors(r1, level.doors, colliders);
    DoorsFrame(r1, level.doors, colliders);
    var r3 := RegisterInteractables(r2, level.interactables, false);
    InteractablesFrame(r2, level.interactables, false);
    var r4 := RegisterLights(r3, level.lights);
    LightsFrame(r3, level.lights);
    LightsRegistration(r3, level.lights);
    var r5 := RegisterSounds(r4, level.sounds);
    SoundsRegistration(r4, level.sounds);
    assert TransformsFresh(r5);
    TrainsKeepTransforms(r5, level.trains, trainLevel, colliders);
  }

  /** A whole level loaded from scratch: its trains are exactly the named ones,
      all stopped, each with its parent entity. */
  lemma RegistrationTrains(level: WorldAsset, trainLevel: WorldAsset, colliders: bool,
                           pointLights: map<nat, real>, translations: map<nat, Vec3>, rayTargets: set<nat>,
                           nextEntity: nat, nextInstance: nat)
    ensures var r := Registration(level, trainLevel, colliders, Reset(pointLights, translations, rayTargets, nextEntity, nextInstance));
      && r.trains.Keys == TrainAnims(level.trains)
      && (forall n | n in r.trains :: !r.trains[n].running && r.trains[n].parentEntity.Some?)
  {
    BeforeTrains(level, colliders, pointLights, translations, rayTargets, nextEntity, nextInstance);
    var r0 := Reset(pointLights, translations, rayTargets, nextEntity, nextInstance);
    var r5 := RegisterSounds(RegisterLights(RegisterInteractables(RegisterDoors(RegisterProps(r0, level.props, colliders), level.doors, colliders), level.interactables, false), level.lights), level.sounds);
    TrainsNamed(r5, level.trains, trainLevel, colliders);
  }

  /** A whole level loaded from scratch: the animatable lights are the level's
      plus, when there is a train, the train level's. */
  lemma RegistrationLights(level: WorldAsset, trainLevel: WorldAsset, colliders: bool,
                           pointLights: map<nat, real>, translations: map<nat, Vec3>, rayTargets: set<nat>,
                           nextEntity: nat, nextInstance: nat)
    ensures var r := Registration(level, trainLevel, colliders, Reset(pointLights, translations, rayTargets, nextEntity, nextInstance));
      r.lights.Keys == LightAnims(level.lights) + (if level.trains == [] then {} else LightAnims(trainLevel.lights))
  {
    BeforeTrains(level, colliders, pointLights, translations, rayTargets, nextEntity, nextInstance);
    var r0 := Reset(pointLights, translations, rayTargets, nextEntity, nextInstance);
    var r5 := RegisterSounds(RegisterLights(RegisterInteractables(RegisterDoors(RegisterProps(r0, level.props, colliders), level.doors, colliders), level.interactables, false), level.lights), level.sounds);
    TrainsLights(r5, level.trains, trainLevel, colliders);
  }

  /** A whole level loaded from scratch: the interactables are the top-level
      ones with a rule plus one copy of the train level's per train. */
  lemma RegistrationInteractables(level: WorldAsset, trainLevel: WorldAsset, colliders: bool,
                                  pointLights: map<nat, real>, translations: map<nat, Vec3>, rayTargets: set<nat>,
                                  nextEntity: nat, nextInstance: nat)
    ensures var r := Registration(level, trainLevel, colliders, Reset(pointLights, translations, rayTargets, nextEntity, nextInstance));
      |r.interactables| == CountRules(level.interactables) + |level.trains| * CountRules(trainLevel.interactables)
  {
    var r0 := Reset(pointLights, translations, rayTargets, nextEntity, nextInstance);
    var r1 := RegisterProps(r0, level.props, colliders);
    PropsFrame(r0, level.props, colliders);
    var r2 := RegisterDoors(r1, level.doors, colliders);
    DoorsFrame(r1, level.doors, colliders);
    assert r2.interactables == map[];
    var r3 := RegisterInteractables(r2, level.interactables, false);
    InteractablesRegistration(r2, level.interactables, false);
    var r4 := RegisterLights(r3, level.lights);
    LightsFrame(r3, level.lights);
    LightsRegistration(r3, level.lights);
    var r5 := RegisterSounds(r4, level.sounds);
    SoundsRegistration(r4, level.sounds);
    assert Fresh(r5);
    TrainsRegistration(r5, level.trains, trainLevel, colliders);
  }

  /** A resolving tick removes from the waiting set exactly the keys whose
      instance reported an entity. */
  lemma TickShrinksWaiting(before: map<string, AnimatableState>, after: map<string, AnimatableState>,
                           scenes: map<string, nat>, spawner: map<nat, set<nat>>)
    requires ResolvedTick(before, after, scenes, spawner)
    ensures WaitingKeys(scenes, after)
            == set k | k in WaitingKeys(scenes, before) && InstanceEntities(spawner, scenes[k]) == {}
  {
  }

  /** Only keys starting with "switch" get a clip. */
  lemma ResolvedClips(key: string, a: AnimatableState, scenes: map<string, nat>, spawner: map<nat, set<nat>>)
    requires ResolvedEntry(key, a, scenes, spawner)
    ensures |a.clips| == (if "switch" <= key then 1 else 0)
    ensures a.clips != [] ==> a.clips[0] == SwitchClip
  {
  }

  /** A switch whose instance reports nothing, then one entity, then three: it
      is resolved on the second tick to that one entity, and the third tick
      leaves it as it is. */
  lemma FirstReportResolves(a1: map<string, AnimatableState>, a2: map<string, AnimatableState>, a3: map<string, AnimatableState>)
    requires ResolvedTick(map[], a1, map["switch_01" := 5], map[5 := {}])
    requires ResolvedTick(a1, a2, map["switch_01" := 5], map[5 := {12}])
    requires ResolvedTick(a2, a3, map["switch_01" := 5], map[5 := {12, 9, 10}])
    ensures "switch_01" !in a1
    ensures a2["switch_01"] == AnimatableState(Some(12), [SwitchClip])
    ensures a3["switch_01"] == a2["switch_01"]
    ensures WaitingKeys(map["switch_01" := 5], a3) == {}
  {
    var scenes := map["switch_01" := 5];
    assert InstanceEntities(map[5 := {12}], 5) == {12};
    assert "switch_01" in a2;
    var m := a2["switch_01"].sceneEntity.value;
    assert IsLeast(m, {12});
  }
}

=== FILE: world_state.dfy ===
/** The live state of a loaded level, shared by every gameplay system, and the
    few engine-side components those systems read and write. */
module WorldStates {
  import opened Common
  import opened WorldAssets

  /** A registered interaction target: the rule copied from the level file. */
  datatype InteractableState = InteractableState(interaction: WorldInteraction)

  /** An animatable once its scene has been instantiated: the entity chosen to
      stand for the scene and the animation clips it can play (clip handles are
      modelled by their asset paths). */
  datatype AnimatableState = AnimatableState(sceneEntity: Option<nat>, clips: seq<string>)
  {
    /** The derived default: no scene entity, no clips. */
    static function Default(): (a: AnimatableState)
      ensures a.sceneEntity.None? && a.clips == []
    {
      AnimatableState(None, [])
    }
  }

  datatype WorldSoundState = WorldSoundState(sound: string, position: Vec3, panning: real, volume: real, paused: bool)

  datatype WorldTrainState = WorldTrainState(parentEntity: Option<nat>, running: bool)
  {
    /** The derived default: not running, no parent entity. */
    static function Default(): (t: WorldTrainState)
      ensures !t.running && t.parentEntity.None?
    {
      WorldTrainState(None, false)
    }
  }

  datatype DoorState = DoorState(parentEntity: Option<nat>, open: bool)
  {
    /** The derived default: closed, no parent entity. */
    static function Default(): (d: DoorState)
      ensures !d.open && d.parentEntity.None?
    {
      DoorState(None, false)
    }
  }

  /** The level's live state. Interactables are keyed by the entity id of their
      collider; every other map is keyed by a name from the level file. */
  class WorldState {
    var interactableStates: map<nat, InteractableState>
    var animatables: map<string, AnimatableState>
    var animatableLights: map<string, nat>
    var animatableSounds: map<string, WorldSoundState>
    var animatableTrains: map<string, WorldTrainState>
    var doors: map<string, DoorState>
    var activeTrain: Option<string>
    /** The level chosen in the menu: "world01", "world03" or "credits". */
    var activeWorld: string

    /** The derived default: every map empty, no active train. */
    constructor ()
      ensures interactableStates == map[] && animatables == map[] && animatableLights == map[]
      ensures animatableSounds == map[] && animatableTrains == map[] && doors == map[]
      ensures activeTrain == None && activeWorld == ""
    {
      interactableStates := map[];
      animatables := map[];
      animatableLights := map[];
      animatableSounds := map[];
      animatableTrains := map[];
      doors := map[];
      activeTrain := None;
      activeWorld := "";
    }
  }

  /** What the interaction ray reports: of the entities whose colliders the
      ray meets, in order of distance, the first one on the layer the ray is
      filtered to (`targets`), or none. */
  function RayHit(along: seq<nat>, targets: set<nat>): (hit: Option<nat>)
    ensures hit.None? <==> forall i | 0 <= i < |along| :: along[i] !in targets
    ensures hit.Some? ==> hit.value in targets
    ensures hit.Some? ==> exists i | 0 <= i < |along| :: along[i] == hit.value && forall j | 0 <= j < i :: along[j] !in targets
    decreases |along|
  {
    if along == [] then None
    else if along[0] in targets then Some(along[0])
    else
      var rest := RayHit(along[1..], targets);
      assert forall i | 0 <= i < |along[1..]| :: along[1..][i] == along[i + 1];
      rest
  }

  /** The engine-side components the gameplay systems touch: the id of the next
      entity and of the next scene instance the engine will hand out, the
      intensity of every entity carrying a point light, the translation of every
      entity with a transform, and the entities on the collision layer the
      interaction ray is filtered to. */
  class Scene {
    var nextEntity: nat
    var nextInstance: nat
    var pointLights: map<nat, real>
    var translations: map<nat, Vec3>
    var rayTargets: set<nat>

    constructor (firstEntity: nat, firstInstance: nat)
      ensures nextEntity == firstEntity && nextInstance == firstInstance
      ensures pointLights == map[] && translations == map[] && rayTargets == {}
    {
      nextEntity := firstEntity;
      nextInstance := firstInstance;
      pointLights := map[];
      translations := map[];
      rayTargets := {};
    }

    /** `Commands::spawn`: a new entity, with an id no earlier spawn returned. */
    method Spawn() returns (e: nat)
      modifies this`nextEntity
      ensures e == old(nextEntity) && nextEntity == e + 1
    {
      e := nextEntity;
      nextEntity := nextEntity + 1;
    }

    /** `SceneSpawner::spawn_as_child`: a new scene instance id. */
    method SpawnScene() returns (instance: nat)
      modifies this`nextInstance
      ensures instance == old(nextInstance) && nextInstance == instance + 1
    {
      instance := nextInstance;
      nextInstance := nextInstance + 1;
    }
  }
}
